=== FILE: README.md ===
# wed-demo record store and pack matching, in Dafny

This project models the record layer of the wed-demo dashboard. It covers:

- the IndexedDB database (`store.ts`) and its five tables: XML files, packs, schemas, metadata and chunks;
- the generic record service (`db.service.ts`) with its change notifications, name lookup, write checks and file loading;
- the content-addressed chunks that hold every file's text (`chunk.ts`);
- the per-kind services for XML files, schemas, metadata and packs;
- the pack matching of `packs.service.ts`. It maps the qualified name of a document's top element to the newest pack that claims that element.
- the database upgrade (`upgrade.service.ts`), which drops packs older than record version 2;
- the registry of editing modes (`modes.service.ts`);
- the editing-data cache, `edit` and `newFile` of the XML files component (`xml-files.component.ts`).

Everything is modelled with pure functions over immutable values:

- A table is a map from primary key to record, plus the next key the generator will hand out and a count of the change notifications it has emitted.
- A database is five tables.
- A settled promise is a `Result`.

The collaborators the code calls without defining them are parameters:

- the md5 digest, as `string -> string`;
- the schema grammar, which gives the start-tag events it can produce or `None` when the schema does not compile;
- the JSON codec of the pack interchange format;
- the XML parser, which gives the top element of a document.

An injective digest is only ever assumed as a precondition of a lemma.

Modules, one per source file:

- `Wrappers`, `Strings`, `Keys`: generic helpers.
- `Errors`: the errors the code throws, with their messages.
- `Chunks`, `ChunksService`: the chunk record and its table.
- `Records`: the four kinds of stored records.
- `DbService`: the generic record service.
- `PackRecord`: the pack record.
- `Store`: the database, its hooks, its URLs, and dump and load.
- `XmlFilesService`, `SchemasService`, `MetadataService`, `PacksService`: the per-kind services.
- `UpgradeService`, `ModesService`, `XmlFilesComponent`: the upgrade, the mode registry and the component.

## Model

| member | source | states |
|---|---|---|
| Chunks.MakeChunk | src/dashboard/chunk.ts:5-42 | The id of a chunk is the digest of its text. A string becomes a file with an empty name; a file keeps its own name. The cached data is the text itself. The chunk has record version 1 and record type "Chunk". |
| Chunks.GetData | src/dashboard/chunk.ts:32-38 | It returns the cached data when there is some. Otherwise it reads the file and caches that. When the cache is faithful, the result is the file's content. The id, file and record version stay as they were. |
| Chunks.Stored | src/dashboard/chunk.ts:5-30 | A chunk read back from the store keeps its id, file and record version and has no cached data. |
| Chunks.SameContentSameId | src/dashboard/chunk.ts:13-24 | Two sources with the same text give chunks with the same id. |
| Chunks.GetDataReturnsDigestedText | src/dashboard/chunk.ts:13-38 | The data of a new chunk is the text whose digest is its id. |
| Chunks.GetDataIdempotent | src/dashboard/chunk.ts:32-38 | A second `getData` returns the same data and changes nothing. |
| Chunks.DistinctContentDistinctId | src/dashboard/chunk.ts:13-24 | With an injective digest, different texts give different chunk ids. |
| ChunksService.UpdateChunk | test/chunks.service.test.ts:82-101 | A fresh id is inserted and announced. The same content again is a no-op. Different content under a known id is refused with a content-mismatch error, exactly when that is the case. Stored entries are never lost. |
| ChunksService.StoreText | src/dashboard/xml-files.service.ts:22-26 | Storing text yields the text's digest as its id, and the id then reads back the text. It fails only when the digest is taken by another text. |
| ChunksService.ClearChunks | src/dashboard/db.service.ts:147-153 | Clearing empties the chunks and announces a change. |
| ChunksService.UpdateIdempotent | test/chunks.service.test.ts:97-101 | Storing a chunk a second time returns it and leaves the table as it is. |
| ChunksService.MismatchKeepsStoredText | test/chunks.service.test.ts:88-95 | A chunk whose content differs from the text stored under its id is refused. |
| ChunksService.StoreTextSucceeds | test/chunks.service.test.ts:82-101 | In a table whose ids are digests of their texts, an injective digest means storing never fails and keeps that property. |
| Records.NewXMLFile | src/dashboard/xml-files.service.ts:22-26 | A new XML file has no id and no pack, and has the name and chunk given and record version 1. |
| DbService.UpdateRecord | src/dashboard/db.service.ts:72-81 | A record without an id gets the next key; one with an id is written under it. It fails with a constraint error exactly when another row has the same name. On success the saved record carries its key, the change is announced and the table stays valid. |
| DbService.DeleteRecord | src/dashboard/db.service.ts:58-70 | A record without an id is an error. Otherwise its row is removed and the change announced. |
| DbService.GetRecordById | src/dashboard/db.service.ts:83-85 | It finds a row exactly when the key is present, and the row found carries that id. |
| DbService.GetRecordByName | src/dashboard/db.service.ts:87-89 | It finds a row exactly when some row has the name. In a table with unique names, it finds that row. |
| DbService.GetRecords | src/dashboard/db.service.ts:54-56 | The listing has one entry per row. Every row is in it and nothing else is. |
| DbService.GetRecordsOrdered | src/dashboard/db.service.ts:54-56 | When rows carry their own keys as ids, the listing is in increasing primary-key order. |
| DbService.GetNameIdArray | src/dashboard/db.service.ts:184-192 | There is one name and id pair per row, each taken from a row. |
| DbService.NameIdArrayComplete | src/dashboard/db.service.ts:184-192 | Every row's name and key appear in the array. |
| DbService.GetRecordCount | src/dashboard/db.service.ts:194-196 | The count is the number of rows and the length of the listing. |
| DbService.Clear | src/dashboard/db.service.ts:147-153 | Clearing leaves no rows, announces a change and keeps the key generator. |
| DbService.Retarget | src/dashboard/db.service.ts:91-103 | A record loaded into an existing one takes over that record's id and name. |
| DbService.LoadFromFile | src/dashboard/db.service.ts:91-103 | A failure to make the record is a failure of the load, and after that only the name index can refuse it. On success the saved record is stored under its id, every other row is kept, one change is announced and the table stays valid. Loading into a saved record keeps that record's id and name. |
| DbService.WriteCheck | src/dashboard/db.service.ts:105-117 | For a new name it writes without asking. For a taken name it asks the overwrite question, and writes into the existing record exactly when the answer is yes. |
| DbService.SaveNewRecord | src/dashboard/db.service.ts:177-180 | A failure to make the record fails the save, and after that only the name index can refuse it. On success the saved record is stored under its id, every other row is kept, one change is announced and the table stays valid. |
| DbService.SaveNewRecordAdds | src/dashboard/db.service.ts:177-180 | A made record without an id is saved under the next key. The count grows by one, and the record is found by that key and by its name. |
| DbService.Add | src/dashboard/store.ts:184-212 | A direct add succeeds exactly when the key is free and the name unused. It announces nothing. |
| DbService.BulkAdd | src/dashboard/store.ts:208 | The rows are tried in turn: a refused row is skipped and the later ones are still added. Rows already there are kept, nothing is announced, the table stays valid, and a refusal is a constraint error. |
| DbService.BulkAddOutcome | src/dashboard/store.ts:208 | A bulk add adds at most one row per input row, and a refusal is reported exactly when fewer rows were added than given. |
| DbService.BulkAddFromRows | src/dashboard/store.ts:208 | Every row a bulk add adds is a row of the input, stored under its key. |
| DbService.UpdateThenGet | src/dashboard/db.service.ts:72-89 | After an update, the saved record is found by its id and by its name, and every other id finds what it found before. |
| DbService.UpdateCount | src/dashboard/db.service.ts:72-81 | Saving a new record adds one row; saving over an existing key keeps the count. |
| DbService.DeleteThenGet | src/dashboard/db.service.ts:58-85 | After a delete the id finds nothing, and a second delete changes no rows. |
| DbService.LoadIntoKeepsIdentity | src/dashboard/db.service.ts:91-103 | Loading into an existing record keeps its id and name and the number of rows. |
| DbService.SafeLoadDecline | src/dashboard/db.service.ts:119-145 | When the name is taken and the user declines, nothing is written. |
| DbService.SafeLoadFreshName | src/dashboard/db.service.ts:119-145 | For a new name no question is asked, and the file is loaded as a new record. |
| DbService.SafeLoadAccept | src/dashboard/db.service.ts:119-145 | When the name is taken and the user accepts, the file replaces the existing record under its id. |
| DbService.RowsOf | src/dashboard/store.ts:184-212 | The map built from a listing has exactly the listed ids as keys. |
| DbService.GetRecordsDistinct | src/dashboard/store.ts:151-212 | The listing of a valid table has distinct ids and names, and rebuilding a map from it gives back the table's rows. |
| DbService.BulkAddDistinct | src/dashboard/store.ts:208 | Adding rows with new ids and new names reports no refusal and adds exactly those rows. |
| PackRecord.NewPack | src/dashboard/pack.ts:51-66 | A new pack has no id and record version 2, and carries the payload given. Without a payload it matches any top element with no schema. |
| PackRecord.CopyInto | src/dashboard/pack.ts:78-84 | The copy keeps the target's id and version and takes the source's name and payload. |
| PackRecord.Clone | src/dashboard/pack.ts:72-76 | A clone is a pack with the name and payload of its original, no id and the current version. |
| PackRecord.CloneCopiesPayload | src/dashboard/pack.ts:72-76 | A clone has the name and payload of its original, no id and the current version. |
| PackRecord.CopyIntoIdempotent | src/dashboard/pack.ts:78-84 | Copying the same pack twice is the same as once, and copying a pack into itself changes nothing. |
| PackRecord.PayloadRoundTrip | src/dashboard/pack.ts:51-66 | A new pack built from a pack's name and payload is that pack, when the pack has no id and the current version. |
| Store.CreationHook | src/dashboard/store.ts:78-84 | On creation, the properties that start with a double underscore are dropped and the rest are kept. |
| Store.UpdateHook | src/dashboard/store.ts:86-95 | On update, every double-underscore property being modified is deleted instead. |
| Store.ApplyMods | src/dashboard/store.ts:86-95 | A modification sets the properties given a value and deletes those given none. Other properties are kept. |
| Store.HooksKeepDunderOut | src/dashboard/store.ts:78-101 | With both hooks installed, no stored object gains a double-underscore property, and properties left unmodified survive. |
| Store.CreationHookIdempotent | src/dashboard/store.ts:78-84 | The creation hook is idempotent, and it is the identity on objects without double-underscore properties. |
| Store.ResolveKey | src/dashboard/store.ts:104-117 | An object is only refused as a key on a table with a compound key path. |
| Store.MakeIndexedDBURL | src/dashboard/store.ts:104-135 | A URL is made exactly when the key resolves to a number or a string. Any other key type is refused with its type's name. The URL names the database, the table, the key's type and the key, then the property if one is given. |
| Store.URLDistinguishesRecords | src/dashboard/store.ts:104-135 | Two records with different ids in the same table get different URLs. |
| Store.XmlFileURLs | src/dashboard/store.ts:129-132 | This is the exact URL of XML file 1 and of its data, and a file without an id is refused as undefined. |
| Store.ChunkIdToData | src/dashboard/store.ts:137-146 | A missing chunk is an error; otherwise the result is its text. |
| Store.StoredTextReadsBack | src/dashboard/store.ts:137-146 | The id returned when text is stored reads back that text. |
| Store.DumpDatabase | src/dashboard/store.ts:151-177 | The dump carries the date and interchange version 1. It lists every table's rows and every chunk's text, and nothing else. |
| Store.DumpChunks | src/dashboard/store.ts:151-177 | The chunk rows of a dump list every chunk once, each with its text, and nothing else. |
| Store.Wipe | src/dashboard/store.ts:193 | Clearing a table during a load removes its rows without announcing it. |
| Store.BulkAddChunks | src/dashboard/store.ts:208 | A chunk whose id is present is skipped and the later ones are still added. Chunks already there are kept, every listed id ends up present, each new chunk is a listed row, nothing is announced, and a refusal is a constraint error. |
| Store.BulkAddChunksOutcome | src/dashboard/store.ts:208 | A refusal is reported exactly when fewer chunks were added than given. |
| Store.LoadTable | src/dashboard/store.ts:193-208 | The table is wiped, and one absent from the dump stays empty. It ends up valid and holding only rows of the dump under their keys, and a refusal is reported exactly when a row of the dump is missing. |
| Store.LoadChunks | src/dashboard/store.ts:193-208 | The chunks are wiped, and stay empty when the dump has none. Every listed id ends up present with a listed text, and a refusal is reported exactly when a listed chunk is missing. |
| Store.Load | src/dashboard/store.ts:184-212 | A dump with another interchange version is refused with its version, and nothing is touched. Otherwise every table is wiped and loaded on its own, whatever happens to the others. The database stays valid, and a refusal is reported exactly when some table refused a row. |
| Store.RepeatedNameKeepsFirst | src/dashboard/store.ts:184-212 | A dump whose XML files repeat a name: the load reports a constraint error, yet every table has been wiped and the first of the two files is stored. |
| Store.BulkAddChunksDistinct | src/dashboard/store.ts:208 | Adding chunks with new, distinct ids reports no refusal, and each id then holds its own text. |
| Store.BulkAddChunksOfListing | src/dashboard/store.ts:208 | Adding a listing of chunks to an empty table reports no refusal and gives exactly the chunks listed. |
| Store.LoadChunksOfListing | src/dashboard/store.ts:184-212 | Loading a listing of chunks gives back exactly the chunks listed. |
| Store.LoadTableOfListing | src/dashboard/store.ts:184-212 | Loading the listing of a valid table gives back its rows. |
| Store.DumpLoadRoundTrip | src/dashboard/store.ts:151-212 | Loading the dump of a valid database, into any database, reports no refusal and gives back every table's rows and every chunk. |
| Store.LoadTableContents | src/dashboard/store.ts:184-212 | Loading rows with distinct ids and names reports no refusal and gives exactly those rows. |
| XmlFilesService.MakeRecord | src/dashboard/xml-files.service.ts:22-26 | The new file's chunk is the digest of the data, and that chunk is stored. It fails only on a content mismatch. |
| XmlFilesService.GetDownloadData | src/dashboard/xml-files.service.ts:28-30 | The download data is the text of the file's chunk, when that chunk exists. |
| XmlFilesService.DownloadRoundTrip | src/dashboard/xml-files.service.ts:22-30 | The download data of a file just made is the data it was made from. |
| XmlFilesService.DownloadAfterLaterChunks | src/dashboard/xml-files.service.ts:22-30 | The data stays downloadable whatever chunks are stored later. |
| XmlFilesService.MakeIndexedDBURL | src/dashboard/xml-files.service.ts:32-34 | A file has a URL exactly when it has an id, namely the store's URL in the XML files table: its numeric id, then the property if one is given. |
| XmlFilesService.WithPack | src/dashboard/xml-files.service.ts:43-45 | It keeps exactly the XML files that name the pack. |
| XmlFilesService.GetByPack | src/dashboard/xml-files.service.ts:43-45 | The files returned are exactly the rows that name the pack. |
| XmlFilesService.IsPackUsed | src/dashboard/xml-files.service.ts:36-41 | A pack is used exactly when some XML file names it. |
| XmlFilesService.IsPackUsedIffGetByPack | src/dashboard/xml-files.service.ts:36-45 | A pack is used exactly when the list of files naming it is not empty. |
| SchemasService.MakeRecord | src/dashboard/schemas.service.ts:25-29 | The new schema's chunk is the digest of the data, and that chunk is stored. |
| SchemasService.GetDownloadData | src/dashboard/schemas.service.ts:31-33 | The download data is the text of the schema's chunk; a missing chunk is an error. |
| SchemasService.DownloadRoundTrip | src/dashboard/schemas.service.ts:25-33 | The download data of a schema just made is the data it was made from. |
| MetadataService.MakeRecord | src/dashboard/metadata.service.ts:25-29 | The new metadata's chunk is the digest of the data, and that chunk is stored. |
| MetadataService.GetDownloadData | src/dashboard/metadata.service.ts:31-33 | The download data is the text of the metadata's chunk; a missing chunk is an error. |
| MetadataService.DownloadRoundTrip | src/dashboard/metadata.service.ts:25-33 | The download data of metadata just made is the data it was made from. |
| PacksService.MakeMatchKey | src/dashboard/packs.service.ts:22-24 | The key is the namespace in braces followed by the local name. |
| PacksService.FirstClose | src/dashboard/packs.service.ts:22-24 | It finds the first closing brace, or reports that there is none. |
| PacksService.MatchKeyRoundTrip | src/dashboard/packs.service.ts:22-24 | A key parses back into its local name and namespace, when the namespace has no closing brace. |
| PacksService.MatchKeyInjective | src/dashboard/packs.service.ts:22-24 | Namespaces without a closing brace never give two names the same key. |
| PacksService.MatchKeyNotInjective | src/dashboard/packs.service.ts:22-24 | With a brace in the namespace, two different names share a key. |
| PacksService.AddToMatchingData | src/dashboard/packs.service.ts:26-32 | The key ends up mapped to the larger of its old id and the new one, and other keys are untouched. |
| PacksService.AddToMatchingDataCommutes | src/dashboard/packs.service.ts:26-32 | Adding is idempotent, and the order of two additions does not matter. |
| PacksService.AddAll | src/dashboard/packs.service.ts:50-80 | Adding a pack's keys maps each one to the newer of the ids and leaves other keys alone. |
| PacksService.KeysFromEvents | src/dashboard/packs.service.ts:55-75 | The automatic keys are exactly those of the start-tag events that allow a single name. |
| PacksService.PackKeys | src/dashboard/packs.service.ts:51-79 | A pack without a match rule fails with a type error. A pack with an explicit match claims exactly its match key. An automatic pack succeeds exactly when its schema chunk is stored and compiles, and then claims the keys its grammar allows at the top. Without a schema id the lookup is refused with a data error. A schema id whose chunk is not stored gives a type error, and a schema that does not compile gives a grammar error. |
| PacksService.PackKeysOkIff | src/dashboard/packs.service.ts:51-79 | A pack's keys compute exactly when it has a match rule and the rule is explicit or its schema is stored and compiles. |
| PacksService.Entries | src/dashboard/packs.service.ts:48 | The packs table is listed once per row, in increasing key order. |
| PacksService.Build | src/dashboard/packs.service.ts:46-86 | A failure to build the matching data is the failure of some pack's keys. |
| PacksService.BuildOkIff | src/dashboard/packs.service.ts:46-86 | Building the matching data succeeds exactly when every pack's keys can be computed. |
| PacksService.BuildOkIffPacks | src/dashboard/packs.service.ts:46-86 | Building over a packs table succeeds exactly when every pack in it has a match rule and every automatic pack's schema is stored and compiles. |
| PacksService.MissingMatchBreaksMatching | src/dashboard/packs.service.ts:54 | With no cache, one stored pack without a match rule makes every match fail. |
| PacksService.BuildCorrect | src/dashboard/packs.service.ts:46-86 | The matching data maps every claimed key, and only those, to the newest pack that claims it. |
| PacksService.MatchTableGrows | src/dashboard/packs.service.ts:46-86 | More packs never drop a key or lower a key's id. |
| PacksService.MatchTableUnique | src/dashboard/packs.service.ts:46-86 | The matching data is determined by the set of packs. |
| PacksService.BuildOrderIndependent | src/dashboard/packs.service.ts:46-86 | The order in which the packs are listed does not change the result. |
| PacksService.GetMatchingData | src/dashboard/packs.service.ts:46-86 | The cache is used when it is set. Otherwise the data is built from the table and cached, and it fails exactly when some pack's keys cannot be computed. |
| PacksService.MatchWithPack | src/dashboard/packs.service.ts:97-105 | The match is the pack recorded under the element's key, when that key is in the data and its pack is still in the table. |
| PacksService.FreshMatchIsNewestContributor | src/dashboard/packs.service.ts:46-105 | Without a cache, a matched pack claims the element's key, and no newer pack does. |
| PacksService.CoherentMatchIsFresh | src/dashboard/packs.service.ts:46-105 | A cache that agrees with the table gives the match a fresh build would, and stays in agreement. |
| PacksService.OnChange | src/dashboard/packs.service.ts:36-44 | Corrected: any change notification of the packs table clears the cache. |
| PacksService.OnChangeRestoresCoherence | src/dashboard/packs.service.ts:36-44 | Corrected: after a change the cache agrees with the table. |
| PacksService.OnChangeAsWritten | src/dashboard/packs.service.ts:39 | As written: a change notification leaves the cache in place. When a cache is set, this differs from the intended handler on every change. |
| PacksService.MatchIdsBelowNext | src/dashboard/packs.service.ts:46-86 | Every id in the matching data is below the next key of the packs table. |
| PacksService.NewExplicitPackData | src/dashboard/packs.service.ts:46-86 | Adding a pack extends the fresh matching data by the new pack's key, now mapped to its id. |
| PacksService.NewExplicitPackMatched | src/dashboard/packs.service.ts:36-105 | Corrected: after a pack with an explicit match is added, its element matches the new pack. |
| PacksService.StaleCacheMissesNewPack | src/dashboard/packs.service.ts:39 | As written: a cache built before a pack was added is kept, and the new pack's element does not match. |
| PacksService.StaleCacheAfterDelete | src/dashboard/packs.service.ts:39 | As written: when the matched pack is deleted, the stale cache still names it, so matching finds nothing. |
| PacksService.DeleteNewerOfTwo | src/dashboard/packs.service.ts:39-105 | As written: two packs claim one element. Once the newer is deleted, a fresh build matches the older one but the stale cache matches nothing. |
| PacksService.StaleCacheHidesOlderPack | src/dashboard/packs.service.ts:39 | As written: this is a concrete pair of packs for which the remaining pack is hidden. |
| PacksService.StoreOptional | src/dashboard/packs.service.ts:122-128 | Absent text stores nothing. Present text is stored and its id returned. |
| PacksService.MakeRecord | src/dashboard/packs.service.ts:110-137 | Invalid JSON, a wrong interchange version and a missing schema are refused. On success the pack holds the name, the match (absent when the data has none) and the chunk ids of its schema and metadata. |
| PacksService.ReadOptional | src/dashboard/packs.service.ts:139-166 | An absent id reads as nothing; a present id reads its chunk, or fails when the chunk is missing. |
| PacksService.GetDownloadData | src/dashboard/packs.service.ts:139-166 | The export succeeds exactly when the pack's schema chunk exists, and also its metadata chunk if it has one. |
| PacksService.ImportExportRoundTrip | src/dashboard/packs.service.ts:110-166 | Exporting a pack just imported gives back the interchange it was imported from. |
| PacksService.ExportImportRoundTrip | src/dashboard/packs.service.ts:110-166 | With a codec that round-trips, importing an exported pack gives back the same pack, unsaved, with the name carried in the exported data; the name argument is ignored. No chunk is added. |
| PacksService.MakeIndexedDBURL | src/dashboard/packs.service.ts:168-170 | A pack has a URL exactly when it has an id: the packs table's URL of its numeric id, then the property if one is given. A pack without an id is refused as undefined. |
| UpgradeService.WillModifyDatabase | src/dashboard/upgrade.service.ts:19-21 | The upgrade changes the database exactly when some pack is obsolete. |
| UpgradeService.Detach | src/dashboard/upgrade.service.ts:37-46 | An XML file naming an obsolete pack loses its pack; any other record is unchanged. |
| UpgradeService.DetachAll | src/dashboard/upgrade.service.ts:37-46 | Every row keeps its key, id and name, and afterwards no XML file names one of the given packs. Nothing is announced. |
| UpgradeService.DeleteObsolete | src/dashboard/upgrade.service.ts:37-46 | Exactly the obsolete packs are removed, so none remains. The others are kept as they were, and the table stays valid. |
| UpgradeService.Apply | src/dashboard/upgrade.service.ts:26-49 | Without obsolete packs nothing changes. Otherwise the obsolete packs are gone and the files naming them are detached. Schemas, metadata and chunks are untouched, and no obsolete pack remains. |
| UpgradeService.ApplyLeavesNoDanglingPack | src/dashboard/upgrade.service.ts:26-49 | No file names a deleted pack, and a file whose pack survived still names it. |
| UpgradeService.ApplyIdempotent | src/dashboard/upgrade.service.ts:26-49 | A second upgrade changes nothing. |
| UpgradeService.ApplyPreservesValid | src/dashboard/upgrade.service.ts:26-49 | The upgrade keeps the database's key and name guarantees. |
| UpgradeService.Outcome | src/dashboard/upgrade.service.ts:62-95 | When an upgrade is needed the user is warned while the backup downloads. The database changes and the page reloads only when both the download and the upgrade succeed; otherwise the user sees the failure notice. |
| UpgradeService.Upgrade | src/dashboard/upgrade.service.ts:62-91 | The database only changes after a download of a backup of it, as it was. |
| ModesService.ModeNames | src/dashboard/modes.service.ts:30-32 | The listed names are distinct, one per added mode, and are exactly the known modes. |
| ModesService.ModeNamesOrder | src/dashboard/modes.service.ts:30-32 | Names that are array indices come first, in ascending numeric order; the other names keep the order in which they were added. |
| ModesService.ModeNamesPlain | src/dashboard/modes.service.ts:30-32 | When no name is an array index, the names are listed in the order they were added. |
| ModesService.IndexModeListedFirst | src/dashboard/modes.service.ts:30-48 | Adding a mode "7" to a service that knows "generic" succeeds, and "7" is then listed before "generic". |
| JsObject.ObjectKeys | src/dashboard/modes.service.ts:31 | `Object.keys` lists exactly the keys that were created. |
| JsObject.ObjectKeysIndicesFirst | src/dashboard/modes.service.ts:31 | Array-index keys come before all other keys, in ascending numeric order. |
| JsObject.ObjectKeysKeepsOtherOrder | src/dashboard/modes.service.ts:31 | The keys that are not array indices keep their creation order. |
| JsObject.ObjectKeysDistinct | src/dashboard/modes.service.ts:31 | Keys created once each are listed once each. |
| JsObject.AllOtherKeys | src/dashboard/modes.service.ts:31 | When no key is an array index, the keys are listed in creation order. |
| JsObject.IndexKeyListedFirst | src/dashboard/modes.service.ts:31 | The key "7", created after "generic", is listed first. |
| ModesService.ModeToPath | src/dashboard/modes.service.ts:50-52 | There is a path exactly for a known mode. |
| ModesService.PathToMode | src/dashboard/modes.service.ts:54-56 | There is a mode exactly for a known path. |
| ModesService.AddMode | src/dashboard/modes.service.ts:37-48 | A known name is refused with nothing changed. A known path is refused after the name was already mapped. Otherwise both directions are recorded. A new name becomes the last property created. |
| ModesService.AddModeRoundTrip | src/dashboard/modes.service.ts:37-56 | A successful add keeps the two maps inverse. It adds one mode whose path leads back to it, and keeps the other modes. |
| ModesService.AddModeConsistent | src/dashboard/modes.service.ts:37-56 | A successful add keeps the two maps inverse, creates the new name last, and maps the new mode and its path to each other. |
| ModesService.AmbiguousAddBreaksInverse | src/dashboard/modes.service.ts:37-48 | A refused path leaves the name mapped with no way back, so the maps are no longer inverse. |
| ModesService.IndexPaths | src/dashboard/modes.service.ts:15-21 | Indexing the builtin paths changes only the reverse map. It keeps the paths already indexed and indexes every builtin path. A failure names a builtin path seen twice. |
| ModesService.BuiltinMap | src/dashboard/modes.service.ts:11 | The builtin map has exactly the builtin names. |
| ModesService.IndexPathsOkIff | src/dashboard/modes.service.ts:15-21 | Indexing succeeds exactly when no builtin path is repeated or already indexed. |
| ModesService.IndexPathsContents | src/dashboard/modes.service.ts:15-21 | Every builtin path ends up mapped to its mode, and earlier entries are kept. |
| ModesService.AddModes | src/dashboard/modes.service.ts:23-27 | Adding the additional modes never changes a mode already known, and on success every additional name is known. A failure is the overwriting or ambiguity error of one of them. |
| ModesService.AddModesOkIff | src/dashboard/modes.service.ts:23-27 | Adding the additional modes succeeds exactly when their names and paths are new and distinct. |
| ModesService.AddModesConsistent | src/dashboard/modes.service.ts:23-27 | The maps stay inverse through the additional modes. |
| ModesService.AddModesNames | src/dashboard/modes.service.ts:23-27 | The additional names are created after the existing ones, in the order given. |
| ModesService.AddModesLookups | src/dashboard/modes.service.ts:23-27 | Every additional mode maps to its path, and earlier modes are untouched. |
| ModesService.ConsistentRoundTrip | src/dashboard/modes.service.ts:50-56 | Every listed mode's path leads back to the mode. |
| ModesService.Construct | src/dashboard/modes.service.ts:14-28 | A constructed service knows every builtin and every additional mode. A failure is an overwriting or an ambiguity error. |
| ModesService.ConstructOkIff | src/dashboard/modes.service.ts:14-28 | Construction succeeds exactly when the builtin paths are distinct and the additional modes bring new names and paths. |
| ModesService.ConstructRoundTrip | src/dashboard/modes.service.ts:14-32 | A constructed service creates the builtin modes and then the additional ones, maps each to its path, and keeps its two maps inverse. Its `modes` are the `Object.keys` order of those names. |
| XmlFilesComponent.NamespaceOf | src/dashboard/xml-files.component.ts:110-127 | A top element without a namespace is looked up under the empty namespace. |
| XmlFilesComponent.FindPack | src/dashboard/xml-files.component.ts:110-127 | A missing chunk is an error, and a document with no element has no pack. Otherwise the top element is matched against the packs. |
| XmlFilesComponent.GetPack | src/dashboard/xml-files.component.ts:88-104 | A pack chosen by hand is loaded, and one that cannot be loaded is an error naming it. Without one, the pack is found automatically. |
| XmlFilesComponent.AutomaticPackIsNewestContributor | src/dashboard/xml-files.component.ts:88-127 | With a coherent cache, the automatic pack claims the document's top element, and no newer pack does. |
| XmlFilesComponent.NewEditingData | src/dashboard/xml-files.component.ts:29-43 | Fresh editing data holds the record and nothing memoised. |
| XmlFilesComponent.DisabledAttr | src/dashboard/xml-files.component.ts:63-70 | The button is disabled exactly when the file is not editable, and an error passes through. |
| XmlFilesComponent.ButtonTitle | src/dashboard/xml-files.component.ts:75-83 | The title is "Edit" for an editable file and asks for a pack otherwise; an error passes through. |
| XmlFilesComponent.Editable | src/dashboard/xml-files.component.ts:49-57 | A file is editable exactly when it has a pack. The answer is computed once and then memoised. |
| XmlFilesComponent.EditingDisabled | src/dashboard/xml-files.component.ts:63-70 | The memoised attribute agrees with the memoised editability. |
| XmlFilesComponent.EditButtonTitle | src/dashboard/xml-files.component.ts:75-83 | The memoised title agrees with the memoised editability. |
| XmlFilesComponent.ButtonAgreesWithEditable | src/dashboard/xml-files.component.ts:49-83 | Whatever order the three values are asked for in, the disabled attribute and the title reflect one editability answer. |
| XmlFilesComponent.EditableMemoised | src/dashboard/xml-files.component.ts:49-57 | Once computed, editability ignores later packs and cache states. |
| XmlFilesComponent.GetEditingData | src/dashboard/xml-files.component.ts:222-231 | The cache gains an entry for the record's id only when it has none, and other entries are kept. |
| XmlFilesComponent.GetEditingDataIdempotent | src/dashboard/xml-files.component.ts:222-231 | Asking twice for the same record returns the same data. |
| XmlFilesComponent.OnPacksChange | src/dashboard/xml-files.component.ts:157-166 | A change of the packs empties the component's cache. |
| XmlFilesComponent.EditableAfterPacksChange | src/dashboard/xml-files.component.ts:157-166 | Corrected: after a packs change, editability is computed afresh against the current packs. |
| XmlFilesComponent.EditorURL | src/dashboard/xml-files.component.ts:198-211 | The editor URL is the kitchen-sink page followed by the file's URL, the pack's URL and the management page. |
| XmlFilesComponent.Edit | src/dashboard/xml-files.component.ts:198-211 | The editor opens exactly when the file has a pack, with the URLs of both. A file without a pack is an error. |
| XmlFilesComponent.GetPackHasId | src/dashboard/xml-files.component.ts:88-104 | The pack found for a file carries an id. |
| XmlFilesComponent.EditIffEditable | src/dashboard/xml-files.component.ts:49-57 | Editing is launched exactly when the file is editable. A non-editable file fails with the missing-pack error, and an error in computing editability is passed on. |
| XmlFilesComponent.NewFile | src/dashboard/xml-files.component.ts:240-265 | Corrected: an empty name does nothing, and declining to overwrite does nothing. Stored chunks are never lost. |
| XmlFilesComponent.Reidentified | src/dashboard/xml-files.component.ts:255-257 | The new record takes the existing record's id and keeps everything else. |
| XmlFilesComponent.EmptyFile | src/dashboard/xml-files.component.ts:253 | This is the empty XML file saved under a name and key. |
| XmlFilesComponent.NewFileCreates | src/dashboard/xml-files.component.ts:240-265 | Corrected: a new name gives one new, empty file with no pack, whatever the answer. |
| XmlFilesComponent.NewFileOverwrites | src/dashboard/xml-files.component.ts:240-265 | Corrected: for a taken name and a yes, the existing file is replaced by an empty one under its own key. |
| XmlFilesComponent.NewFileAsWritten | src/dashboard/xml-files.component.ts:240-265 | As written: an empty name does nothing, and a taken name fails with the type error of the unbound confirmer. In a valid table a new name adds one row. |
| XmlFilesComponent.NewFileAsWrittenNeverAsks | src/dashboard/xml-files.component.ts:247 | As written: for a taken name the confirmation fails with a type error instead of asking. The corrected version asks and overwrites. |
| XmlFilesComponent.NewFileAsWrittenFreshName | src/dashboard/xml-files.component.ts:240-265 | As written and corrected agree for a name that is not taken. |

## Left out

- Concurrency and the order of promise settlement are not modelled. A promise is its settled value.
- PacksService.MakeRecord: a failure returns only the error, and the chunk table it had reached is dropped. The source stores the schema and metadata chunks concurrently with `Promise.all`, so a chunk stored before the other store failed stays in the chunks table. The model also stores the metadata first, so when both stores fail it reports the metadata's error, where the source reports whichever store rejects first.
- DbService.LoadFromFile: when the maker has stored chunks and the save is then refused, only the error is returned. The chunks the maker wrote stay in the store but are not part of the result.
- DbService.SaveNewRecord: likewise, a refused save drops the chunk table the maker returned, although its chunks stay in the store.
- XmlFilesComponent.NewFile: likewise, a refused save drops the chunk table holding the new file's empty text.
- Store.Load: it reports the first refusal in the order XML files, packs, schemas, metadata, chunks. The source's `Promise.all` rejects with whichever table's refusal settles first, and Dexie wraps the refused rows in a `BulkError`; the model reports the constraint error itself.
- DbService.Add: a refused row leaves the key generator as it was. Whether IndexedDB has already advanced its generator for that row is not modelled.
- ModesService.IndexPaths: it indexes the builtin paths in the order the builtin modes are given, which is the creation order of the builtin map. The source walks `Object.keys` of that map, which puts array-index names first. The outcome is the same, since success only needs the paths to be distinct and the reverse map is the same; when two paths repeat, the model may name a different one of them in the error.
- ModesService.AddMode: the source tests `name in this.map` on a plain object, so a name that every object inherits, such as `toString`, counts as already taken. The model's map holds only the names added. The builtin modes come from `wed/mode-map`, which is not part of this model.
- Store.DumpChunks: the chunks table, and the chunk rows of a dump, hold each chunk's id and text only. The stored `recordVersion` (always 1) and the file's name travel with the row in the source but are never read back, so the model drops them.
- The JSON serialisation of a dump is not modelled. A dump is a datatype, and parsing a file into a dump is outside this model.
- The md5 digest, the schema compiler and grammar, the XML parser and the JSON codec are parameters.
- The `uploaded` and `downloaded` timestamps are not modelled, and neither are the notes of records or the component's download action.
- `chunks.service.ts`, `record-common.ts`, `xml-file.ts`, `schema.ts`, `metadata.ts` and `store-util.ts` are not part of this model. The chunk update rule follows the chunks service's tests. Reading a record's data is reading its chunk.
- `window.location`, the page reload and the browser download are inputs or recorded actions.
- The prompt and confirm dialogs are answers given as inputs.
- The `refresh()` of the generic records component is not modelled.
- Aliasing of the modes list between service instances is not modelled.
- DbService.SafeLoadFromFile: it has no contract of its own. Its behaviour is stated by SafeLoadDecline, SafeLoadFreshName and SafeLoadAccept.
- XmlFilesComponent.FindPack: it does not state which error kinds a failed match can produce, only the missing-chunk case.
- XmlFilesComponent.EditIffEditable: it relates the launch to the answer by cases and does not name the error kinds of a failed pack lookup.

## Findings

| source | as written | input that shows it | evidently intended | confidence | as-written member | corrected member |
|---|---|---|---|---|---|---|
| src/dashboard/packs.service.ts:39 | `clearMatchingData` is subscribed unbound, so it clears a property of the subscriber and the service's matching cache is never reset | build the matching data on an empty packs table, then add a pack that explicitly matches `doc`; matching `doc` still finds no pack | every change of the packs table clears the matching cache | high, not executed | PacksService.StaleCacheMissesNewPack | PacksService.NewExplicitPackMatched |
| src/dashboard/xml-files.component.ts:247 | `this.confirmService.confirm` is passed unbound to `writeCheck`, and `confirm` reads `this.confirmer` (src/dashboard/confirm.service.ts:54-56) | an existing file named "a", then a new file named "a": the confirmation throws a type error instead of asking | the user is asked whether to overwrite, and a yes replaces the file | high, not executed | XmlFilesComponent.NewFileAsWrittenNeverAsks | XmlFilesComponent.NewFileOverwrites |

=== FILE: chunk.dfy ===
/** Content-addressed chunks (src/dashboard/chunk.ts). A chunk's id is the
    digest of its text; the digest function (md5 in the source) is a parameter
    and nothing here assumes it is injective. */
module Chunks {
  import opened Wrappers

  /** A browser `File`, reduced to what is read from it. */
  datatype File = File(name: string, content: string)

  /** What `makeChunk` accepts once its argument has been awaited. */
  datatype ChunkSource = FromString(text: string) | FromFile(file: File)

  /** A chunk object. `cache` is the memoised `__data` promise: set by the
      constructor, absent on a chunk read back from the store, because the
      creation hook strips `__`-prefixed properties. `recordVersion` is an
      ordinary property, so it is stored. */
  datatype Chunk = Chunk(id: string, file: File, recordVersion: int, cache: Option<string>)

  const ChunkRecordVersion: int := 1
  const ChunkRecordType: string := "Chunk"

  /** The `recordType` getter: the same for every chunk. */
  function ChunkType(c: Chunk): string {
    ChunkRecordType
  }

  type Digest = string -> string

  /** "Different content gives a different id": never assumed, only required. */
  ghost predicate Injective(digest: Digest) {
    forall a, b :: digest(a) == digest(b) ==> a == b
  }

  /** The full text `makeChunk` reads from its input. */
  function SourceText(src: ChunkSource): string {
    match src
    case FromString(t) => t
    case FromFile(f) => f.content
  }

  /** The memoised data, when present, is the file's text. */
  predicate CacheFaithful(c: Chunk) {
    c.cache.Some? ==> c.cache.value == c.file.content
  }

  function MakeChunk(digest: Digest, src: ChunkSource): (c: Chunk)
    ensures c.id == digest(SourceText(src))
    ensures c.recordVersion == ChunkRecordVersion && ChunkType(c) == ChunkRecordType
    ensures c.file.content == SourceText(src)
    ensures c.cache == Some(SourceText(src))
    ensures CacheFaithful(c)
    ensures src.FromFile? ==> c.file == src.file
    ensures src.FromString? ==> c.file.name == ""
  {
    match src
    case FromString(t) => Chunk(digest(t), File("", t), ChunkRecordVersion, Some(t))
    case FromFile(f) => Chunk(digest(f.content), f, ChunkRecordVersion, Some(f.content))
  }

  /** `getData`: the memoised text, or a fresh read of the file that is then
      memoised. Returns the text and the chunk object afterwards. */
  function GetData(c: Chunk): (r: (string, Chunk))
    ensures CacheFaithful(c) ==> r.0 == c.file.content
    ensures c.cache.Some? ==> r == (c.cache.value, c)
    ensures r.1 == c.(cache := Some(r.0))
    ensures r.1.recordVersion == c.recordVersion
    ensures CacheFaithful(c) ==> CacheFaithful(r.1)
  {
    match c.cache
    case Some(d) => (d, c)
    case None => (c.file.content, c.(cache := Some(c.file.content)))
  }

  /** The chunk object as the store keeps it: `__data` removed. */
  function Stored(c: Chunk): (s: Chunk)
    ensures s.id == c.id && s.file == c.file && s.recordVersion == c.recordVersion && s.cache.None?
  {
    c.(cache := None)
  }

  /** A chunk's id is the digest of its text, whether it came from a string or a
      file, and whatever the file's name. */
  lemma SameContentSameId(digest: Digest, a: ChunkSource, b: ChunkSource)
    requires SourceText(a) == SourceText(b)
    ensures MakeChunk(digest, a).id == MakeChunk(digest, b).id
  {
  }

  /** `getData` gives back exactly the text the id was computed from, before and
      after the chunk went through the store. */
  lemma {:induction false} GetDataReturnsDigestedText(digest: Digest, src: ChunkSource)
    ensures var c := MakeChunk(digest, src);
      GetData(c).0 == SourceText(src) && GetData(Stored(c)).0 == SourceText(src)
      && c.id == digest(GetData(Stored(c)).0)
  {
  }

  /** A second `getData` returns the same text and does not touch the chunk. */
  lemma {:induction false} GetDataIdempotent(c: Chunk)
    ensures var (d1, c1) := GetData(c); GetData(c1) == (d1, c1)
  {
  }

  /** With an injective digest, different texts give different ids. */
  lemma DistinctContentDistinctId(digest: Digest, a: ChunkSource, b: ChunkSource)
    requires Injective(digest)
    requires SourceText(a) != SourceText(b)
    ensures MakeChunk(digest, a).id != MakeChunk(digest, b).id
  {
  }
}

=== FILE: chunks_service.dfy ===
/** The chunks table. Its service (chunks.service.ts) is not part of this
    model; the update rule below is the one its tests fix: storing a chunk under
    a fresh id inserts it, storing the same content again is a no-op, and
    storing different content under a known id is refused. */
module ChunksService {
  import opened Wrappers
  import opened Errors
  import opened Chunks

  /** Chunk id to text, plus the count of change notifications. */
  datatype ChunkTable = ChunkTable(contents: map<string, string>, changes: nat)

  const EmptyChunks := ChunkTable(map[], 0)

  /** Every stored id is the digest of the stored text. */
  ghost predicate DigestConsistent(digest: Digest, t: ChunkTable) {
    forall id :: id in t.contents ==> id == digest(t.contents[id])
  }

  /** The stored entries of `t` are all still present, with the same text. */
  predicate Extends(t2: ChunkTable, t: ChunkTable) {
    forall id :: id in t.contents ==> id in t2.contents && t2.contents[id] == t.contents[id]
  }

  function UpdateChunk(t: ChunkTable, c: Chunk): (r: Res<(ChunkTable, Chunk)>)
    ensures r.Ok? <==> (c.id !in t.contents || t.contents[c.id] == c.file.content)
    ensures r.Err? ==> r.error == ContentMismatch(c.id)
    ensures r.Ok? ==> r.value.1 == c
    ensures r.Ok? ==> r.value.0.contents == t.contents[c.id := c.file.content]
    ensures r.Ok? && c.id in t.contents ==> r.value.0 == t
    ensures r.Ok? && c.id !in t.contents ==> r.value.0.changes == t.changes + 1
    ensures r.Ok? ==> Extends(r.value.0, t)
  {
    if c.id !in t.contents then
      Ok((ChunkTable(t.contents[c.id := c.file.content], t.changes + 1), c))
    else if t.contents[c.id] == c.file.content then
      Ok((t, c))
    else
      Err(ContentMismatch(c.id))
  }

  /** `createRecord(text)`: make a chunk of the text and store it, yielding its id. */
  function StoreText(digest: Digest, t: ChunkTable, text: string): (r: Res<(ChunkTable, string)>)
    ensures r.Ok? <==> (digest(text) !in t.contents || t.contents[digest(text)] == text)
    ensures r.Ok? ==> r.value.1 == digest(text)
    ensures r.Ok? ==> r.value.1 in r.value.0.contents && r.value.0.contents[r.value.1] == text
    ensures r.Ok? ==> Extends(r.value.0, t)
    ensures digest(text) in t.contents && t.contents[digest(text)] == text ==> r == Ok((t, digest(text)))
  {
    var (t2, c) :- UpdateChunk(t, MakeChunk(digest, FromString(text)));
    Ok((t2, c.id))
  }

  function ClearChunks(t: ChunkTable): (r: ChunkTable)
    ensures r.contents == map[] && r.changes == t.changes + 1
  {
    ChunkTable(map[], t.changes + 1)
  }

  /** Storing a chunk of the same content twice: the second call changes nothing. */
  lemma {:induction false} UpdateIdempotent(t: ChunkTable, c: Chunk)
    requires UpdateChunk(t, c).Ok?
    ensures var t1 := UpdateChunk(t, c).value.0; UpdateChunk(t1, c) == Ok((t1, c))
  {
  }

  /** A refused update leaves the stored text under that id as it was. */
  lemma MismatchKeepsStoredText(t: ChunkTable, c: Chunk)
    requires c.id in t.contents && t.contents[c.id] != c.file.content
    ensures UpdateChunk(t, c) == Err(ContentMismatch(c.id))
  {
  }

  /** In a digest-consistent table, storing text only fails on a digest
      collision; with an injective digest it never fails and keeps the table
      digest-consistent. */
  lemma {:induction false} StoreTextSucceeds(digest: Digest, t: ChunkTable, text: string)
    requires DigestConsistent(digest, t)
    requires Injective(digest)
    ensures StoreText(digest, t, text).Ok?
    ensures DigestConsistent(digest, StoreText(digest, t, text).value.0)
  {
    var id := digest(text);
    if id in t.contents {
      assert digest(t.contents[id]) == id;
    }
    var t2 := StoreText(digest, t, text).value.0;
    forall k | k in t2.contents
      ensures k == digest(t2.contents[k])
    {
      if k != id {
        assert k in t.contents;
      }
    }
  }
}

=== FILE: db_service.dfy ===
/** The generic record service (src/dashboard/db.service.ts) over one table of
    named records. A table is the map from primary key to row, the key
    generator's next value, and the number of `change` notifications emitted so
    far. The abstract `makeRecord` of each concrete service is passed in as a
    `Maker`. */
module DbService {
  import opened Wrappers
  import opened Errors
  import opened Records
  import opened Chunks
  import opened ChunksService
  import Keys

  datatype Table = Table(rows: map<nat, Rec>, nextId: nat, changes: nat)

  /** IndexedDB's key generator starts at 1. */
  const EmptyTable := Table(map[], 1, 0)

  /** What the store's schema guarantees of the named tables (`++id,&name`):
      every row carries its own key as id, keys come from below the generator,
      and no two rows share a name. */
  predicate Valid(t: Table) {
    KeyedById(t) && NamesUnique(t)
  }

  /** Every row carries its own key as id, and that key is below the generator. */
  predicate KeyedById(t: Table) {
    forall k :: k in t.rows ==> t.rows[k].id == Some(k) && k < t.nextId
  }

  /** No two rows share a name. */
  predicate NamesUnique(t: Table) {
    forall k1, k2 :: k1 in t.rows && k2 in t.rows && t.rows[k1].name == t.rows[k2].name ==> k1 == k2
  }

  /** Some row other than the one under `key` already uses `name`. */
  predicate NameTaken(t: Table, name: string, key: nat) {
    exists k :: k in t.rows && k != key && t.rows[k].name == name
  }

  /** The key `put` stores a record under: its own id, or the generator's next value. */
  function KeyFor(t: Table, r: Rec): nat {
    if r.id.Some? then r.id.value else t.nextId
  }

  /** The generator after storing under `key`: an explicit key at or above it moves it past that key. */
  function Bump(nextId: nat, key: nat): (n: nat)
    ensures key < n && nextId <= n
  {
    if key >= nextId then key + 1 else nextId
  }

  /** `updateRecord`: `put` the record, set its id to the storage key when it had
      none, and emit one change. The unique name index refuses a name held by
      another row. */
  function UpdateRecord(t: Table, r: Rec): (res: Res<(Table, Rec)>)
    ensures res.Ok? <==> !NameTaken(t, r.name, KeyFor(t, r))
    ensures res.Err? ==> res.error == ConstraintError
    ensures res.Ok? ==>
      var (t2, saved) := res.value;
      && saved == r.(id := Some(KeyFor(t, r)))
      && t2.rows == t.rows[KeyFor(t, r) := saved]
      && t2.changes == t.changes + 1
      && KeyFor(t, r) < t2.nextId && t.nextId <= t2.nextId
    ensures res.Ok? && Valid(t) ==> Valid(res.value.0)
  {
    var key := KeyFor(t, r);
    if NameTaken(t, r.name, key) then Err(ConstraintError)
    else
      var saved := r.(id := Some(key));
      Ok((Table(t.rows[key := saved], Bump(t.nextId, key), t.changes + 1), saved))
  }

  /** `deleteRecord`: refuses a record without an id; otherwise removes that key
      and emits a change whether or not a row was there. */
  function DeleteRecord(t: Table, r: Rec): (res: Res<Table>)
    ensures r.id.None? <==> res.Err?
    ensures res.Err? ==> res.error == MissingId
    ensures res.Ok? ==>
      && (forall k :: k in res.value.rows <==> k in t.rows && Some(k) != r.id)
      && (forall k :: k in res.value.rows ==> res.value.rows[k] == t.rows[k])
      && res.value.changes == t.changes + 1
      && res.value.nextId == t.nextId
    ensures res.Ok? && Valid(t) ==> Valid(res.value)
  {
    if r.id.None? then Err(MissingId)
    else Ok(Table(t.rows - {r.id.value}, t.nextId, t.changes + 1))
  }

  /** `getRecordById`: the row under that key, or undefined. */
  function GetRecordById(t: Table, id: int): (r: Option<Rec>)
    ensures r.Some? <==> id >= 0 && id in t.rows
    ensures r.Some? ==> r.value == t.rows[id]
    ensures KeyedById(t) && r.Some? ==> r.value.id == Some(id)
  {
    if id >= 0 && id in t.rows then Some(t.rows[id]) else None
  }

  /** `getRecordByName`: the first row in name-index order, i.e. the one with the
      smallest key among those with that name, or undefined. */
  function GetRecordByName(t: Table, name: string): (r: Option<Rec>)
    ensures r.Some? <==> exists k :: k in t.rows && t.rows[k].name == name
    ensures r.Some? ==> r.value.name == name && exists k :: k in t.rows && t.rows[k] == r.value
    ensures Valid(t) ==> forall k :: k in t.rows && t.rows[k].name == name ==> r == Some(t.rows[k])
  {
    var ks := set k | k in t.rows && t.rows[k].name == name;
    assert forall k :: k in t.rows && t.rows[k].name == name ==> k in ks;
    if ks == {} then None else Some(t.rows[Keys.MinKey(ks)])
  }

  /** `s` lists the rows of `m` once each, every element carrying its key as id. */
  predicate ListsRows(s: seq<Rec>, m: map<nat, Rec>) {
    && (forall i :: 0 <= i < |s| ==> s[i].id.Some? && s[i].id.value in m && m[s[i].id.value] == s[i])
    && (forall k :: k in m ==> exists i :: 0 <= i < |s| && s[i].id == Some(k))
  }

  /** Record ids strictly increase along `s`. */
  predicate IdsIncreasing(s: seq<Rec>) {
    forall i, j :: 0 <= i < j < |s| ==> s[i].id.Some? && s[j].id.Some? && s[i].id.value < s[j].id.value
  }

  /** The rows of `m` under the keys `ks`, in that order. */
  function RowsAt(m: map<nat, Rec>, ks: seq<nat>): (s: seq<Rec>)
    requires forall i :: 0 <= i < |ks| ==> ks[i] in m
    ensures |s| == |ks|
    ensures forall i :: 0 <= i < |ks| ==> s[i] == m[ks[i]]
  {
    seq(|ks|, i requires 0 <= i < |ks| => m[ks[i]])
  }

  lemma {:induction false} ListedKeysCover(m: map<nat, Rec>, ks: seq<nat>, s: seq<Rec>)
    requires forall k :: k in m <==> k in ks
    requires |s| == |ks| && forall i :: 0 <= i < |ks| ==> s[i] == m[ks[i]]
    ensures forall i :: 0 <= i < |s| ==> s[i] in m.Values
    ensures forall k :: k in m ==> m[k] in s
  {
    forall i | 0 <= i < |s|
      ensures s[i] in m.Values
    {
      assert ks[i] in m;
    }
    forall k | k in m
      ensures m[k] in s
    {
      var i :| 0 <= i < |ks| && ks[i] == k;
      assert s[i] == m[k];
    }
  }

  /** `getRecords` (`toArray`): every row, in primary-key order. */
  function GetRecords(t: Table): (s: seq<Rec>)
    ensures |s| == |t.rows|
    ensures forall i :: 0 <= i < |s| ==> s[i] in t.rows.Values
    ensures forall k :: k in t.rows ==> t.rows[k] in s
  {
    var ks := Keys.SortedKeys(t.rows.Keys);
    assert |t.rows.Keys| == |t.rows|;
    var s := RowsAt(t.rows, ks);
    ListedKeysCover(t.rows, ks, s);
    s
  }

  /** Rows listed in strictly increasing key order, each carrying its key as
      id, list the map once each by increasing id. */
  lemma {:induction false} RowsAtOrdered(m: map<nat, Rec>, ks: seq<nat>, s: seq<Rec>)
    requires forall k :: k in m <==> k in ks
    requires Keys.StrictlyIncreasing(ks)
    requires |s| == |ks| && forall i :: 0 <= i < |ks| ==> s[i] == m[ks[i]]
    requires forall k :: k in m ==> m[k].id == Some(k)
    ensures ListsRows(s, m)
    ensures IdsIncreasing(s)
  {
    forall i | 0 <= i < |s|
      ensures ks[i] in m && s[i].id == Some(ks[i])
    {
      assert ks[i] in m;
    }
    forall k | k in m
      ensures exists i :: 0 <= i < |s| && s[i].id == Some(k)
    {
      var i :| 0 <= i < |ks| && ks[i] == k;
      assert s[i].id == Some(k);
    }
    forall i, j | 0 <= i < j < |s|
      ensures s[i].id.Some? && s[j].id.Some? && s[i].id.value < s[j].id.value
    {
      assert ks[i] < ks[j];
    }
  }

  /** In a valid table, `getRecords` lists each row once, by increasing id. */
  lemma {:induction false} GetRecordsOrdered(t: Table)
    requires KeyedById(t)
    ensures ListsRows(GetRecords(t), t.rows)
    ensures IdsIncreasing(GetRecords(t))
  {
    var ks := Keys.SortedKeys(t.rows.Keys);
    var s := GetRecords(t);
    assert s == RowsAt(t.rows, ks);
    RowsAtOrdered(t.rows, ks, s);
  }

  datatype NameId = NameId(name: string, id: Option<nat>)

  /** The name and id of each record of `s`, in order. */
  function NamesAndIds(s: seq<Rec>): (r: seq<NameId>)
    ensures |r| == |s|
    ensures forall i :: 0 <= i < |s| ==> r[i] == NameId(s[i].name, s[i].id)
  {
    seq(|s|, i requires 0 <= i < |s| => NameId(s[i].name, s[i].id))
  }

  lemma NameIdAt(s: seq<Rec>, i: nat)
    requires i < |s|
    ensures NameId(s[i].name, s[i].id) in NamesAndIds(s)
  {
    assert NamesAndIds(s)[i] == NameId(s[i].name, s[i].id);
  }

  /** `getNameIdArray`: the name and id of every row, in primary-key order. */
  function GetNameIdArray(t: Table): (r: seq<NameId>)
    ensures |r| == |t.rows|
    ensures forall i :: 0 <= i < |r| ==> exists k :: k in t.rows && r[i] == NameId(t.rows[k].name, t.rows[k].id)
  {
    var s := GetRecords(t);
    var r := NamesAndIds(s);
    forall i | 0 <= i < |r|
      ensures exists k :: k in t.rows && r[i] == NameId(t.rows[k].name, t.rows[k].id)
    {
      assert s[i] in t.rows.Values;
      var k :| k in t.rows && t.rows[k] == s[i];
      assert r[i] == NameId(t.rows[k].name, t.rows[k].id);
    }
    r
  }

  /** In a valid table every row appears in `getNameIdArray` with its key as id. */
  lemma {:induction false} NameIdArrayComplete(t: Table)
    requires KeyedById(t)
    ensures forall k :: k in t.rows ==> NameId(t.rows[k].name, Some(k)) in GetNameIdArray(t)
  {
    var s := GetRecords(t);
    forall k | k in t.rows
      ensures NameId(t.rows[k].name, Some(k)) in NamesAndIds(s)
    {
      var i :| 0 <= i < |s| && s[i] == t.rows[k];
      assert t.rows[k].id == Some(k);
      NameIdAt(s, i);
    }
  }

  /** `getRecordCount`. */
  function GetRecordCount(t: Table): (n: nat)
    ensures n == |t.rows|
    ensures n == |GetRecords(t)|
  {
    |t.rows|
  }

  /** `clear`: empties the table and emits a change. The key generator keeps going. */
  function Clear(t: Table): (r: Table)
    ensures GetRecordCount(r) == 0 && r.changes == t.changes + 1 && r.nextId == t.nextId
    ensures Valid(r)
  {
    Table(map[], t.nextId, t.changes + 1)
  }

  /** A concrete service's `makeRecord(name, data)`: builds an unsaved record,
      storing whatever chunks it needs. */
  type Maker = (ChunkTable, string, string) -> Res<(ChunkTable, Rec)>

  /** The record `loadFromFile` saves: the made record, carrying over the id and
      name of the record loaded into, if any. */
  function Retarget(made: Rec, into: Option<Rec>): (r: Rec)
    ensures into.Some? ==> r == made.(id := into.value.id, name := into.value.name)
    ensures into.None? ==> r == made
  {
    match into
    case Some(x) => made.(id := x.id, name := x.name)
    case None => made
  }

  /** `t2` is `t` after one save of `saved`: the record is stored under its id,
      every other row is as it was, and one change is announced. */
  predicate SavedIn(t: Table, t2: Table, saved: Rec) {
    && saved.id.Some? && saved.id.value in t2.rows && t2.rows[saved.id.value] == saved
    && (forall k :: k in t2.rows && k != saved.id.value ==> k in t.rows && t2.rows[k] == t.rows[k])
    && (forall k :: k in t.rows ==> k in t2.rows)
    && t2.changes == t.changes + 1
  }

  /** `loadFromFile`: read the file, make a record named after it, keep the
      identity of `into` when given, and save. */
  function LoadFromFile(mk: Maker, chunks: ChunkTable, t: Table, file: File, into: Option<Rec>)
    : (res: Res<(ChunkTable, Table, Rec)>)
    ensures mk(chunks, file.name, file.content).Err? ==> res.Err?
    ensures res.Ok? ==>
      var (c2, made) := mk(chunks, file.name, file.content).value;
      && res.value.0 == c2
      && UpdateRecord(t, Retarget(made, into)) == Ok((res.value.1, res.value.2))
    ensures res.Err? && mk(chunks, file.name, file.content).Ok? ==> res.error == ConstraintError
    ensures res.Ok? ==> SavedIn(t, res.value.1, res.value.2)
    ensures res.Ok? && into.Some? && into.value.id.Some? ==>
      res.value.2.id == into.value.id && res.value.2.name == into.value.name
    ensures res.Ok? && Valid(t) ==> Valid(res.value.1)
  {
    var (c2, made) :- mk(chunks, file.name, file.content);
    var (t2, saved) :- UpdateRecord(t, Retarget(made, into));
    Ok((c2, t2, saved))
  }

  datatype WriteCheckResult = WriteCheckResult(write: bool, record: Option<Rec>)

  function OverwriteQuestion(name: string): string {
    "Are you sure you want to overwrite " + name + "?"
  }

  /** `writeCheck`: with no record of that name, write without asking; otherwise
      ask the confirmer, whose answer is `answer`. Returns the decision and the
      question put to the confirmer, if any. The table is not touched. */
  function WriteCheck(t: Table, name: string, answer: bool): (r: (WriteCheckResult, Option<string>))
    ensures GetRecordByName(t, name).None? ==> r == (WriteCheckResult(true, None), None)
    ensures GetRecordByName(t, name).Some? ==>
      r == (WriteCheckResult(answer, GetRecordByName(t, name)), Some(OverwriteQuestion(name)))
  {
    match GetRecordByName(t, name)
    case None => (WriteCheckResult(true, None), None)
    case Some(rec) => (WriteCheckResult(answer, Some(rec)), Some(OverwriteQuestion(name)))
  }

  /** The second argument of `safeLoadFromFile`: a record to load into, or a
      confirmer (represented by the answer it gives). */
  datatype LoadTarget = IntoRecord(record: Rec) | Confirmer(answer: bool)

  /** `safeLoadFromFile`: load into the given record, or check for an existing
      record of the file's name and load only if allowed. `None` is the
      `undefined` of a declined load. */
  function SafeLoadFromFile(mk: Maker, chunks: ChunkTable, t: Table, file: File, target: LoadTarget)
    : (res: Res<(ChunkTable, Table, Option<Rec>)>)
  {
    match target
    case IntoRecord(rec) =>
      var (c2, t2, saved) :- LoadFromFile(mk, chunks, t, file, Some(rec));
      Ok((c2, t2, Some(saved)))
    case Confirmer(answer) =>
      var (check, _) := WriteCheck(t, file.name, answer);
      if check.write then
        var (c2, t2, saved) :- LoadFromFile(mk, chunks, t, file, check.record);
        Ok((c2, t2, Some(saved)))
      else Ok((chunks, t, None))
  }

  /** `saveNewRecord`: make a record and save it as a new row (or over the row its
      id names). */
  function SaveNewRecord(mk: Maker, chunks: ChunkTable, t: Table, name: string, data: string)
    : (res: Res<(ChunkTable, Table, Rec)>)
    ensures mk(chunks, name, data).Err? ==> res.Err?
    ensures res.Ok? ==>
      var (c2, made) := mk(chunks, name, data).value;
      res.value.0 == c2 && UpdateRecord(t, made) == Ok((res.value.1, res.value.2))
    ensures res.Err? && mk(chunks, name, data).Ok? ==> res.error == ConstraintError
    ensures res.Ok? ==> SavedIn(t, res.value.1, res.value.2)
    ensures res.Ok? && Valid(t) ==> Valid(res.value.1)
  {
    var (c2, made) :- mk(chunks, name, data);
    var (t2, saved) :- UpdateRecord(t, made);
    Ok((c2, t2, saved))
  }

  /** Dexie `add`, one row of a `bulkAdd`: like `put` but refuses a key already
      present; a direct table write, so no change is emitted. */
  function Add(t: Table, r: Rec): (res: Res<Table>)
    ensures res.Ok? <==> KeyFor(t, r) !in t.rows && !NameTaken(t, r.name, KeyFor(t, r))
    ensures res.Ok? ==> res.value.rows == t.rows[KeyFor(t, r) := r.(id := Some(KeyFor(t, r)))]
    ensures res.Ok? ==> res.value.changes == t.changes
    ensures res.Ok? && Valid(t) ==> Valid(res.value)
  {
    var key := KeyFor(t, r);
    if key in t.rows || NameTaken(t, r.name, key) then Err(ConstraintError)
    else Ok(Table(t.rows[key := r.(id := Some(key))], Bump(t.nextId, key), t.changes))
  }

  /** `u` holds every row of `t`, unchanged. */
  predicate KeepsRows(t: Table, u: Table) {
    forall k :: k in t.rows ==> k in u.rows && u.rows[k] == t.rows[k]
  }

  /** Every row `u` holds beyond those of `t` is a row of `rs` stored under its key. */
  predicate NewRowsFrom(t: Table, u: Table, rs: seq<Rec>) {
    forall k :: k in u.rows && k !in t.rows ==> exists i :: 0 <= i < |rs| && u.rows[k] == rs[i].(id := Some(k))
  }

  /** `bulkAdd` outside a transaction: the rows are added one after the other,
      a refused row is skipped, every accepted row stays, and the refusal is
      reported once all rows have been tried. */
  function BulkAdd(t: Table, rs: seq<Rec>): (res: (Table, Option<Error>))
    ensures res.0.changes == t.changes
    ensures Valid(t) ==> Valid(res.0)
    ensures KeepsRows(t, res.0)
    ensures rs != [] && Add(t, rs[0]).Ok? ==> KeyFor(t, rs[0]) in res.0.rows
    ensures res.1.Some? ==> res.1 == Some(ConstraintError)
    decreases |rs|
  {
    if rs == [] then (t, None)
    else
      match Add(t, rs[0])
      case Ok(t2) => BulkAdd(t2, rs[1..])
      case Err(_) => (BulkAdd(t, rs[1..]).0, Some(ConstraintError))
  }

  /** A bulk add reports a refusal exactly when some row was not added. */
  lemma {:induction false} BulkAddOutcome(t: Table, rs: seq<Rec>)
    ensures |BulkAdd(t, rs).0.rows| <= |t.rows| + |rs|
    ensures BulkAdd(t, rs).1.None? <==> |BulkAdd(t, rs).0.rows| == |t.rows| + |rs|
    decreases |rs|
  {
    if rs != [] {
      match Add(t, rs[0])
      case Ok(t2) =>
        BulkAddOutcome(t2, rs[1..]);
        assert |t2.rows| == |t.rows| + 1;
      case Err(_) =>
        BulkAddOutcome(t, rs[1..]);
    }
  }

  /** Every row a bulk add adds is a row of `rs`, stored under its key. */
  lemma {:induction false} BulkAddFromRows(t: Table, rs: seq<Rec>)
    ensures NewRowsFrom(t, BulkAdd(t, rs).0, rs)
    decreases |rs|
  {
    if rs != [] {
      var tail := rs[1..];
      var u := BulkAdd(t, rs).0;
      match Add(t, rs[0])
      case Ok(t2) =>
        BulkAddFromRows(t2, tail);
        assert u == BulkAdd(t2, tail).0;
        forall k | k in u.rows && k !in t.rows
          ensures exists i :: 0 <= i < |rs| && u.rows[k] == rs[i].(id := Some(k))
        {
          if k in t2.rows {
            assert k == KeyFor(t, rs[0]);
            assert u.rows[k] == rs[0].(id := Some(k));
          } else {
            var i :| 0 <= i < |tail| && u.rows[k] == tail[i].(id := Some(k));
            assert tail[i] == rs[i + 1];
          }
        }
      case Err(_) =>
        BulkAddFromRows(t, tail);
        assert u == BulkAdd(t, tail).0;
        forall k | k in u.rows && k !in t.rows
          ensures exists i :: 0 <= i < |rs| && u.rows[k] == rs[i].(id := Some(k))
        {
          var i :| 0 <= i < |tail| && u.rows[k] == tail[i].(id := Some(k));
          assert tail[i] == rs[i + 1];
        }
    }
  }

  // ---------------------------------------------------------------------------
  // Properties relating the operations

  /** After `updateRecord`, the saved record is found under its id and its name,
      and every other row is as it was. */
  lemma {:induction false} UpdateThenGet(t: Table, r: Rec)
    requires Valid(t)
    requires UpdateRecord(t, r).Ok?
    ensures var (t2, saved) := UpdateRecord(t, r).value;
      && saved.id.Some?
      && GetRecordById(t2, saved.id.value) == Some(saved)
      && GetRecordByName(t2, r.name) == Some(saved)
      && (forall k :: k != saved.id.value ==> GetRecordById(t2, k) == GetRecordById(t, k))
  {
    var (t2, saved) := UpdateRecord(t, r).value;
    assert saved.id.value in t2.rows && t2.rows[saved.id.value].name == r.name;
  }

  /** Saving a record without an id inserts a new row under the generator's key:
      the count grows by one. Saving one whose id is in use replaces that row:
      the count stays. */
  lemma {:induction false} UpdateCount(t: Table, r: Rec)
    requires Valid(t)
    requires UpdateRecord(t, r).Ok?
    ensures r.id.None? ==>
      && UpdateRecord(t, r).value.1.id == Some(t.nextId)
      && GetRecordCount(UpdateRecord(t, r).value.0) == GetRecordCount(t) + 1
    ensures r.id.Some? && r.id.value in t.rows ==>
      GetRecordCount(UpdateRecord(t, r).value.0) == GetRecordCount(t)
  {
    var key := KeyFor(t, r);
    if r.id.None? {
      assert key !in t.rows;
    }
  }

  /** Deleting then looking up gives undefined; deleting twice is the same as once,
      except for the extra change. */
  lemma {:induction false} DeleteThenGet(t: Table, r: Rec)
    requires r.id.Some?
    ensures GetRecordById(DeleteRecord(t, r).value, r.id.value).None?
    ensures DeleteRecord(DeleteRecord(t, r).value, r).value.rows == DeleteRecord(t, r).value.rows
  {
  }

  /** `loadFromFile` into a saved record keeps its id and name, saves the newly
      made content, and leaves the count unchanged. */
  lemma {:induction false} LoadIntoKeepsIdentity(mk: Maker, chunks: ChunkTable, t: Table, file: File, into: Rec)
    requires Valid(t)
    requires into.id.Some? && into.id.value in t.rows
    requires LoadFromFile(mk, chunks, t, file, Some(into)).Ok?
    ensures var (_, t2, saved) := LoadFromFile(mk, chunks, t, file, Some(into)).value;
      var made := mk(chunks, file.name, file.content).value.1;
      && saved == made.(id := into.id, name := into.name)
      && GetRecordById(t2, into.id.value) == Some(saved)
      && GetRecordCount(t2) == GetRecordCount(t)
  {
    var made := mk(chunks, file.name, file.content).value.1;
    var r := Retarget(made, Some(into));
    var (t2, saved) := UpdateRecord(t, r).value;
    assert LoadFromFile(mk, chunks, t, file, Some(into)).value.1 == t2;
    assert LoadFromFile(mk, chunks, t, file, Some(into)).value.2 == saved;
    UpdateCount(t, r);
  }

  /** `saveNewRecord` of a record the maker leaves without an id adds a row
      under the generator's key: the count grows by one and the record is found
      under that key and under its name. */
  lemma {:induction false} SaveNewRecordAdds(mk: Maker, chunks: ChunkTable, t: Table, name: string, data: string)
    requires Valid(t)
    requires mk(chunks, name, data).Ok? && mk(chunks, name, data).value.1.id.None?
    requires SaveNewRecord(mk, chunks, t, name, data).Ok?
    ensures var (_, t2, saved) := SaveNewRecord(mk, chunks, t, name, data).value;
      var made := mk(chunks, name, data).value.1;
      && saved.id == Some(t.nextId)
      && GetRecordCount(t2) == GetRecordCount(t) + 1
      && GetRecordById(t2, t.nextId) == Some(saved)
      && GetRecordByName(t2, made.name) == Some(saved)
  {
    var made := mk(chunks, name, data).value.1;
    UpdateCount(t, made);
    UpdateThenGet(t, made);
  }

  /** `safeLoadFromFile` with a confirmer that declines, over an existing name:
      nothing is written and the result is undefined. With a name not in the
      table it loads a new record without asking. */
  lemma {:induction false} SafeLoadDecline(mk: Maker, chunks: ChunkTable, t: Table, file: File)
    requires GetRecordByName(t, file.name).Some?
    ensures SafeLoadFromFile(mk, chunks, t, file, Confirmer(false)) == Ok((chunks, t, None))
  {
  }

  lemma {:induction false} SafeLoadFreshName(mk: Maker, chunks: ChunkTable, t: Table, file: File, answer: bool)
    requires GetRecordByName(t, file.name).None?
    ensures WriteCheck(t, file.name, answer).1.None?
    ensures var res := SafeLoadFromFile(mk, chunks, t, file, Confirmer(answer));
      var direct := LoadFromFile(mk, chunks, t, file, None);
      (res.Ok? <==> direct.Ok?) &&
      (res.Ok? ==> res.value == (direct.value.0, direct.value.1, Some(direct.value.2)))
  {
  }

  /** Accepting an overwrite loads into the existing record: same id, same name,
      same count. */
  lemma {:induction false} SafeLoadAccept(mk: Maker, chunks: ChunkTable, t: Table, file: File)
    requires Valid(t)
    requires GetRecordByName(t, file.name).Some?
    requires SafeLoadFromFile(mk, chunks, t, file, Confirmer(true)).Ok?
    ensures var existing := GetRecordByName(t, file.name).value;
      var (_, t2, saved) := SafeLoadFromFile(mk, chunks, t, file, Confirmer(true)).value;
      && saved.Some? && saved.value.id == existing.id && saved.value.name == existing.name
      && GetRecordCount(t2) == GetRecordCount(t)
  {
    var existing := GetRecordByName(t, file.name).value;
    var k :| k in t.rows && t.rows[k] == existing;
    assert existing.id == Some(k);
    var (check, _) := WriteCheck(t, file.name, true);
    assert check == WriteCheckResult(true, Some(existing));
    var direct := LoadFromFile(mk, chunks, t, file, Some(existing));
    assert SafeLoadFromFile(mk, chunks, t, file, Confirmer(true))
        == Ok((direct.value.0, direct.value.1, Some(direct.value.2)));
    LoadIntoKeepsIdentity(mk, chunks, t, file, existing);
  }

  // ---------------------------------------------------------------------------
  // bulkAdd of a listing

  /** The rows of `rs` keyed by their ids. */
  function RowsOf(rs: seq<Rec>): (m: map<nat, Rec>)
    requires forall i :: 0 <= i < |rs| ==> rs[i].id.Some?
    ensures forall k :: k in m <==> exists i :: 0 <= i < |rs| && rs[i].id == Some(k)
    decreases |rs|
  {
    if rs == [] then map[]
    else
      var rest := RowsOf(rs[1..]);
      assert forall i :: 1 <= i < |rs| ==> rs[i] == rs[1..][i - 1];
      rest[rs[0].id.value := rs[0]]
  }

  /** No two rows of `rs` share an id or a name, and every row has an id. */
  predicate DistinctRows(rs: seq<Rec>) {
    && (forall i :: 0 <= i < |rs| ==> rs[i].id.Some?)
    && (forall i, j :: 0 <= i < j < |rs| ==> rs[i].id != rs[j].id && rs[i].name != rs[j].name)
  }

  lemma {:induction false} RowsOfLists(rs: seq<Rec>)
    requires DistinctRows(rs)
    ensures ListsRows(rs, RowsOf(rs))
    decreases |rs|
  {
    if rs != [] {
      var tail := rs[1..];
      assert forall i :: 0 <= i < |tail| ==> tail[i] == rs[i + 1];
      RowsOfLists(tail);
    }
  }

  /** A listing determines the map it lists. */
  lemma {:induction false} ListedMapUnique(rs: seq<Rec>, m1: map<nat, Rec>, m2: map<nat, Rec>)
    requires ListsRows(rs, m1) && ListsRows(rs, m2)
    ensures m1 == m2
  {
    forall k | k in m1
      ensures k in m2 && m2[k] == m1[k]
    {
      var i :| 0 <= i < |rs| && rs[i].id == Some(k);
    }
    forall k | k in m2
      ensures k in m1
    {
      var i :| 0 <= i < |rs| && rs[i].id == Some(k);
    }
  }

  /** The listing of a valid table has distinct ids and names. */
  lemma {:induction false} GetRecordsDistinct(t: Table)
    requires Valid(t)
    ensures DistinctRows(GetRecords(t))
    ensures RowsOf(GetRecords(t)) == t.rows
  {
    var s := GetRecords(t);
    GetRecordsOrdered(t);
    OrderedListingDistinct(s, t);
    RowsOfLists(s);
    ListedMapUnique(s, RowsOf(s), t.rows);
  }

  /** A listing of a table with unique names, by increasing id, is distinct. */
  lemma {:induction false} OrderedListingDistinct(s: seq<Rec>, t: Table)
    requires NamesUnique(t)
    requires ListsRows(s, t.rows) && IdsIncreasing(s)
    ensures DistinctRows(s)
  {
    forall i, j | 0 <= i < j < |s|
      ensures s[i].id != s[j].id && s[i].name != s[j].name
    {
      var ki, kj := s[i].id.value, s[j].id.value;
      assert ki < kj;
      assert t.rows[ki] == s[i] && t.rows[kj] == s[j];
    }
  }

  /** The tail of a distinct listing is distinct and clashes with its head in
      neither id nor name. */
  lemma {:induction false} DistinctTail(rs: seq<Rec>)
    requires rs != [] && DistinctRows(rs)
    ensures DistinctRows(rs[1..])
    ensures forall i :: 0 <= i < |rs[1..]| ==> rs[1..][i].id != rs[0].id && rs[1..][i].name != rs[0].name
    ensures rs[0].id.value !in RowsOf(rs[1..])
  {
    var tail := rs[1..];
    assert forall i :: 0 <= i < |tail| ==> tail[i] == rs[i + 1];
    forall i, j | 0 <= i < j < |tail|
      ensures tail[i].id != tail[j].id && tail[i].name != tail[j].name
    {
      assert tail[i] == rs[i + 1] && tail[j] == rs[j + 1];
    }
  }

  lemma UnionShift(m: map<nat, Rec>, k: nat, v: Rec, n: map<nat, Rec>)
    requires k !in n
    ensures m[k := v] + n == m + n[k := v]
  {
  }

  /** Rows that clash with nothing already in `t` and with each other are all
      added: the table gains exactly `RowsOf(rs)`. */
  lemma {:induction false} BulkAddDistinct(t: Table, rs: seq<Rec>)
    requires Valid(t)
    requires DistinctRows(rs)
    requires forall i :: 0 <= i < |rs| ==> rs[i].id.value !in t.rows
    requires forall i, k :: 0 <= i < |rs| && k in t.rows ==> rs[i].name != t.rows[k].name
    ensures BulkAdd(t, rs).1.None?
    ensures BulkAdd(t, rs).0.rows == t.rows + RowsOf(rs)
    decreases |rs|
  {
    if rs != [] {
      var r := rs[0];
      var key := r.id.value;
      var t2 := BulkAddDistinctHead(t, rs);
      var tail := rs[1..];
      DistinctTail(rs);
      TailFits(t, rs, t2);
      BulkAddDistinct(t2, tail);
      UnionShift(t.rows, key, r, RowsOf(tail));
      assert RowsOf(rs) == RowsOf(tail)[key := r];
    }
  }

  /** The head of rows that clash with nothing is added, and the bulk add goes
      on from the table that results. */
  lemma {:induction false} BulkAddDistinctHead(t: Table, rs: seq<Rec>) returns (t2: Table)
    requires Valid(t) && rs != [] && rs[0].id.Some?
    requires rs[0].id.value !in t.rows
    requires forall k :: k in t.rows ==> rs[0].name != t.rows[k].name
    ensures Valid(t2) && t2.rows == t.rows[rs[0].id.value := rs[0]]
    ensures BulkAdd(t, rs) == BulkAdd(t2, rs[1..])
  {
    var r := rs[0];
    var key := r.id.value;
    t2 := Table(t.rows[key := r], Bump(t.nextId, key), t.changes);
    assert KeyFor(t, r) == key;
    assert !NameTaken(t, r.name, key);
    assert r.(id := Some(key)) == r;
    assert Add(t, r) == Ok(t2);
  }

  /** After adding the head, the tail still clashes with nothing in the table. */
  lemma {:induction false} TailFits(t: Table, rs: seq<Rec>, t2: Table)
    requires rs != [] && DistinctRows(rs)
    requires forall i :: 0 <= i < |rs| ==> rs[i].id.value !in t.rows
    requires forall i, k :: 0 <= i < |rs| && k in t.rows ==> rs[i].name != t.rows[k].name
    requires t2.rows == t.rows[rs[0].id.value := rs[0]]
    ensures forall i :: 0 <= i < |rs[1..]| ==> rs[1..][i].id.value !in t2.rows
    ensures forall i, k :: 0 <= i < |rs[1..]| && k in t2.rows ==> rs[1..][i].name != t2.rows[k].name
  {
    var tail := rs[1..];
    DistinctTail(rs);
    forall i | 0 <= i < |tail|
      ensures tail[i].id.value !in t2.rows
    {
      assert tail[i] == rs[i + 1];
    }
    forall i, k | 0 <= i < |tail| && k in t2.rows
      ensures tail[i].name != t2.rows[k].name
    {
      assert tail[i] == rs[i + 1];
    }
  }
}

=== FILE: errors.dfy ===
/** The error conditions the record subsystem can reject a promise with. */
module Errors {
  import opened Wrappers
  import Strings

  datatype Error =
    | MissingId                              // deleting a record that was never saved
    | ConstraintError                        // a unique index or the primary key already holds the value
    | ContentMismatch(chunkId: string)       // a chunk id reused for different content
    | MissingChunk                           // a chunk id that is not in the chunks table
    | IncorrectVersion(found: Option<int>)   // database dump of an unsupported version
    | UnknownInterchangeVersion(found: Option<int>) // pack interchange of an unsupported version
    | CompoundIndex                          // URL of a table with a compound primary key
    | BadKeyType(typeName: string)           // URL of a key that is neither a number nor a string
    | CannotLoadPack(pack: int)              // a manual pack association to a missing pack
    | OverwritingMode(mode: string)          // registering a mode name twice
    | AmbiguousMapping(path: string)         // two modes sharing one path
    | InvalidJson                            // JSON.parse threw
    | GrammarError                           // the grammar library could not build the schema
    | TypeError(what: string)                // a property read on `undefined`
    | DataError                              // IndexedDB given `undefined` as a key
    | EditWithoutPack                        // launching the editor on a file no pack goes with

  type Res<T> = Result<T, Error>

  /** `${v}` for a version field that may be missing. */
  function ShowVersion(v: Option<int>): string {
    match v
    case None => "undefined"
    case Some(n) => Strings.IntToString(n)
  }

  /** The text of the `Error` the source throws for each condition. */
  function Message(e: Error): string {
    match e
    case MissingId => "missing id!"
    case ConstraintError => "ConstraintError"
    case ContentMismatch(id) => "trying to update chunk with id " + id
    case MissingChunk => "missing chunk"
    case IncorrectVersion(v) => "incorrect version number: " + ShowVersion(v)
    case UnknownInterchangeVersion(v) => "unknown interchangeVersion: " + ShowVersion(v)
    case CompoundIndex => "does not support compound indexes"
    case BadKeyType(t) => "cannot use primary key of type: " + t
    case CannotLoadPack(p) => "cannot load pack: " + Strings.IntToString(p)
    case OverwritingMode(m) => "overwriting mode " + m
    case AmbiguousMapping(p) => "ambiguous mapping for " + p
    case InvalidJson => "SyntaxError"
    case GrammarError => "grammar error"
    case TypeError(what) => "TypeError: " + what
    case DataError => "DataError"
    case EditWithoutPack => "edit launched on file without a pack associated with it manually or automatically"
  }
}

=== FILE: js_object.dfy ===
/** The order in which JavaScript lists an ordinary object's own string keys
    (`Object.keys`): array indices first, in ascending numeric order, then the
    other keys in the order their properties were created (section 10.1.11.1,
    OrdinaryOwnPropertyKeys, of ECMA-262). */
module JsObject {
  import Strings

  predicate Distinct(s: seq<string>) {
    forall i, j :: 0 <= i < j < |s| ==> s[i] != s[j]
  }

  const MaxArrayIndex: nat := 0xFFFF_FFFE

  /** An array index: the canonical decimal form of an integer below
      2^32 - 1. */
  predicate IsArrayIndex(s: string) {
    && |s| > 0 && Strings.AllDigits(s)
    && Strings.NatToString(Strings.ParseDigits(s)) == s
    && Strings.ParseDigits(s) <= MaxArrayIndex
  }

  function IndexValue(s: string): nat
    requires IsArrayIndex(s)
  {
    Strings.ParseDigits(s)
  }

  /** Two array indices with the same value are the same key. */
  lemma {:induction false} IndexValueInjective(a: string, b: string)
    requires IsArrayIndex(a) && IsArrayIndex(b)
    ensures IndexValue(a) == IndexValue(b) ==> a == b
  {
    assert a == Strings.NatToString(IndexValue(a));
    assert b == Strings.NatToString(IndexValue(b));
  }

  /** Array indices in strictly ascending numeric order. */
  predicate AscendingIndices(s: seq<string>) {
    && (forall i :: 0 <= i < |s| ==> IsArrayIndex(s[i]))
    && (forall i, j :: 0 <= i < j < |s| ==> IndexValue(s[i]) < IndexValue(s[j]))
  }

  /** The keys that are not array indices, in creation order. */
  function OtherKeys(s: seq<string>): (r: seq<string>)
    ensures forall x :: x in r <==> x in s && !IsArrayIndex(x)
    ensures forall i :: 0 <= i < |r| ==> !IsArrayIndex(r[i])
    decreases |s|
  {
    if s == [] then []
    else
      var init, last := s[..|s| - 1], s[|s| - 1];
      assert forall x :: x in s <==> x in init || x == last;
      if IsArrayIndex(last) then OtherKeys(init) else OtherKeys(init) + [last]
  }

  /** `x` put into its place among ascending indices. */
  function Insert(x: string, s: seq<string>): (r: seq<string>)
    requires IsArrayIndex(x) && AscendingIndices(s) && x !in s
    ensures AscendingIndices(r) && |r| == |s| + 1
    ensures forall y :: y in r <==> y == x || y in s
    decreases |s|
  {
    if s == [] then [x]
    else if IndexValue(x) < IndexValue(s[0]) then
      AscendingTail(s);
      ConsAscending(x, s);
      [x] + s
    else
      IndexValueInjective(x, s[0]);
      AscendingTail(s);
      var rest := Insert(x, s[1..]);
      assert forall i :: 0 <= i < |rest| ==> IndexValue(s[0]) < IndexValue(rest[i]) by {
        forall i | 0 <= i < |rest|
          ensures IndexValue(s[0]) < IndexValue(rest[i])
        {
          assert rest[i] in rest;
        }
      }
      ConsAscending(s[0], rest);
      [s[0]] + rest
  }

  /** Past the first of ascending indices come larger ones, still ascending. */
  lemma {:induction false} AscendingTail(s: seq<string>)
    requires AscendingIndices(s) && s != []
    ensures AscendingIndices(s[1..])
    ensures forall y :: y in s <==> y == s[0] || y in s[1..]
    ensures forall y :: y in s[1..] ==> IndexValue(s[0]) < IndexValue(y)
  {
    var tail := s[1..];
    assert forall i :: 0 <= i < |tail| ==> tail[i] == s[i + 1];
    assert s == [s[0]] + tail;
    forall y | y in tail
      ensures IndexValue(s[0]) < IndexValue(y)
    {
      var k :| 0 <= k < |tail| && tail[k] == y;
      assert s[k + 1] == y;
    }
  }

  /** A smaller index put before ascending indices keeps them ascending. */
  lemma {:induction false} ConsAscending(h: string, s: seq<string>)
    requires IsArrayIndex(h) && AscendingIndices(s)
    requires forall i :: 0 <= i < |s| ==> IndexValue(h) < IndexValue(s[i])
    ensures AscendingIndices([h] + s)
  {
    var r := [h] + s;
    assert forall i :: 1 <= i < |r| ==> r[i] == s[i - 1];
    forall i, j | 0 <= i < j < |r|
      ensures IndexValue(r[i]) < IndexValue(r[j])
    {
      if i == 0 {
        assert r[j] == s[j - 1];
      } else {
        assert r[i] == s[i - 1] && r[j] == s[j - 1];
      }
    }
  }

  /** The array indices among the keys, in ascending numeric order. */
  function IndexKeys(s: seq<string>): (r: seq<string>)
    ensures AscendingIndices(r)
    ensures forall x :: x in r <==> x in s && IsArrayIndex(x)
    decreases |s|
  {
    if s == [] then []
    else
      var init, last := s[..|s| - 1], s[|s| - 1];
      assert forall x :: x in s <==> x in init || x == last;
      var rest := IndexKeys(init);
      if IsArrayIndex(last) && last !in rest then Insert(last, rest) else rest
  }

  /** `Object.keys` of an object whose properties were created in the order
      `s`. */
  function ObjectKeys(s: seq<string>): (r: seq<string>)
    ensures forall x :: x in r <==> x in s
  {
    IndexKeys(s) + OtherKeys(s)
  }

  /** Array indices come first, in ascending numeric order. */
  lemma {:induction false} ObjectKeysIndicesFirst(s: seq<string>)
    ensures var r := ObjectKeys(s);
      forall i, j :: 0 <= i < j < |r| && IsArrayIndex(r[j]) ==>
        IsArrayIndex(r[i]) && IndexValue(r[i]) < IndexValue(r[j])
  {
    var a, b := IndexKeys(s), OtherKeys(s);
    var r := a + b;
    assert r == ObjectKeys(s);
    assert forall k :: |a| <= k < |r| ==> r[k] == b[k - |a|];
    forall i, j | 0 <= i < j < |r| && IsArrayIndex(r[j])
      ensures IsArrayIndex(r[i]) && IndexValue(r[i]) < IndexValue(r[j])
    {
      assert j < |a|;
      assert r[i] == a[i] && r[j] == a[j];
    }
  }

  /** Over distinct keys, every key is listed exactly once. */
  lemma {:induction false} ObjectKeysDistinct(s: seq<string>)
    ensures Distinct(s) ==> Distinct(ObjectKeys(s)) && |ObjectKeys(s)| == |s|
  {
    if Distinct(s) {
      ObjectKeysDistinctListing(s);
    }
  }

  lemma {:induction false} ObjectKeysDistinctListing(s: seq<string>)
    requires Distinct(s)
    ensures Distinct(ObjectKeys(s)) && |ObjectKeys(s)| == |s|
  {
    KeyCount(s);
    OtherKeysDistinct(s);
    var a, b := IndexKeys(s), OtherKeys(s);
    assert Distinct(a) by {
      forall i, j | 0 <= i < j < |a|
        ensures a[i] != a[j]
      {
        assert IndexValue(a[i]) < IndexValue(a[j]);
      }
    }
    DistinctAppend(a, b);
    assert ObjectKeys(s) == a + b;
  }

  lemma {:induction false} DistinctAppend(a: seq<string>, b: seq<string>)
    requires Distinct(a) && Distinct(b)
    requires forall x :: x in a ==> x !in b
    ensures Distinct(a + b)
  {
    var r := a + b;
    forall i, j | 0 <= i < j < |r|
      ensures r[i] != r[j]
    {
      if j < |a| {
        assert r[i] == a[i] && r[j] == a[j];
      } else if i >= |a| {
        assert r[i] == b[i - |a|] && r[j] == b[j - |a|];
      } else {
        assert r[i] == a[i] && r[j] == b[j - |a|];
        assert a[i] in a;
      }
    }
  }

  lemma {:induction false} KeyCount(s: seq<string>)
    requires Distinct(s)
    ensures |IndexKeys(s)| + |OtherKeys(s)| == |s|
    decreases |s|
  {
    if s != [] {
      var init, last := s[..|s| - 1], s[|s| - 1];
      assert Distinct(init) && last !in init by {
        forall i, j | 0 <= i < j < |init|
          ensures init[i] != init[j]
        {
          assert init[i] == s[i] && init[j] == s[j];
        }
      }
      KeyCount(init);
    }
  }

  lemma {:induction false} OtherKeysDistinct(s: seq<string>)
    requires Distinct(s)
    ensures Distinct(OtherKeys(s))
    decreases |s|
  {
    if s != [] {
      var init, last := s[..|s| - 1], s[|s| - 1];
      assert Distinct(init) && last !in init by {
        forall i, j | 0 <= i < j < |init|
          ensures init[i] != init[j]
        {
          assert init[i] == s[i] && init[j] == s[j];
        }
      }
      OtherKeysDistinct(init);
      var o := OtherKeys(init);
      if !IsArrayIndex(last) {
        var r := o + [last];
        forall i, j | 0 <= i < j < |r|
          ensures r[i] != r[j]
        {
          if j == |o| {
            assert r[i] == o[i] && o[i] in o;
          } else {
            assert r[i] == o[i] && r[j] == o[j];
          }
        }
      }
    }
  }

  /** The keys that are not array indices keep their creation order. */
  lemma {:induction false} ObjectKeysKeepsOtherOrder(s: seq<string>)
    ensures OtherKeys(ObjectKeys(s)) == OtherKeys(s)
  {
    var a, b := IndexKeys(s), OtherKeys(s);
    OtherKeysAppend(a, b);
    NoOtherKeys(a);
    AllOtherKeys(b);
    assert ObjectKeys(s) == a + b;
  }

  lemma {:induction false} OtherKeysAppend(a: seq<string>, b: seq<string>)
    ensures OtherKeys(a + b) == OtherKeys(a) + OtherKeys(b)
    decreases |b|
  {
    if b == [] {
      assert a + b == a;
    } else {
      var init := b[..|b| - 1];
      assert (a + b)[..|a + b| - 1] == a + init;
      assert (a + b)[|a + b| - 1] == b[|b| - 1];
      OtherKeysAppend(a, init);
    }
  }

  lemma {:induction false} NoOtherKeys(a: seq<string>)
    requires forall i :: 0 <= i < |a| ==> IsArrayIndex(a[i])
    ensures OtherKeys(a) == []
    decreases |a|
  {
    if a != [] {
      NoOtherKeys(a[..|a| - 1]);
    }
  }

  /** With no array index among them, the keys are listed in creation
      order. */
  lemma {:induction false} AllOtherKeys(s: seq<string>)
    requires forall i :: 0 <= i < |s| ==> !IsArrayIndex(s[i])
    ensures OtherKeys(s) == s && IndexKeys(s) == [] && ObjectKeys(s) == s
  {
    OtherKeysOfOthers(s);
    NoIndexKeys(s);
    assert ObjectKeys(s) == [] + s;
  }

  lemma {:induction false} OtherKeysOfOthers(s: seq<string>)
    requires forall i :: 0 <= i < |s| ==> !IsArrayIndex(s[i])
    ensures OtherKeys(s) == s
    decreases |s|
  {
    if s != [] {
      var init, last := s[..|s| - 1], s[|s| - 1];
      assert forall i :: 0 <= i < |init| ==> init[i] == s[i];
      OtherKeysOfOthers(init);
      assert !IsArrayIndex(last);
      assert init + [last] == s;
    }
  }

  lemma {:induction false} NoIndexKeys(s: seq<string>)
    requires forall i :: 0 <= i < |s| ==> !IsArrayIndex(s[i])
    ensures IndexKeys(s) == []
    decreases |s|
  {
    if s != [] {
      var init, last := s[..|s| - 1], s[|s| - 1];
      assert forall i :: 0 <= i < |init| ==> init[i] == s[i];
      NoIndexKeys(init);
      assert !IsArrayIndex(last);
    }
  }

  /** A key created later is still listed first when it is an array index. */
  lemma {:induction false} IndexKeyListedFirst()
    ensures ObjectKeys(["generic", "7"]) == ["7", "generic"]
  {
    assert Strings.ParseDigits("7") == 7 by {
      assert "7"[..0] == [];
    }
    assert Strings.NatToString(7) == "7";
    assert IsArrayIndex("7");
    assert !IsArrayIndex("generic") by {
      assert !Strings.IsDigit("generic"[0]);
    }
    var s := ["generic", "7"];
    assert s[..1] == ["generic"] && s[..1][..0] == [];
    assert IndexKeys(["generic"]) == [] && OtherKeys(["generic"]) == ["generic"];
    assert IndexKeys(s) == ["7"];
    assert OtherKeys(s) == ["generic"];
  }
}

=== FILE: keys.dfy ===
/** Primary-key order: IndexedDB hands back a table's rows sorted by key. */
module Keys {

  predicate IsMin(m: nat, ks: set<nat>) {
    m in ks && forall k :: k in ks ==> m <= k
  }

  lemma {:induction false} MinExists(ks: set<nat>)
    requires ks != {}
    ensures exists m :: IsMin(m, ks)
    decreases |ks|
  {
    var x :| x in ks;
    assert forall k :: k in ks ==> k == x || k in ks - {x};
    if ks - {x} == {} {
      assert IsMin(x, ks);
    } else {
      MinExists(ks - {x});
      var m :| IsMin(m, ks - {x});
      if x <= m {
        assert IsMin(x, ks);
      } else {
        assert IsMin(m, ks);
      }
    }
  }

  function MinKey(ks: set<nat>): (m: nat)
    requires ks != {}
    ensures IsMin(m, ks)
  {
    MinExists(ks);
    var m :| IsMin(m, ks); m
  }

  predicate StrictlyIncreasing(s: seq<nat>) {
    forall i, j :: 0 <= i < j < |s| ==> s[i] < s[j]
  }

  /** The keys of `ks` in increasing order, each exactly once. */
  function SortedKeys(ks: set<nat>): (s: seq<nat>)
    ensures |s| == |ks|
    ensures forall k :: k in ks <==> k in s
    ensures StrictlyIncreasing(s)
    decreases |ks|
  {
    if ks == {} then []
    else
      var m := MinKey(ks);
      var rest := SortedKeys(ks - {m});
      var s := [m] + rest;
      assert forall k :: k in ks <==> k == m || k in ks - {m};
      assert forall k :: k in s <==> k == m || k in rest;
      forall i, j | 0 <= i < j < |s|
        ensures s[i] < s[j]
      {
        assert s[j] == rest[j - 1];
        if i > 0 {
          assert s[i] == rest[i - 1];
        }
      }
      s
  }
}

=== FILE: metadata_service.dfy ===
/** The metadata service (src/dashboard/metadata.service.ts): metadata records wrap a chunk
    of their text. */
module MetadataService {
  import opened Wrappers
  import opened Errors
  import opened Records
  import opened Chunks
  import opened ChunksService
  import opened DbService
  import Store

  /** `makeRecord`: store the text as a chunk and wrap its id in a new, unsaved
      metadata record of the given name. */
  function MakeRecord(digest: Digest, chunks: ChunkTable, name: string, data: string)
    : (r: Res<(ChunkTable, Rec)>)
    ensures r.Ok? <==> StoreText(digest, chunks, data).Ok?
    ensures r.Ok? ==>
      var (c2, metadata) := r.value;
      && metadata.Metadata? && metadata.id.None? && metadata.name == name
      && metadata.recordVersion == CommonRecordVersion
      && metadata.chunk == digest(data)
      && metadata.chunk in c2.contents && c2.contents[metadata.chunk] == data
      && Extends(c2, chunks)
  {
    var (c2, id) :- StoreText(digest, chunks, data);
    Ok((c2, Metadata(None, name, CommonRecordVersion, id)))
  }

  function Maker(digest: Digest): Maker {
    (c, n, d) => MakeRecord(digest, c, n, d)
  }

  /** `getDownloadData`: the text of the metadata's chunk. */
  function GetDownloadData(chunks: ChunkTable, metadata: Rec): (r: Res<string>)
    requires metadata.Metadata?
    ensures r.Ok? <==> metadata.chunk in chunks.contents
    ensures r.Ok? ==> r.value == chunks.contents[metadata.chunk]
    ensures r.Err? ==> r.error == MissingChunk
  {
    Store.ChunkIdToData(chunks, metadata.chunk)
  }

  /** `getDownloadData(makeRecord(n, d))` is `d`. */
  lemma {:induction false} DownloadRoundTrip(digest: Digest, chunks: ChunkTable, name: string, data: string)
    requires MakeRecord(digest, chunks, name, data).Ok?
    ensures var (c2, metadata) := MakeRecord(digest, chunks, name, data).value;
      GetDownloadData(c2, metadata) == Ok(data)
  {
  }
}

=== FILE: modes_service.dfy ===
/** The modes service (src/dashboard/modes.service.ts): a two-way mapping
    between mode names and the paths of their implementations, seeded with the
    builtin modes and extended with additional ones. */
module ModesService {
  import opened Wrappers
  import opened Errors
  import opened JsObject

  datatype ModeInfo = ModeInfo(name: string, path: string)

  /** The service's state: `order` holds the names of `map` in the order
      their properties were created; `forward` is `map`, `reverse` its
      inverse. */
  datatype Modes = Modes(order: seq<string>, forward: map<string, string>, reverse: map<string, string>)

  function NamesOf(ms: seq<ModeInfo>): (r: seq<string>)
    ensures |r| == |ms| && forall i :: 0 <= i < |ms| ==> r[i] == ms[i].name
  {
    seq(|ms|, i requires 0 <= i < |ms| => ms[i].name)
  }

  function PathsOf(ms: seq<ModeInfo>): (r: seq<string>)
    ensures |r| == |ms| && forall i :: 0 <= i < |ms| ==> r[i] == ms[i].path
  {
    seq(|ms|, i requires 0 <= i < |ms| => ms[i].path)
  }

  /** `order` lists the keys of `forward`, once each. */
  ghost predicate NamesListed(m: Modes) {
    Distinct(m.order) && forall n :: n in m.forward <==> n in m.order
  }

  /** `reverse` is exactly the inverse of `forward`. */
  ghost predicate Inverse(m: Modes) {
    && (forall n :: n in m.forward ==> m.forward[n] in m.reverse && m.reverse[m.forward[n]] == n)
    && (forall p :: p in m.reverse ==> m.reverse[p] in m.forward && m.forward[m.reverse[p]] == p)
  }

  ghost predicate Consistent(m: Modes) {
    NamesListed(m) && Inverse(m)
  }

  /** The `modes` getter, `Object.keys(map)`: array-index names first, in
      ascending numeric order, then the others in the order they were added. */
  function ModeNames(m: Modes): (r: seq<string>)
    ensures NamesListed(m) ==> Distinct(r) && |r| == |m.order| && forall n :: n in r <==> n in m.forward
  {
    ObjectKeysDistinct(m.order);
    ObjectKeys(m.order)
  }

  /** The modes are listed with the array-index names first, in ascending
      numeric order, and the other names in the order they were added. */
  lemma {:induction false} ModeNamesOrder(m: Modes)
    ensures var r := ModeNames(m);
      && (forall i, j :: 0 <= i < j < |r| && IsArrayIndex(r[j]) ==>
            IsArrayIndex(r[i]) && IndexValue(r[i]) < IndexValue(r[j]))
      && OtherKeys(r) == OtherKeys(m.order)
  {
    ObjectKeysIndicesFirst(m.order);
    ObjectKeysKeepsOtherOrder(m.order);
  }

  /** Without array-index names, the modes are listed in the order they were
      added. */
  lemma {:induction false} ModeNamesPlain(m: Modes)
    requires forall i :: 0 <= i < |m.order| ==> !IsArrayIndex(m.order[i])
    ensures ModeNames(m) == m.order
  {
    AllOtherKeys(m.order);
  }

  /** A mode named "7" added after "generic" is listed before it. */
  lemma {:induction false} IndexModeListedFirst()
    ensures var m := Modes(["generic"], map["generic" := "generic-path"], map["generic-path" := "generic"]);
      && AddMode(m, "7", "seven-path").1.None?
      && ModeNames(AddMode(m, "7", "seven-path").0) == ["7", "generic"]
  {
    var m := Modes(["generic"], map["generic" := "generic-path"], map["generic-path" := "generic"]);
    assert AddMode(m, "7", "seven-path").0.order == ["generic", "7"];
    IndexKeyListedFirst();
  }

  /** `modeToPath`: `None` for an unknown mode. */
  function ModeToPath(m: Modes, mode: string): (r: Option<string>)
    ensures r.Some? <==> mode in m.forward
    ensures r.Some? ==> r.value == m.forward[mode]
  {
    if mode in m.forward then Some(m.forward[mode]) else None
  }

  /** `pathToMode`: `None` for an unknown path. */
  function PathToMode(m: Modes, path: string): (r: Option<string>)
    ensures r.Some? <==> path in m.reverse
    ensures r.Some? ==> r.value == m.reverse[path]
  {
    if path in m.reverse then Some(m.reverse[path]) else None
  }

  /** `addMode`, as written: an existing name is refused with nothing changed;
      otherwise the name is mapped to the path first, and only then is the
      path checked, so a refused path leaves the name registered without a
      reverse entry. Returns the state afterwards and the error, if one was
      thrown. */
  function AddMode(m: Modes, name: string, path: string): (r: (Modes, Option<Error>))
    ensures name in m.forward ==> r == (m, Some(OverwritingMode(name)))
    ensures name !in m.forward ==>
      && r.0.order == m.order + [name]
      && r.0.forward == m.forward[name := path]
    ensures name !in m.forward && path in m.reverse ==>
      r.1 == Some(AmbiguousMapping(path)) && r.0.reverse == m.reverse
    ensures name !in m.forward && path !in m.reverse ==>
      r.1.None? && r.0.reverse == m.reverse[path := name]
  {
    if name in m.forward then (m, Some(OverwritingMode(name)))
    else
      var m1 := m.(order := m.order + [name], forward := m.forward[name := path]);
      if path in m.reverse then (m1, Some(AmbiguousMapping(path)))
      else (m1.(reverse := m.reverse[path := name]), None)
  }

  /** A successful `addMode` keeps the mapping consistent, adds one mode, and
      the new mode and its path map to each other. */
  lemma {:induction false} AddModeRoundTrip(m: Modes, name: string, path: string)
    requires Consistent(m)
    requires AddMode(m, name, path).1.None?
    ensures var m2 := AddMode(m, name, path).0;
      && Consistent(m2)
      && |ModeNames(m2)| == |ModeNames(m)| + 1
      && ModeToPath(m2, name) == Some(path) && PathToMode(m2, path) == Some(name)
      && (forall n :: n in m.forward ==> ModeToPath(m2, n) == ModeToPath(m, n))
  {
    var m2 := AddMode(m, name, path).0;
    AddModeConsistent(m, name, path);
    ModeNamesCount(m);
    ModeNamesCount(m2);
  }

  lemma {:induction false} ModeNamesCount(m: Modes)
    requires NamesListed(m)
    ensures |ModeNames(m)| == |m.order|
  {
  }

  /** A successful `addMode` keeps the mapping consistent, and the new mode
      and its path map to each other while the other modes keep theirs. */
  lemma {:induction false} AddModeConsistent(m: Modes, name: string, path: string)
    requires Consistent(m)
    requires AddMode(m, name, path).1.None?
    ensures var m2 := AddMode(m, name, path).0;
      && Consistent(m2) && m2.order == m.order + [name]
      && ModeToPath(m2, name) == Some(path) && PathToMode(m2, path) == Some(name)
      && (forall n :: n in m.forward ==> ModeToPath(m2, n) == ModeToPath(m, n))
  {
    assert path !in m.reverse;
    AddModeListsName(m, name, path);
  }

  /** A name that was not known is listed once more after an `addMode`. */
  lemma {:induction false} AddModeListsName(m: Modes, name: string, path: string)
    requires NamesListed(m) && name !in m.forward
    ensures NamesListed(AddMode(m, name, path).0)
  {
    var m2 := AddMode(m, name, path).0;
    forall i, j | 0 <= i < j < |m2.order|
      ensures m2.order[i] != m2.order[j]
    {
      if j == |m.order| {
        assert m2.order[i] == m.order[i];
      } else {
        assert m2.order[i] == m.order[i] && m2.order[j] == m.order[j];
      }
    }
    forall n
      ensures n in m2.forward <==> n in m2.order
    {
      assert n in m2.order <==> n in m.order || n == name;
    }
  }

  /** `addMode` is not atomic: a refused path still leaves the name mapped,
      and the mapping is no longer its own inverse. */
  lemma {:induction false} AmbiguousAddBreaksInverse(m: Modes, name: string, path: string)
    requires Consistent(m)
    requires name !in m.forward && path in m.reverse
    ensures var (m2, err) := AddMode(m, name, path);
      && err == Some(AmbiguousMapping(path))
      && ModeToPath(m2, name) == Some(path)
      && PathToMode(m2, path) != Some(name)
      && !Inverse(m2)
  {
    var m2 := AddMode(m, name, path).0;
    assert m.reverse[path] in m.forward;
  }

  /** The constructor's first loop: index every builtin mode's path; a path
      seen twice is refused. */
  function IndexPaths(m: Modes, bs: seq<ModeInfo>): (r: Res<Modes>)
    ensures r.Ok? ==> r.value.order == m.order && r.value.forward == m.forward
    ensures r.Ok? ==> forall p :: p in m.reverse ==> p in r.value.reverse
    ensures r.Ok? ==> forall i :: 0 <= i < |bs| ==> bs[i].path in r.value.reverse
    ensures r.Err? ==> exists i :: 0 <= i < |bs| && r.error == AmbiguousMapping(bs[i].path)
    decreases |bs|
  {
    if bs == [] then Ok(m)
    else if bs[0].path in m.reverse then Err(AmbiguousMapping(bs[0].path))
    else
      var tail := bs[1..];
      assert forall i :: 0 <= i < |tail| ==> tail[i] == bs[i + 1];
      IndexPaths(m.(reverse := m.reverse[bs[0].path := bs[0].name]), tail)
  }

  /** The constructor's second loop: `addMode` for each additional mode,
      stopping at the first error. */
  function AddModes(m: Modes, ms: seq<ModeInfo>): (r: Res<Modes>)
    ensures r.Ok? ==> forall n :: n in m.forward ==> n in r.value.forward && r.value.forward[n] == m.forward[n]
    ensures r.Ok? ==> forall i :: 0 <= i < |ms| ==> ms[i].name in r.value.forward
    ensures r.Err? ==>
      exists i :: 0 <= i < |ms| && (r.error == OverwritingMode(ms[i].name) || r.error == AmbiguousMapping(ms[i].path))
    decreases |ms|
  {
    if ms == [] then Ok(m)
    else
      var tail := ms[1..];
      assert forall i :: 0 <= i < |tail| ==> tail[i] == ms[i + 1];
      var (m2, err) := AddMode(m, ms[0].name, ms[0].path);
      if err.Some? then Err(err.value) else AddModes(m2, tail)
  }

  /** The builtin modes as a map. */
  function BuiltinMap(bs: seq<ModeInfo>): (r: map<string, string>)
    ensures forall n :: n in r <==> n in NamesOf(bs)
    decreases |bs|
  {
    if bs == [] then map[]
    else
      var last := bs[|bs| - 1];
      var r := BuiltinMap(bs[..|bs| - 1])[last.name := last.path];
      assert forall n :: n in NamesOf(bs) <==> n in NamesOf(bs[..|bs| - 1]) || n == last.name;
      r
  }

  /** The constructor: the builtin modes (an object, so their names are
      distinct), then the optional additional modes. */
  function Construct(builtins: seq<ModeInfo>, additional: Option<seq<ModeInfo>>): (r: Res<Modes>)
    requires Distinct(NamesOf(builtins))
    ensures r.Ok? ==> forall i :: 0 <= i < |builtins| ==> builtins[i].name in r.value.forward
    ensures r.Ok? && additional.Some? ==>
      forall i :: 0 <= i < |additional.value| ==> additional.value[i].name in r.value.forward
    ensures r.Err? ==> r.error.OverwritingMode? || r.error.AmbiguousMapping?
  {
    var m0 := Modes(NamesOf(builtins), BuiltinMap(builtins), map[]);
    var m1 :- IndexPaths(m0, builtins);
    match additional
    case None => Ok(m1)
    case Some(ms) => AddModes(m1, ms)
  }

  /** The name of each builtin mode maps to its path. */
  lemma {:induction false} BuiltinMapLookup(bs: seq<ModeInfo>, i: nat)
    requires Distinct(NamesOf(bs)) && i < |bs|
    ensures bs[i].name in BuiltinMap(bs) && BuiltinMap(bs)[bs[i].name] == bs[i].path
    decreases |bs|
  {
    var init := bs[..|bs| - 1];
    if i < |bs| - 1 {
      assert NamesOf(init) == NamesOf(bs)[..|bs| - 1];
      assert bs[i] == init[i];
      assert bs[i].name != bs[|bs| - 1].name by {
        assert NamesOf(bs)[i] == bs[i].name && NamesOf(bs)[|bs| - 1] == bs[|bs| - 1].name;
      }
      BuiltinMapLookup(init, i);
    }
  }

  lemma {:induction false} DistinctCons(x: string, s: seq<string>)
    ensures Distinct([x] + s) <==> x !in s && Distinct(s)
  {
    var t := [x] + s;
    assert forall i :: 0 <= i < |s| ==> t[i + 1] == s[i];
    if x !in s && Distinct(s) {
      forall i, j | 0 <= i < j < |t|
        ensures t[i] != t[j]
      {
        if i > 0 {
          assert t[i] == s[i - 1];
        }
      }
    }
    if Distinct(t) {
      forall i, j | 0 <= i < j < |s|
        ensures s[i] != s[j]
      {
        assert t[i + 1] != t[j + 1];
      }
      forall k | 0 <= k < |s|
        ensures s[k] != x
      {
        assert t[0] != t[k + 1];
      }
    }
  }

  lemma {:induction false} InfoCons(ms: seq<ModeInfo>)
    requires ms != []
    ensures NamesOf(ms) == [ms[0].name] + NamesOf(ms[1..])
    ensures PathsOf(ms) == [ms[0].path] + PathsOf(ms[1..])
  {
  }

  /** No path of `ms` is in `used` and none repeats. */
  ghost predicate FreshPaths(ms: seq<ModeInfo>, used: set<string>) {
    (forall p :: p in PathsOf(ms) ==> p !in used) && Distinct(PathsOf(ms))
  }

  /** No name of `ms` is in `used` and none repeats. */
  ghost predicate FreshNames(ms: seq<ModeInfo>, used: set<string>) {
    (forall n :: n in NamesOf(ms) ==> n !in used) && Distinct(NamesOf(ms))
  }

  lemma {:induction false} FreshPathsCons(ms: seq<ModeInfo>, reverse: map<string, string>, name: string)
    requires ms != []
    ensures FreshPaths(ms, reverse.Keys) <==>
      ms[0].path !in reverse && FreshPaths(ms[1..], reverse[ms[0].path := name].Keys)
  {
    InfoCons(ms);
    DistinctCons(ms[0].path, PathsOf(ms[1..]));
  }

  lemma {:induction false} FreshNamesCons(ms: seq<ModeInfo>, forward: map<string, string>, path: string)
    requires ms != []
    ensures FreshNames(ms, forward.Keys) <==>
      ms[0].name !in forward && FreshNames(ms[1..], forward[ms[0].name := path].Keys)
  {
    InfoCons(ms);
    DistinctCons(ms[0].name, NamesOf(ms[1..]));
  }

  /** Indexing paths succeeds exactly when no path is already indexed or
      repeated. */
  lemma {:induction false} IndexPathsOkIff(m: Modes, bs: seq<ModeInfo>)
    ensures IndexPaths(m, bs).Ok? <==> FreshPaths(bs, m.reverse.Keys)
    decreases |bs|
  {
    if bs != [] {
      FreshPathsCons(bs, m.reverse, bs[0].name);
      IndexPathsOkIff(m.(reverse := m.reverse[bs[0].path := bs[0].name]), bs[1..]);
    }
  }

  /** Successful indexing records every path under its mode's name and keeps
      what was there. */
  lemma {:induction false} IndexPathsContents(m: Modes, bs: seq<ModeInfo>)
    requires IndexPaths(m, bs).Ok?
    ensures var r := IndexPaths(m, bs).value.reverse;
      && (forall p :: p in r <==> p in m.reverse || p in PathsOf(bs))
      && (forall p :: p in m.reverse ==> r[p] == m.reverse[p])
      && (forall i :: 0 <= i < |bs| ==> r[bs[i].path] == bs[i].name)
    decreases |bs|
  {
    if bs != [] {
      var b := bs[0];
      var m1 := m.(reverse := m.reverse[b.path := b.name]);
      InfoCons(bs);
      IndexPathsContents(m1, bs[1..]);
      var r := IndexPaths(m, bs).value.reverse;
      assert IndexPaths(m, bs) == IndexPaths(m1, bs[1..]);
      forall p | p in m.reverse
        ensures r[p] == m.reverse[p]
      {
        assert p != b.path && p in m1.reverse;
      }
      forall i | 0 <= i < |bs|
        ensures r[bs[i].path] == bs[i].name
      {
        if i == 0 {
          assert b.path in m1.reverse;
        } else {
          assert bs[i] == bs[1..][i - 1];
        }
      }
    }
  }

  /** `addMode` in sequence succeeds exactly when every additional name and
      path is new and none repeats. */
  lemma {:induction false} AddModesOkIff(m: Modes, ms: seq<ModeInfo>)
    ensures AddModes(m, ms).Ok? <==> FreshNames(ms, m.forward.Keys) && FreshPaths(ms, m.reverse.Keys)
    decreases |ms|
  {
    if ms != [] {
      var x := ms[0];
      FreshNamesCons(ms, m.forward, x.path);
      FreshPathsCons(ms, m.reverse, x.name);
      if x.name !in m.forward && x.path !in m.reverse {
        AddModesOkIff(AddMode(m, x.name, x.path).0, ms[1..]);
      }
    }
  }

  /** After a successful sequence of `addMode`, the mapping is consistent. */
  lemma {:induction false} AddModesConsistent(m: Modes, ms: seq<ModeInfo>)
    requires Consistent(m)
    requires AddModes(m, ms).Ok?
    ensures Consistent(AddModes(m, ms).value)
    decreases |ms|
  {
    if ms != [] {
      var x := ms[0];
      var m1 := AddMode(m, x.name, x.path).0;
      AddModeRoundTrip(m, x.name, x.path);
      assert AddModes(m, ms) == AddModes(m1, ms[1..]);
      AddModesConsistent(m1, ms[1..]);
    }
  }

  /** After a successful sequence of `addMode`, the new names were added in
      order after the existing ones. */
  lemma {:induction false} AddModesNames(m: Modes, ms: seq<ModeInfo>)
    requires AddModes(m, ms).Ok?
    ensures AddModes(m, ms).value.order == m.order + NamesOf(ms)
    decreases |ms|
  {
    if ms == [] {
      assert m.order + NamesOf(ms) == m.order;
    } else {
      var m1 := AddModesStep(m, ms);
      AddModesNames(m1, ms[1..]);
      AppendCons(m.order, ms);
    }
  }

  lemma {:induction false} AppendCons(order: seq<string>, ms: seq<ModeInfo>)
    requires ms != []
    ensures (order + [ms[0].name]) + NamesOf(ms[1..]) == order + NamesOf(ms)
  {
    InfoCons(ms);
    assert (order + [ms[0].name]) + NamesOf(ms[1..]) == order + ([ms[0].name] + NamesOf(ms[1..]));
  }

  /** The first step of a successful sequence of `addMode`. */
  lemma {:induction false} AddModesStep(m: Modes, ms: seq<ModeInfo>) returns (m1: Modes)
    requires ms != [] && AddModes(m, ms).Ok?
    ensures m1.order == m.order + [ms[0].name]
    ensures AddModes(m1, ms[1..]) == AddModes(m, ms)
  {
    var err;
    m1, err := AddMode(m, ms[0].name, ms[0].path).0, AddMode(m, ms[0].name, ms[0].path).1;
    assert err.None?;
  }

  /** After a successful sequence of `addMode`, every new mode maps to its
      path and the earlier modes are untouched. */
  lemma {:induction false} AddModesLookups(m: Modes, ms: seq<ModeInfo>)
    requires AddModes(m, ms).Ok?
    ensures var r := AddModes(m, ms).value;
      && (forall n :: n in m.forward ==> n in r.forward && r.forward[n] == m.forward[n])
      && (forall i :: 0 <= i < |ms| ==> ms[i].name in r.forward && r.forward[ms[i].name] == ms[i].path)
    decreases |ms|
  {
    if ms != [] {
      var x := ms[0];
      var m1 := AddMode(m, x.name, x.path).0;
      AddModesLookups(m1, ms[1..]);
      assert forall i :: 0 < i < |ms| ==> ms[i] == ms[1..][i - 1];
    }
  }

  /** The set of the elements of `s`. */
  function Elements(s: seq<string>): (r: set<string>)
    ensures forall x :: x in r <==> x in s
  {
    set x | x in s
  }

  /** Two maps that pair the names and paths of `bs` index by index are
      inverse to each other. */
  lemma {:induction false} PairedMapsInverse(m: Modes, bs: seq<ModeInfo>)
    requires m.forward.Keys == Elements(NamesOf(bs)) && m.reverse.Keys == Elements(PathsOf(bs))
    requires forall i :: 0 <= i < |bs| ==> m.forward[bs[i].name] == bs[i].path && m.reverse[bs[i].path] == bs[i].name
    ensures Inverse(m)
  {
    forall n | n in m.forward
      ensures m.forward[n] in m.reverse && m.reverse[m.forward[n]] == n
    {
      var i :| 0 <= i < |bs| && NamesOf(bs)[i] == n;
    }
    forall p | p in m.reverse
      ensures m.reverse[p] in m.forward && m.forward[m.reverse[p]] == p
    {
      var i :| 0 <= i < |bs| && PathsOf(bs)[i] == p;
    }
  }

  /** Before the additional modes: the builtin modes, each mapped to its path
      and back. */
  lemma {:induction false} BuiltinsIndexed(builtins: seq<ModeInfo>)
    requires Distinct(NamesOf(builtins))
    requires IndexPaths(Modes(NamesOf(builtins), BuiltinMap(builtins), map[]), builtins).Ok?
    ensures var m1 := IndexPaths(Modes(NamesOf(builtins), BuiltinMap(builtins), map[]), builtins).value;
      && Consistent(m1)
      && m1.order == NamesOf(builtins)
      && m1.forward.Keys == Elements(NamesOf(builtins))
      && m1.reverse.Keys == Elements(PathsOf(builtins))
      && (forall i :: 0 <= i < |builtins| ==> ModeToPath(m1, builtins[i].name) == Some(builtins[i].path))
  {
    var m0 := Modes(NamesOf(builtins), BuiltinMap(builtins), map[]);
    var m1 := IndexPaths(m0, builtins).value;
    assert m1.forward == BuiltinMap(builtins);
    assert m1.reverse.Keys == Elements(PathsOf(builtins)) &&
      forall i :: 0 <= i < |builtins| ==> m1.reverse[builtins[i].path] == builtins[i].name
    by {
      IndexPathsContents(m0, builtins);
    }
    forall i | 0 <= i < |builtins|
      ensures builtins[i].name in m1.forward && m1.forward[builtins[i].name] == builtins[i].path
    {
      BuiltinMapLookup(builtins, i);
    }
    PairedMapsInverse(m1, builtins);
  }

  /** In a consistent state every mode's path leads back to the mode. */
  lemma {:induction false} ConsistentRoundTrip(m: Modes)
    requires Consistent(m)
    ensures forall n :: n in ModeNames(m) ==>
      ModeToPath(m, n).Some? && PathToMode(m, ModeToPath(m, n).value) == Some(n)
  {
  }

  /** The constructor succeeds exactly when no two builtin modes share a path
      and every additional mode brings a new name and a new path. */
  lemma {:induction false} ConstructOkIff(builtins: seq<ModeInfo>, additional: Option<seq<ModeInfo>>)
    requires Distinct(NamesOf(builtins))
    ensures Construct(builtins, additional).Ok? <==>
      && Distinct(PathsOf(builtins))
      && (additional.Some? ==>
            && FreshNames(additional.value, Elements(NamesOf(builtins)))
            && FreshPaths(additional.value, Elements(PathsOf(builtins))))
  {
    var m0 := Modes(NamesOf(builtins), BuiltinMap(builtins), map[]);
    IndexPathsOkIff(m0, builtins);
    assert FreshPaths(builtins, m0.reverse.Keys) <==> Distinct(PathsOf(builtins));
    if IndexPaths(m0, builtins).Ok? {
      BuiltinsIndexed(builtins);
      if additional.Some? {
        AddModesOkIff(IndexPaths(m0, builtins).value, additional.value);
      }
    }
  }

  /** The layout a constructed service has: consistent, the modes of `bs`
      then those of `extra` added in order, each mapped to its path. */
  ghost predicate ListsModes(r: Modes, bs: seq<ModeInfo>, extra: seq<ModeInfo>) {
    && Consistent(r)
    && r.order == NamesOf(bs) + NamesOf(extra)
    && (forall i :: 0 <= i < |bs| ==> ModeToPath(r, bs[i].name) == Some(bs[i].path))
    && (forall i :: 0 <= i < |extra| ==> ModeToPath(r, extra[i].name) == Some(extra[i].path))
  }

  /** Adding modes to a state that lists the builtin modes. */
  lemma {:induction false} AddModesLists(m1: Modes, bs: seq<ModeInfo>, ms: seq<ModeInfo>)
    requires ListsModes(m1, bs, [])
    requires AddModes(m1, ms).Ok?
    ensures ListsModes(AddModes(m1, ms).value, bs, ms)
  {
    AddModesConsistent(m1, ms);
    AddModesListsNames(m1, bs, ms);
    AddModesListsPaths(m1, bs, ms);
  }

  lemma {:induction false} AddModesListsNames(m1: Modes, bs: seq<ModeInfo>, ms: seq<ModeInfo>)
    requires m1.order == NamesOf(bs) + NamesOf([])
    requires AddModes(m1, ms).Ok?
    ensures AddModes(m1, ms).value.order == NamesOf(bs) + NamesOf(ms)
  {
    AddModesNames(m1, ms);
    assert NamesOf(bs) + NamesOf([]) == NamesOf(bs);
  }

  lemma {:induction false} AddModesListsPaths(m1: Modes, bs: seq<ModeInfo>, ms: seq<ModeInfo>)
    requires forall i :: 0 <= i < |bs| ==> ModeToPath(m1, bs[i].name) == Some(bs[i].path)
    requires AddModes(m1, ms).Ok?
    ensures var r := AddModes(m1, ms).value;
      && (forall i :: 0 <= i < |bs| ==> ModeToPath(r, bs[i].name) == Some(bs[i].path))
      && (forall i :: 0 <= i < |ms| ==> ModeToPath(r, ms[i].name) == Some(ms[i].path))
  {
    var r := AddModes(m1, ms).value;
    AddModesLookups(m1, ms);
    forall i | 0 <= i < |bs|
      ensures ModeToPath(r, bs[i].name) == Some(bs[i].path)
    {
      assert bs[i].name in m1.forward && m1.forward[bs[i].name] == bs[i].path;
    }
  }


  /** A constructed service is consistent, adds the builtin modes and then
      the additional ones, lists them as `Object.keys` does, and maps every
      one of them to its path. */
  lemma {:induction false} ConstructRoundTrip(builtins: seq<ModeInfo>, additional: Option<seq<ModeInfo>>)
    requires Distinct(NamesOf(builtins))
    requires Construct(builtins, additional).Ok?
    ensures ListsModes(Construct(builtins, additional).value, builtins, additional.GetOr([]))
    ensures ModeNames(Construct(builtins, additional).value) == ObjectKeys(NamesOf(builtins) + NamesOf(additional.GetOr([])))
  {
    ConstructLayout(builtins, additional);
    var r := Construct(builtins, additional).value;
    assert r.order == NamesOf(builtins) + NamesOf(additional.GetOr([]));
  }

  lemma {:induction false} ConstructLayout(builtins: seq<ModeInfo>, additional: Option<seq<ModeInfo>>)
    requires Distinct(NamesOf(builtins))
    requires Construct(builtins, additional).Ok?
    ensures ListsModes(Construct(builtins, additional).value, builtins, additional.GetOr([]))
  {
    var m1 := IndexPaths(Modes(NamesOf(builtins), BuiltinMap(builtins), map[]), builtins).value;
    BuiltinsListed(builtins);
    match additional
    case None =>
      assert Construct(builtins, additional) == Ok(m1);
    case Some(ms) =>
      assert Construct(builtins, additional) == AddModes(m1, ms);
      AddModesLists(m1, builtins, ms);
  }

  lemma {:induction false} BuiltinsListed(builtins: seq<ModeInfo>)
    requires Distinct(NamesOf(builtins))
    requires IndexPaths(Modes(NamesOf(builtins), BuiltinMap(builtins), map[]), builtins).Ok?
    ensures ListsModes(IndexPaths(Modes(NamesOf(builtins), BuiltinMap(builtins), map[]), builtins).value, builtins, [])
  {
    BuiltinsIndexed(builtins);
    assert NamesOf(builtins) + NamesOf([]) == NamesOf(builtins);
  }
}

=== FILE: pack.dfy ===
/** The pack record (src/dashboard/pack.ts): construction defaults, `clone`
    and `copyInto`. In the database a pack's `schema` and `metadata` are chunk
    ids. */
module PackRecord {
  import opened Wrappers
  import opened Records

  /** `PackPayload`. `schema`, `mode` and `match` are declared mandatory but
      nothing enforces it, so they are optional here as in the record. */
  datatype PackPayload = PackPayload(schema: Option<string>, metadata: Option<string>,
                                     mode: Option<string>, matchSpec: Option<MatchSpec>)

  const PackRecordVersion: int := 2
  const PackRecordType: string := "Pack"

  /** The match rule of a pack built without a payload: automatic matching. */
  const AutomaticMatch: Option<MatchSpec> := Some(MatchSpec(TopElement, "", ""))

  /** The payload part of a pack record. */
  function PayloadOf(p: Rec): (pl: PackPayload)
    requires p.Pack?
  {
    PackPayload(p.schema, p.metadata, p.mode, p.matchSpec)
  }

  /** `new Pack(name, payload?)`. */
  function NewPack(name: string, payload: Option<PackPayload>): (p: Rec)
    ensures p.Pack? && p.id.None? && p.name == name
    ensures p.recordVersion == PackRecordVersion && RecordType(p) == PackRecordType
    ensures payload.Some? ==> PayloadOf(p) == payload.value
    ensures payload.None? ==> PayloadOf(p) == PackPayload(None, None, None, AutomaticMatch)
  {
    match payload
    case Some(pl) => Pack(None, name, PackRecordVersion, pl.schema, pl.metadata, pl.mode, pl.matchSpec)
    case None => Pack(None, name, PackRecordVersion, None, None, None, AutomaticMatch)
  }

  /** `copyInto`: the common part (the name) and the payload of `src` are
      written over `into`; `into` keeps its own id and record version. */
  function CopyInto(src: Rec, into: Rec): (r: Rec)
    requires src.Pack? && into.Pack?
    ensures r.Pack?
    ensures r.id == into.id && r.recordVersion == into.recordVersion
    ensures r.name == src.name && PayloadOf(r) == PayloadOf(src)
  {
    into.(name := src.name, schema := src.schema, metadata := src.metadata,
          mode := src.mode, matchSpec := src.matchSpec)
  }

  /** `clone`: a fresh pack of the same name, with the payload copied in. */
  function Clone(p: Rec): (c: Rec)
    requires p.Pack?
    ensures c.Pack? && c.id.None? && c.recordVersion == PackRecordVersion
    ensures c.name == p.name && PayloadOf(c) == PayloadOf(p)
  {
    CopyInto(p, NewPack(p.name, None))
  }

  /** A clone carries the original's name and payload, has no id, and is at the
      current record version whatever the original's. */
  lemma {:induction false} CloneCopiesPayload(p: Rec)
    requires p.Pack?
    ensures Clone(p).Pack? && Clone(p).name == p.name && PayloadOf(Clone(p)) == PayloadOf(p)
    ensures Clone(p).id.None? && Clone(p).recordVersion == PackRecordVersion
    ensures Clone(p) == p.(id := None, recordVersion := PackRecordVersion)
  {
  }

  /** Copying the same source twice is copying it once; copying a pack into
      itself changes nothing. */
  lemma {:induction false} CopyIntoIdempotent(src: Rec, into: Rec)
    requires src.Pack? && into.Pack?
    ensures CopyInto(src, CopyInto(src, into)) == CopyInto(src, into)
    ensures CopyInto(into, into) == into
  {
  }

  /** A pack is rebuilt from its name and payload. */
  lemma {:induction false} PayloadRoundTrip(p: Rec)
    requires p.Pack? && p.id.None? && p.recordVersion == PackRecordVersion
    ensures NewPack(p.name, Some(PayloadOf(p))) == p
  {
  }
}

=== FILE: packs_service.dfy ===
/** The packs service (src/dashboard/packs.service.ts): the matching engine that
    maps an element name to the pack that handles it, and the versioned
    interchange format packs are imported from and exported to.

    The grammar library is a parameter: `Grammar` maps a schema's text to the
    events its walker first allows (`constructTree(...).newWalker().possible()`),
    or to `None` when the schema cannot be built. */
module PacksService {
  import opened Wrappers
  import opened Errors
  import opened Records
  import opened Chunks
  import opened ChunksService
  import opened DbService
  import opened PackRecord
  import Store
  import Keys

  // ---------------------------------------------------------------------------
  // Match keys

  /** `makeMatchKey`: `{namespaceURI}localName`. */
  function MakeMatchKey(localName: string, namespaceURI: string): (k: string)
    ensures |k| == |namespaceURI| + |localName| + 2
    ensures k[0] == '{' && k[|namespaceURI| + 1] == '}'
    ensures k[1..|namespaceURI| + 1] == namespaceURI && k[|namespaceURI| + 2..] == localName
  {
    "{" + namespaceURI + "}" + localName
  }

  /** The index of the first '}' in `s`, if any. */
  function FirstClose(s: string): (r: Option<nat>)
    ensures r.Some? ==> r.value < |s| && s[r.value] == '}' && '}' !in s[..r.value]
    ensures r.None? ==> '}' !in s
  {
    if s == [] then None
    else if s[0] == '}' then Some(0)
    else
      match FirstClose(s[1..])
      case None => None
      case Some(i) =>
        assert s[..i + 1] == [s[0]] + s[1..][..i];
        Some(i + 1)
  }

  /** Reads a match key back into (localName, namespaceURI), taking the first
      '}' as the end of the namespace. */
  function ParseMatchKey(k: string): (r: Option<(string, string)>)
  {
    if |k| == 0 || k[0] != '{' then None
    else
      match FirstClose(k[1..])
      case None => None
      case Some(i) => Some((k[i + 2..], k[1..i + 1]))
  }

  /** When the namespace URI has no '}', the key determines both parts. */
  lemma {:induction false} MatchKeyRoundTrip(localName: string, namespaceURI: string)
    requires '}' !in namespaceURI
    ensures ParseMatchKey(MakeMatchKey(localName, namespaceURI)) == Some((localName, namespaceURI))
  {
    var k := MakeMatchKey(localName, namespaceURI);
    var n := |namespaceURI|;
    assert k[1..] == namespaceURI + "}" + localName;
    assert k[1..][n] == '}';
  }

  /** Match keys are injective on names whose namespace URIs have no '}'. */
  lemma {:induction false} MatchKeyInjective(l1: string, ns1: string, l2: string, ns2: string)
    requires '}' !in ns1 && '}' !in ns2
    requires MakeMatchKey(l1, ns1) == MakeMatchKey(l2, ns2)
    ensures l1 == l2 && ns1 == ns2
  {
    MatchKeyRoundTrip(l1, ns1);
    MatchKeyRoundTrip(l2, ns2);
  }

  /** In general they are not: braces in names make two names share a key. */
  lemma MatchKeyNotInjective()
    ensures MakeMatchKey("c", "a}b") == MakeMatchKey("b}c", "a") == "{a}b}c"
  {
  }

  // ---------------------------------------------------------------------------
  // The matching table

  /** Match key to pack id. */
  type MatchingData = map<string, nat>

  function Max(a: nat, b: nat): nat {
    if a < b then b else a
  }

  /** `addToMatchingData`: on a collision the larger pack id wins. */
  function AddToMatchingData(data: MatchingData, key: string, id: nat): (r: MatchingData)
    ensures key in r && r[key] == (if key in data then Max(data[key], id) else id)
    ensures forall k :: k != key ==> (k in r <==> k in data)
    ensures forall k :: k != key && k in data ==> r[k] == data[k]
  {
    if key !in data || data[key] < id then data[key := id] else data
  }

  /** Adding the same key and id again changes nothing; adding ids in either
      order gives the same table. */
  lemma {:induction false} AddToMatchingDataCommutes(data: MatchingData, k1: string, id1: nat, k2: string, id2: nat)
    ensures AddToMatchingData(AddToMatchingData(data, k1, id1), k1, id1) == AddToMatchingData(data, k1, id1)
    ensures AddToMatchingData(AddToMatchingData(data, k1, id1), k2, id2)
         == AddToMatchingData(AddToMatchingData(data, k2, id2), k1, id1)
  {
    var a := AddToMatchingData(AddToMatchingData(data, k1, id1), k2, id2);
    var b := AddToMatchingData(AddToMatchingData(data, k2, id2), k1, id1);
    assert forall k :: k in a <==> k in b;
    assert forall k :: k in a ==> a[k] == b[k];
  }

  /** Every key of `ks` added with the same id, in order. */
  function AddAll(data: MatchingData, ks: seq<string>, id: nat): (r: MatchingData)
    ensures forall k :: k in r <==> k in data || k in ks
    ensures forall k :: k in r ==> r[k] == if k !in ks then data[k] else if k in data then Max(data[k], id) else id
    decreases |ks|
  {
    if ks == [] then data
    else
      var r := AddAll(AddToMatchingData(data, ks[0], id), ks[1..], id);
      assert forall k :: k in ks <==> k == ks[0] || k in ks[1..];
      r
  }

  /** A salve name in a name pattern. */
  datatype QName = QName(ns: string, name: string)

  /** A walker event: its first parameter, and for a start tag the names its
      name pattern expands to (`toArray()`, `None` for a pattern that does not
      reduce to a list). */
  datatype Event = Event(kind: string, names: Option<seq<QName>>)

  type Grammar = string -> Option<seq<Event>>

  const EnterStartTag: string := "enterStartTag"

  /** An event that names exactly one possible start tag. */
  predicate SingleStartTag(e: Event) {
    e.kind == EnterStartTag && e.names.Some? && |e.names.value| == 1
  }

  function EventKey(e: Event): string
    requires SingleStartTag(e)
  {
    MakeMatchKey(e.names.value[0].name, e.names.value[0].ns)
  }

  /** The keys an automatic rule draws from the possible events. */
  function KeysFromEvents(evs: seq<Event>): (ks: seq<string>)
    ensures forall k :: k in ks <==> exists e :: e in evs && SingleStartTag(e) && k == EventKey(e)
    decreases |evs|
  {
    if evs == [] then []
    else
      var rest := KeysFromEvents(evs[1..]);
      assert forall e :: e in evs <==> e == evs[0] || e in evs[1..];
      if SingleStartTag(evs[0]) then [EventKey(evs[0])] + rest else rest
  }

  /** The pack's automatic rule can be followed: its schema chunk is stored
      and the schema compiles. */
  predicate SchemaCompiles(grammar: Grammar, chunks: ChunkTable, p: Rec)
    requires p.Pack?
  {
    p.schema.Some? && p.schema.value in chunks.contents && grammar(chunks.contents[p.schema.value]).Some?
  }

  /** The keys one pack contributes. Reading the rule of a pack without one
      throws. An explicit rule contributes its own key. An automatic rule
      reads the schema chunk and builds the grammar: without a schema id the
      store refuses `undefined` as a key, and a chunk that is not stored is
      `undefined`, so reading its data fails. A row that is not a pack
      contributes nothing. */
  function PackKeys(grammar: Grammar, chunks: ChunkTable, p: Rec): (r: Res<seq<string>>)
    ensures !p.Pack? ==> r == Ok([])
    ensures p.Pack? && p.matchSpec.None? ==> r == Err(TypeError(MatchUndefined))
    ensures p.Pack? && p.matchSpec.Some? && p.matchSpec.value.localName != "" ==>
      r == Ok([MakeMatchKey(p.matchSpec.value.localName, p.matchSpec.value.namespaceURI)])
    ensures p.Pack? && p.matchSpec.Some? && p.matchSpec.value.localName == "" ==>
      && (r.Ok? <==> SchemaCompiles(grammar, chunks, p))
      && (p.schema.None? ==> r == Err(DataError))
      && (p.schema.Some? && p.schema.value !in chunks.contents ==> r == Err(TypeError(SchemaChunkUndefined)))
      && (p.schema.Some? && p.schema.value in chunks.contents && grammar(chunks.contents[p.schema.value]).None? ==>
            r == Err(GrammarError))
    ensures p.Pack? && r.Ok? && p.matchSpec.Some? && p.matchSpec.value.localName == "" ==>
      && SchemaCompiles(grammar, chunks, p)
      && r.value == KeysFromEvents(grammar(chunks.contents[p.schema.value]).value)
  {
    if !p.Pack? then Ok([])
    else if p.matchSpec.None? then Err(TypeError(MatchUndefined))
    else if p.matchSpec.value.localName != "" then
      Ok([MakeMatchKey(p.matchSpec.value.localName, p.matchSpec.value.namespaceURI)])
    else if p.schema.None? then Err(DataError)
    else if p.schema.value !in chunks.contents then Err(TypeError(SchemaChunkUndefined))
    else
      match grammar(chunks.contents[p.schema.value])
      case None => Err(GrammarError)
      case Some(evs) => Ok(KeysFromEvents(evs))
  }

  const MatchUndefined: string := "pack.match is undefined"
  const SchemaChunkUndefined: string := "schemaChunk is undefined"

  /** The pack's keys can be computed: it has a rule, and the rule is
      explicit or its schema compiles. */
  predicate KeysComputable(grammar: Grammar, chunks: ChunkTable, p: Rec) {
    !p.Pack? || (p.matchSpec.Some? && (p.matchSpec.value.localName != "" || SchemaCompiles(grammar, chunks, p)))
  }

  /** The keys function of the loop: `PackKeys` for a fixed grammar and chunks table. */
  type KeysOf = Rec -> Res<seq<string>>

  function PackKeysOf(grammar: Grammar, chunks: ChunkTable): KeysOf {
    p => PackKeys(grammar, chunks, p)
  }

  /** A pack row with the id it is stored under. */
  datatype Entry = Entry(id: nat, pack: Rec)

  /** The entries of `m` under the keys `ks`, in that order. */
  function EntriesAt(m: map<nat, Rec>, ks: seq<nat>): (es: seq<Entry>)
    requires forall i :: 0 <= i < |ks| ==> ks[i] in m
    ensures |es| == |ks|
    ensures forall i :: 0 <= i < |ks| ==> es[i] == Entry(ks[i], m[ks[i]])
  {
    seq(|ks|, i requires 0 <= i < |ks| => Entry(ks[i], m[ks[i]]))
  }

  lemma {:induction false} EntriesAtCover(m: map<nat, Rec>, ks: seq<nat>, es: seq<Entry>)
    requires forall k :: k in m <==> k in ks
    requires |es| == |ks| && forall i :: 0 <= i < |ks| ==> es[i] == Entry(ks[i], m[ks[i]])
    ensures forall e :: e in es <==> e.id in m && e.pack == m[e.id]
  {
    forall e: Entry | e.id in m && e.pack == m[e.id]
      ensures e in es
    {
      var i :| 0 <= i < |ks| && ks[i] == e.id;
      assert es[i] == e;
    }
  }

  /** The packs table's rows as `getRecords` returns them, in primary-key order. */
  function Entries(t: Table): (es: seq<Entry>)
    ensures forall e :: e in es <==> e.id in t.rows && e.pack == t.rows[e.id]
    ensures forall i, j :: 0 <= i < j < |es| ==> es[i].id < es[j].id
  {
    var ks := Keys.SortedKeys(t.rows.Keys);
    var es := EntriesAt(t.rows, ks);
    EntriesAtCover(t.rows, ks, es);
    es
  }

  /** The loop of `getMatchingData` over the packs, stopping at the first
      failure. */
  function Build(keysOf: KeysOf, es: seq<Entry>): (r: Res<MatchingData>)
    ensures r.Err? ==> exists i :: 0 <= i < |es| && keysOf(es[i].pack) == Err(r.error)
    decreases |es|
  {
    if es == [] then Ok(map[])
    else
      assert forall i :: 0 <= i < |es| - 1 ==> es[..|es| - 1][i] == es[i];
      var data :- Build(keysOf, es[..|es| - 1]);
      var last := es[|es| - 1];
      var ks :- keysOf(last.pack);
      Ok(AddAll(data, ks, last.id))
  }

  /** Pack `e` contributes `key`. */
  predicate Contributes(keysOf: KeysOf, e: Entry, key: string) {
    keysOf(e.pack).Ok? && key in keysOf(e.pack).value
  }

  predicate AllKeysOk(keysOf: KeysOf, es: seq<Entry>) {
    forall e :: e in es ==> keysOf(e.pack).Ok?
  }

  /** `data` is the matching table of `es`: its keys are the contributed keys,
      and each maps to the largest id among the packs contributing it. */
  ghost predicate IsMatchTable(keysOf: KeysOf, es: seq<Entry>, data: MatchingData) {
    && (forall key :: key in data <==> exists e :: e in es && Contributes(keysOf, e, key))
    && (forall key :: key in data ==> exists e :: e in es && Contributes(keysOf, e, key) && e.id == data[key])
    && (forall e, key :: e in es && Contributes(keysOf, e, key) ==> key in data && e.id <= data[key])
  }

  /** Building fails exactly when some pack's keys cannot be computed. */
  lemma {:induction false} BuildOkIff(keysOf: KeysOf, es: seq<Entry>)
    ensures Build(keysOf, es).Ok? <==> AllKeysOk(keysOf, es)
    decreases |es|
  {
    if es != [] {
      var init := es[..|es| - 1];
      BuildOkIff(keysOf, init);
      assert forall e :: e in es <==> e in init || e == es[|es| - 1];
    }
  }

  /** A pack's keys compute exactly when it has a rule and the rule is
      explicit or its schema compiles. */
  lemma {:induction false} PackKeysOkIff(grammar: Grammar, chunks: ChunkTable, p: Rec)
    ensures PackKeys(grammar, chunks, p).Ok? <==> KeysComputable(grammar, chunks, p)
  {
  }

  /** Building the matching data over a packs table succeeds exactly when
      every row's keys compute: each pack has a rule, and every automatic
      rule's schema chunk is stored and compiles. */
  lemma {:induction false} BuildOkIffPacks(grammar: Grammar, chunks: ChunkTable, packs: Table)
    ensures Build(PackKeysOf(grammar, chunks), Entries(packs)).Ok? <==>
      forall k :: k in packs.rows ==> KeysComputable(grammar, chunks, packs.rows[k])
  {
    var keysOf := PackKeysOf(grammar, chunks);
    var es := Entries(packs);
    BuildOkIff(keysOf, es);
    assert AllKeysOk(keysOf, es) <==> forall k :: k in packs.rows ==> keysOf(packs.rows[k]).Ok? by {
      forall k | k in packs.rows
        ensures Entry(k, packs.rows[k]) in es
      {
      }
    }
    forall k | k in packs.rows
      ensures keysOf(packs.rows[k]).Ok? <==> KeysComputable(grammar, chunks, packs.rows[k])
    {
      PackKeysOkIff(grammar, chunks, packs.rows[k]);
    }
  }

  /** One step of the build, first half: every key of the new table comes
      from a pack holding it at that id. */
  lemma {:induction false} BuildStepWitnessed(keysOf: KeysOf, init: seq<Entry>, last: Entry, es: seq<Entry>,
                                              data: MatchingData, ks: seq<string>)
    requires IsMatchTable(keysOf, init, data)
    requires keysOf(last.pack) == Ok(ks)
    requires forall e :: e in es <==> e in init || e == last
    ensures var r := AddAll(data, ks, last.id);
      forall key :: key in r ==> exists e :: e in es && Contributes(keysOf, e, key) && e.id == r[key]
  {
    var r := AddAll(data, ks, last.id);
    forall key | key in r
      ensures exists e :: e in es && Contributes(keysOf, e, key) && e.id == r[key]
    {
      if key in ks && (key !in data || data[key] <= last.id) {
        assert Contributes(keysOf, last, key) && last.id == r[key];
      } else {
        var e :| e in init && Contributes(keysOf, e, key) && e.id == data[key];
        assert e in es;
      }
    }
  }

  /** One step of the build, second half: every contributed key is in the new
      table, at an id no smaller than the contributor's. */
  lemma {:induction false} BuildStepCovers(keysOf: KeysOf, init: seq<Entry>, last: Entry, es: seq<Entry>,
                                           data: MatchingData, ks: seq<string>)
    requires IsMatchTable(keysOf, init, data)
    requires keysOf(last.pack) == Ok(ks)
    requires forall e :: e in es <==> e in init || e == last
    ensures var r := AddAll(data, ks, last.id);
      forall e, key :: e in es && Contributes(keysOf, e, key) ==> key in r && e.id <= r[key]
  {
    var r := AddAll(data, ks, last.id);
    forall e, key | e in es && Contributes(keysOf, e, key)
      ensures key in r && e.id <= r[key]
    {
      if e != last {
        assert e in init;
      }
    }
  }

  /** One step of the build: adding the keys of `last` to the matching table
      of `init` gives the matching table of `init` and `last` together. */
  lemma {:induction false} BuildStepCorrect(keysOf: KeysOf, init: seq<Entry>, last: Entry, es: seq<Entry>,
                                            data: MatchingData, ks: seq<string>)
    requires IsMatchTable(keysOf, init, data)
    requires keysOf(last.pack) == Ok(ks)
    requires forall e :: e in es <==> e in init || e == last
    ensures IsMatchTable(keysOf, es, AddAll(data, ks, last.id))
  {
    BuildStepWitnessed(keysOf, init, last, es, data, ks);
    BuildStepCovers(keysOf, init, last, es, data, ks);
    var r := AddAll(data, ks, last.id);
    forall key | key in r
      ensures exists e :: e in es && Contributes(keysOf, e, key)
    {
      var e :| e in es && Contributes(keysOf, e, key) && e.id == r[key];
    }
  }

  /** The built table is the matching table of the packs. */
  lemma {:induction false} BuildCorrect(keysOf: KeysOf, es: seq<Entry>)
    requires Build(keysOf, es).Ok?
    ensures IsMatchTable(keysOf, es, Build(keysOf, es).value)
    decreases |es|
  {
    if es != [] {
      var init := es[..|es| - 1];
      var last := es[|es| - 1];
      BuildCorrect(keysOf, init);
      var data := Build(keysOf, init).value;
      var ks := keysOf(last.pack).value;
      assert Build(keysOf, es).value == AddAll(data, ks, last.id);
      assert forall e :: e in es <==> e in init || e == last;
      BuildStepCorrect(keysOf, init, last, es, data, ks);
    }
  }

  /** Matching data over more packs has every key, at an id at least as large. */
  lemma {:induction false} MatchTableGrows(keysOf: KeysOf, es1: seq<Entry>, d1: MatchingData,
                                           es2: seq<Entry>, d2: MatchingData)
    requires forall e :: e in es1 ==> e in es2
    requires IsMatchTable(keysOf, es1, d1) && IsMatchTable(keysOf, es2, d2)
    ensures forall key :: key in d1 ==> key in d2 && d1[key] <= d2[key]
  {
    forall key | key in d1
      ensures key in d2 && d1[key] <= d2[key]
    {
      var e1 :| e1 in es1 && Contributes(keysOf, e1, key) && e1.id == d1[key];
      assert e1 in es2;
    }
  }

  /** A table of matching data is determined by the set of packs. */
  lemma {:induction false} MatchTableUnique(keysOf: KeysOf, es1: seq<Entry>, d1: MatchingData,
                                            es2: seq<Entry>, d2: MatchingData)
    requires forall e :: e in es1 <==> e in es2
    requires IsMatchTable(keysOf, es1, d1) && IsMatchTable(keysOf, es2, d2)
    ensures d1 == d2
  {
    MatchTableGrows(keysOf, es1, d1, es2, d2);
    MatchTableGrows(keysOf, es2, d2, es1, d1);
    assert d1.Keys == d2.Keys;
  }

  /** The order in which the packs are visited does not matter. */
  lemma {:induction false} BuildOrderIndependent(keysOf: KeysOf, es1: seq<Entry>, es2: seq<Entry>)
    requires forall e :: e in es1 <==> e in es2
    ensures Build(keysOf, es1).Ok? <==> Build(keysOf, es2).Ok?
    ensures Build(keysOf, es1).Ok? ==> Build(keysOf, es1) == Build(keysOf, es2)
  {
    BuildOkIff(keysOf, es1);
    BuildOkIff(keysOf, es2);
    if Build(keysOf, es1).Ok? {
      BuildCorrect(keysOf, es1);
      BuildCorrect(keysOf, es2);
      MatchTableUnique(keysOf, es1, Build(keysOf, es1).value, es2, Build(keysOf, es2).value);
    }
  }

  // ---------------------------------------------------------------------------
  // The cached matching data

  /** `getMatchingData`: the cached table, or a table built from the packs and
      then cached. A failed build leaves the cache empty. */
  function GetMatchingData(grammar: Grammar, chunks: ChunkTable, packs: Table, cache: Option<MatchingData>)
    : (r: Res<(MatchingData, Option<MatchingData>)>)
    ensures cache.Some? ==> r == Ok((cache.value, cache))
    ensures cache.None? ==> (r.Ok? <==> AllKeysOk(PackKeysOf(grammar, chunks), Entries(packs)))
    ensures cache.None? && r.Ok? ==>
      r.value.1 == Some(r.value.0) && IsMatchTable(PackKeysOf(grammar, chunks), Entries(packs), r.value.0)
  {
    match cache
    case Some(d) => Ok((d, cache))
    case None =>
      var keysOf := PackKeysOf(grammar, chunks);
      BuildOkIff(keysOf, Entries(packs));
      var d :- Build(keysOf, Entries(packs));
      BuildCorrect(keysOf, Entries(packs));
      Ok((d, Some(d)))
  }

  /** `matchWithPack`: look the element's key up in the matching data, then
      fetch the pack of that id. Returns the pack, if any, and the cache after. */
  function MatchWithPack(grammar: Grammar, chunks: ChunkTable, packs: Table, cache: Option<MatchingData>,
                         localName: string, namespaceURI: string)
    : (r: Res<(Option<Rec>, Option<MatchingData>)>)
    ensures r.Ok? <==> GetMatchingData(grammar, chunks, packs, cache).Ok?
    ensures r.Ok? ==>
      var (data, c2) := GetMatchingData(grammar, chunks, packs, cache).value;
      var key := MakeMatchKey(localName, namespaceURI);
      && r.value.1 == c2
      && (key !in data ==> r.value.0.None?)
      && (key in data ==> r.value.0 == GetRecordById(packs, data[key]))
  {
    var (data, c2) :- GetMatchingData(grammar, chunks, packs, cache);
    var key := MakeMatchKey(localName, namespaceURI);
    if key !in data then Ok((None, c2)) else Ok((GetRecordById(packs, data[key]), c2))
  }

  /** Without a cache, the match is the pack with the largest id among those
      contributing the element's key, and there is one exactly when some pack
      contributes the key. */
  lemma {:induction false} FreshMatchIsNewestContributor(grammar: Grammar, chunks: ChunkTable, packs: Table,
                                                         localName: string, namespaceURI: string)
    requires MatchWithPack(grammar, chunks, packs, None, localName, namespaceURI).Ok?
    ensures var m := MatchWithPack(grammar, chunks, packs, None, localName, namespaceURI).value.0;
      var key := MakeMatchKey(localName, namespaceURI);
      var keysOf := PackKeysOf(grammar, chunks);
      && (m.Some? <==> exists e :: e in Entries(packs) && Contributes(keysOf, e, key))
      && (m.Some? ==>
            exists e :: e in Entries(packs) && Contributes(keysOf, e, key) && m.value == e.pack
              && (forall e2 :: e2 in Entries(packs) && Contributes(keysOf, e2, key) ==> e2.id <= e.id))
  {
    var keysOf := PackKeysOf(grammar, chunks);
    var key := MakeMatchKey(localName, namespaceURI);
    var data := GetMatchingData(grammar, chunks, packs, None).value.0;
    if key in data {
      var e :| e in Entries(packs) && Contributes(keysOf, e, key) && e.id == data[key];
      assert GetRecordById(packs, data[key]) == Some(e.pack);
    }
  }

  /** A pack stored without a match rule breaks matching: with no cache,
      building the matching data fails, so every match fails. */
  lemma {:induction false} MissingMatchBreaksMatching(grammar: Grammar, chunks: ChunkTable, packs: Table,
                                                      k: nat, localName: string, namespaceURI: string)
    requires k in packs.rows && packs.rows[k].Pack? && packs.rows[k].matchSpec.None?
    ensures MatchWithPack(grammar, chunks, packs, None, localName, namespaceURI).Err?
  {
    BuildOkIffPacks(grammar, chunks, packs);
    BuildOkIff(PackKeysOf(grammar, chunks), Entries(packs));
  }

  /** The cache agrees with the packs table: it is empty, or it is what a
      fresh build would produce. */
  ghost predicate Coherent(grammar: Grammar, chunks: ChunkTable, packs: Table, cache: Option<MatchingData>) {
    cache.Some? ==> Build(PackKeysOf(grammar, chunks), Entries(packs)) == Ok(cache.value)
  }

  /** A coherent cache answers as a fresh build would, and stays coherent. */
  lemma {:induction false} CoherentMatchIsFresh(grammar: Grammar, chunks: ChunkTable, packs: Table,
                                                cache: Option<MatchingData>, localName: string, namespaceURI: string)
    requires Coherent(grammar, chunks, packs, cache)
    requires MatchWithPack(grammar, chunks, packs, None, localName, namespaceURI).Ok?
    ensures MatchWithPack(grammar, chunks, packs, cache, localName, namespaceURI).Ok?
    ensures MatchWithPack(grammar, chunks, packs, cache, localName, namespaceURI).value.0
         == MatchWithPack(grammar, chunks, packs, None, localName, namespaceURI).value.0
    ensures Coherent(grammar, chunks, packs, MatchWithPack(grammar, chunks, packs, cache, localName, namespaceURI).value.1)
  {
    BuildOkIff(PackKeysOf(grammar, chunks), Entries(packs));
  }

  /** The change subscription as intended: every change notification from the
      packs table drops the cache. */
  function OnChange(cache: Option<MatchingData>, before: Table, after: Table): (c: Option<MatchingData>)
    ensures after.changes != before.changes ==> c.None?
    ensures after.changes == before.changes ==> c == cache
  {
    if after.changes != before.changes then None else cache
  }

  /** The change subscription as written: the handler is passed unbound, so it
      clears a property of the subscriber object and the service's cache
      survives every change. */
  function OnChangeAsWritten(cache: Option<MatchingData>, before: Table, after: Table): (c: Option<MatchingData>)
    ensures after.changes != before.changes && cache.Some? ==> c != OnChange(cache, before, after)
    ensures after.changes == before.changes ==> c == OnChange(cache, before, after)
  {
    cache
  }

  /** Whatever a change did to the packs table, the intended handler leaves a
      coherent cache. */
  lemma {:induction false} OnChangeRestoresCoherence(grammar: Grammar, chunks: ChunkTable,
                                                     before: Table, after: Table, cache: Option<MatchingData>)
    requires after.changes != before.changes
    ensures Coherent(grammar, chunks, after, OnChange(cache, before, after))
  {
  }

  /** Every id in a table of matching data built from a valid table is below
      the key generator. */
  lemma {:induction false} MatchIdsBelowNext(keysOf: KeysOf, t: Table)
    requires KeyedById(t)
    requires Build(keysOf, Entries(t)).Ok?
    ensures forall key :: key in Build(keysOf, Entries(t)).value ==> Build(keysOf, Entries(t)).value[key] < t.nextId
  {
    var d := Build(keysOf, Entries(t)).value;
    BuildCorrect(keysOf, Entries(t));
    forall key | key in d
      ensures d[key] < t.nextId
    {
      var e :| e in Entries(t) && Contributes(keysOf, e, key) && e.id == d[key];
    }
  }

  /** Inserting a row under a fresh key adds exactly its entry. */
  lemma {:induction false} EntriesOfInsert(t: Table, t2: Table, n: nat, saved: Rec)
    requires n !in t.rows && t2.rows == t.rows[n := saved]
    ensures forall e: Entry :: e in Entries(t) + [Entry(n, saved)] <==> e in Entries(t2)
  {
    var a, b, x := Entries(t), Entries(t2), Entry(n, saved);
    SnocMembers(a, x);
    forall e: Entry
      ensures e in a + [x] <==> e in b
    {
      assert e in b <==> e.id in t2.rows && e.pack == t2.rows[e.id];
    }
  }

  lemma SnocMembers<T>(s: seq<T>, x: T)
    ensures forall y :: y in s + [x] <==> y in s || y == x
  {
  }

  /** Building over one more entry adds that entry's keys. */
  lemma {:induction false} BuildSnoc(keysOf: KeysOf, es: seq<Entry>, e: Entry, ks: seq<string>)
    requires Build(keysOf, es).Ok? && keysOf(e.pack) == Ok(ks)
    ensures Build(keysOf, es + [e]) == Ok(AddAll(Build(keysOf, es).value, ks, e.id))
  {
    assert (es + [e])[..|es + [e]| - 1] == es;
  }

  /** Saving a new pack with an explicit rule adds exactly one entry, under the
      generator's key, and its key then maps to that id. */
  lemma {:induction false} NewExplicitPackData(keysOf: KeysOf, t: Table, p: Rec)
    requires Valid(t)
    requires p.Pack? && p.id.None? && p.matchSpec.Some?
    requires UpdateRecord(t, p).Ok?
    requires keysOf(UpdateRecord(t, p).value.1) == Ok([MakeMatchKey(p.matchSpec.value.localName, p.matchSpec.value.namespaceURI)])
    requires Build(keysOf, Entries(t)).Ok?
    ensures var (t2, saved) := UpdateRecord(t, p).value;
      && Build(keysOf, Entries(t2)).Ok?
      && var key := MakeMatchKey(p.matchSpec.value.localName, p.matchSpec.value.namespaceURI);
         key in Build(keysOf, Entries(t2)).value && Build(keysOf, Entries(t2)).value[key] == t.nextId
  {
    var (t2, saved) := UpdateRecord(t, p).value;
    var n := t.nextId;
    var key := MakeMatchKey(p.matchSpec.value.localName, p.matchSpec.value.namespaceURI);
    assert n !in t.rows;
    EntriesOfInsert(t, t2, n, saved);
    var es := Entries(t) + [Entry(n, saved)];
    BuildOrderIndependent(keysOf, es, Entries(t2));
    MatchIdsBelowNext(keysOf, t);
    BuildSnoc(keysOf, Entries(t), Entry(n, saved), [key]);
  }

  /** With the intended handler, a pack saved with an explicit rule is the
      match for its element right after it is saved, whatever was cached. */
  lemma {:induction false} NewExplicitPackMatched(grammar: Grammar, chunks: ChunkTable, t: Table,
                                                  cache: Option<MatchingData>, p: Rec)
    requires Valid(t)
    requires p.Pack? && p.id.None? && p.matchSpec.Some? && p.matchSpec.value.localName != ""
    requires UpdateRecord(t, p).Ok?
    requires AllKeysOk(PackKeysOf(grammar, chunks), Entries(t))
    ensures var (t2, saved) := UpdateRecord(t, p).value;
      var m := MatchWithPack(grammar, chunks, t2, OnChange(cache, t, t2),
                             p.matchSpec.value.localName, p.matchSpec.value.namespaceURI);
      m.Ok? && m.value.0 == Some(saved)
  {
    var keysOf := PackKeysOf(grammar, chunks);
    BuildOkIff(keysOf, Entries(t));
    NewExplicitPackData(keysOf, t, p);
  }

  /** The explicit pack used by the two witnesses below. */
  function ExplicitPack(name: string, id: Option<nat>): (p: Rec)
    ensures p.Pack? && p.matchSpec == Some(MatchSpec(TopElement, "doc", "urn:doc"))
  {
    Pack(id, name, PackRecordVersion, Some("schema-chunk"), None, Some("generic"), Some(MatchSpec(TopElement, "doc", "urn:doc")))
  }

  /** The handler as written, witness one: the cache was built while the packs
      table was empty; after a pack for `{urn:doc}doc` is saved, the stale cache
      still finds no pack, while the intended handler finds the new one. */
  lemma {:induction false} StaleCacheMissesNewPack(grammar: Grammar, chunks: ChunkTable)
    ensures Coherent(grammar, chunks, EmptyTable, Some(map[]))
    ensures UpdateRecord(EmptyTable, ExplicitPack("doc-pack", None)).Ok?
    ensures var (t2, saved) := UpdateRecord(EmptyTable, ExplicitPack("doc-pack", None)).value;
      && MatchWithPack(grammar, chunks, t2, OnChangeAsWritten(Some(map[]), EmptyTable, t2), "doc", "urn:doc")
         == Ok((None, Some(map[])))
      && MatchWithPack(grammar, chunks, t2, OnChange(Some(map[]), EmptyTable, t2), "doc", "urn:doc").Ok?
      && MatchWithPack(grammar, chunks, t2, OnChange(Some(map[]), EmptyTable, t2), "doc", "urn:doc").value.0
         == Some(saved)
  {
    assert Entries(EmptyTable) == [];
    NewExplicitPackMatched(grammar, chunks, EmptyTable, Some(map[]), ExplicitPack("doc-pack", None));
  }

  /** The handler as written: once the pack a cached key points at is
      deleted, the stale cache finds nothing for that key. */
  lemma {:induction false} StaleCacheAfterDelete(grammar: Grammar, chunks: ChunkTable, t: Table,
                                                 cache: Option<MatchingData>, q: Rec, localName: string, namespaceURI: string)
    requires q.id.Some? && cache.Some?
    requires MakeMatchKey(localName, namespaceURI) in cache.value
    requires cache.value[MakeMatchKey(localName, namespaceURI)] == q.id.value
    ensures DeleteRecord(t, q).Ok?
    ensures var t2 := DeleteRecord(t, q).value;
      MatchWithPack(grammar, chunks, t2, OnChangeAsWritten(cache, t, t2), localName, namespaceURI) == Ok((None, cache))
  {
  }

  /** Adding one key to matching data. */
  lemma {:induction false} AddAllOne(data: MatchingData, key: string, id: nat)
    ensures AddAll(data, [key], id) == data[key := if key in data then Max(data[key], id) else id]
  {
    var r := AddAll(data, [key], id);
    assert forall k :: k in r <==> k in data || k == key;
  }

  /** A table with rows 1 and 2 has only those two entries. */
  lemma {:induction false} TwoEntriesOnly(t: Table, p1: Rec, p2: Rec)
    requires t.rows == map[1 := p1, 2 := p2]
    ensures forall e: Entry :: e in Entries(t) ==> e == Entry(1, p1) || e == Entry(2, p2)
  {
    var es := Entries(t);
    forall e: Entry | e in es
      ensures e == Entry(1, p1) || e == Entry(2, p2)
    {
      assert e.id in t.rows && e.pack == t.rows[e.id];
    }
  }

  /** The entries of a table with rows 1 and 2. */
  lemma {:induction false} TwoEntries(t: Table, p1: Rec, p2: Rec)
    requires t.rows == map[1 := p1, 2 := p2]
    ensures forall e: Entry :: e in [Entry(1, p1), Entry(2, p2)] <==> e in Entries(t)
  {
    var es := Entries(t);
    var listed := [Entry(1, p1), Entry(2, p2)];
    assert Entry(1, p1) in es && Entry(2, p2) in es;
    TwoEntriesOnly(t, p1, p2);
    forall e: Entry
      ensures e in listed <==> e in es
    {
      assert e in listed <==> e == Entry(1, p1) || e == Entry(2, p2);
    }
  }

  /** Building over two packs for the same key: the later id wins. */
  lemma {:induction false} TwoPacksBuild(keysOf: KeysOf, p1: Rec, p2: Rec, key: string)
    requires keysOf(p1) == Ok([key]) && keysOf(p2) == Ok([key])
    ensures Build(keysOf, [Entry(1, p1), Entry(2, p2)]) == Ok(map[key := 2])
  {
    var e1, e2 := Entry(1, p1), Entry(2, p2);
    assert [] + [e1] == [e1];
    BuildSnoc(keysOf, [], e1, [key]);
    AddAllOne(map[], key, 1);
    assert [e1] + [e2] == [e1, e2];
    BuildSnoc(keysOf, [e1], e2, [key]);
    AddAllOne(map[key := 1], key, 2);
    assert Max(1, 2) == 2;
    assert map[key := 1][key := 2] == map[key := 2];
  }

  /** Matching data of a table holding two packs for the same key: the newer wins. */
  lemma {:induction false} TwoPacksData(keysOf: KeysOf, t: Table, p1: Rec, p2: Rec, key: string)
    requires t.rows == map[1 := p1, 2 := p2]
    requires keysOf(p1) == Ok([key]) && keysOf(p2) == Ok([key])
    ensures Build(keysOf, Entries(t)) == Ok(map[key := 2])
  {
    TwoEntries(t, p1, p2);
    BuildOrderIndependent(keysOf, [Entry(1, p1), Entry(2, p2)], Entries(t));
    TwoPacksBuild(keysOf, p1, p2, key);
  }

  /** Matching data of a table holding one pack. */
  lemma {:induction false} OnePackData(keysOf: KeysOf, t: Table, p1: Rec, key: string)
    requires t.rows == map[1 := p1]
    requires keysOf(p1) == Ok([key])
    ensures Build(keysOf, Entries(t)) == Ok(map[key := 1])
  {
    var e1 := Entry(1, p1);
    forall e: Entry
      ensures e in [e1] <==> e in Entries(t)
    {
      assert e in Entries(t) <==> e.id in t.rows && e.pack == t.rows[e.id];
    }
    BuildOrderIndependent(keysOf, [e1], Entries(t));
    assert [] + [e1] == [e1];
    BuildSnoc(keysOf, [], e1, [key]);
    AddAllOne(map[], key, 1);
  }

  /** Deleting pack 2 of a table with rows 1 and 2 leaves row 1 alone. */
  lemma {:induction false} DeleteSecondOfTwo(t: Table, p1: Rec, p2: Rec)
    requires t.rows == map[1 := p1, 2 := p2] && p2.id == Some(2)
    ensures DeleteRecord(t, p2).Ok? && DeleteRecord(t, p2).value.rows == map[1 := p1]
    ensures DeleteRecord(t, p2).value.changes != t.changes
  {
    var t2 := DeleteRecord(t, p2).value;
    assert forall k :: k in t2.rows <==> k == 1;
  }

  /** Two packs for one key, ids 1 and 2, and pack 2 deleted: the stale cache
      finds nothing, the intended handler finds pack 1. */
  lemma {:induction false} DeleteNewerOfTwo(grammar: Grammar, chunks: ChunkTable, t: Table, p1: Rec, p2: Rec,
                                            localName: string, namespaceURI: string)
    requires t.rows == map[1 := p1, 2 := p2] && p2.id == Some(2)
    requires PackKeys(grammar, chunks, p1) == Ok([MakeMatchKey(localName, namespaceURI)])
    requires PackKeys(grammar, chunks, p2) == Ok([MakeMatchKey(localName, namespaceURI)])
    ensures var cache := Some(map[MakeMatchKey(localName, namespaceURI) := 2]);
      && Coherent(grammar, chunks, t, cache)
      && DeleteRecord(t, p2).Ok?
      && var t2 := DeleteRecord(t, p2).value;
         && MatchWithPack(grammar, chunks, t2, OnChangeAsWritten(cache, t, t2), localName, namespaceURI) == Ok((None, cache))
         && MatchWithPack(grammar, chunks, t2, OnChange(cache, t, t2), localName, namespaceURI)
            == Ok((Some(p1), Some(map[MakeMatchKey(localName, namespaceURI) := 1])))
  {
    var keysOf := PackKeysOf(grammar, chunks);
    var key := MakeMatchKey(localName, namespaceURI);
    TwoPacksData(keysOf, t, p1, p2, key);
    StaleCacheAfterDelete(grammar, chunks, t, Some(map[key := 2]), p2, localName, namespaceURI);
    DeleteSecondOfTwo(t, p1, p2);
    var t2 := DeleteRecord(t, p2).value;
    OnePackData(keysOf, t2, p1, key);
    assert GetMatchingData(grammar, chunks, t2, None) == Ok((map[key := 1], Some(map[key := 1])));
  }

  const PackA: Rec := ExplicitPack("a", Some(1))
  const PackB: Rec := ExplicitPack("b", Some(2))
  const TwoPacks: Table := Table(map[1 := PackA, 2 := PackB], 3, 2)
  const DocKey: string := MakeMatchKey("doc", "urn:doc")

  lemma TwoPacksValid()
    ensures Valid(TwoPacks)
  {
    assert TwoPacks.rows.Keys == {1, 2};
  }

  /** The handler as written, witness two: two packs for `{urn:doc}doc`, ids 1
      and 2; after pack 2 is deleted the stale cache still points at id 2 and
      finds nothing, while the intended handler finds pack 1. */
  lemma {:induction false} StaleCacheHidesOlderPack(grammar: Grammar, chunks: ChunkTable)
    ensures Valid(TwoPacks) && Coherent(grammar, chunks, TwoPacks, Some(map[DocKey := 2]))
    ensures DeleteRecord(TwoPacks, PackB).Ok?
    ensures var t2 := DeleteRecord(TwoPacks, PackB).value;
      && MatchWithPack(grammar, chunks, t2, OnChangeAsWritten(Some(map[DocKey := 2]), TwoPacks, t2), "doc", "urn:doc")
         == Ok((None, Some(map[DocKey := 2])))
      && MatchWithPack(grammar, chunks, t2, OnChange(Some(map[DocKey := 2]), TwoPacks, t2), "doc", "urn:doc")
         == Ok((Some(PackA), Some(map[DocKey := 1])))
  {
    TwoPacksValid();
    DeleteNewerOfTwo(grammar, chunks, TwoPacks, PackA, PackB, "doc", "urn:doc");
  }

  // ---------------------------------------------------------------------------
  // The interchange format

  /** A pack in the interchange format: the fields `makeRecord` reads and
      `getDownloadData` writes. `schema` and `metadata` hold texts, not chunk
      ids. */
  datatype Interchange = Interchange(interchangeVersion: Option<int>, name: string, schema: Option<string>,
                                     mode: Option<string>, metadata: Option<string>, matchSpec: Option<MatchSpec>)

  /** JSON text to and from interchange records. `parse` is `None` where
      `JSON.parse` throws. */
  datatype JsonCodec = JsonCodec(parse: string -> Option<Interchange>, stringify: Interchange -> string)

  /** Parsing what was written gives back the record. */
  ghost predicate CodecRoundTrips(codec: JsonCodec) {
    forall x :: codec.parse(codec.stringify(x)) == Some(x)
  }

  const PackInterchangeVersion: int := 1

  /** Store an optional text as a chunk, yielding its id. */
  function StoreOptional(digest: Digest, chunks: ChunkTable, text: Option<string>)
    : (r: Res<(ChunkTable, Option<string>)>)
    ensures text.None? ==> r == Ok((chunks, None))
    ensures text.Some? ==> (r.Ok? <==> StoreText(digest, chunks, text.value).Ok?)
    ensures text.Some? && r.Ok? ==>
      var (c2, id) := StoreText(digest, chunks, text.value).value; r.value == (c2, Some(id))
  {
    match text
    case None => Ok((chunks, None))
    case Some(t) =>
      var (c2, id) :- StoreText(digest, chunks, t);
      Ok((c2, Some(id)))
  }

  /** `makeRecord`: parse the interchange text, check its version, store the
      metadata (if any) and the schema as chunks, and build an unsaved pack
      that refers to them. The name argument is ignored: the name comes from
      the data. */
  function MakeRecord(digest: Digest, codec: JsonCodec, chunks: ChunkTable, name: string, data: string)
    : (r: Res<(ChunkTable, Rec)>)
    ensures codec.parse(data).None? ==> r == Err(InvalidJson)
    ensures codec.parse(data).Some? && codec.parse(data).value.interchangeVersion != Some(PackInterchangeVersion) ==>
      r == Err(UnknownInterchangeVersion(codec.parse(data).value.interchangeVersion))
    ensures codec.parse(data).Some? && codec.parse(data).value.schema.None? ==> r.Err?
    ensures r.Ok? ==>
      var obj := codec.parse(data).value;
      var (c2, p) := r.value;
      && obj.interchangeVersion == Some(PackInterchangeVersion) && obj.schema.Some?
      && p.Pack? && p.id.None? && p.recordVersion == PackRecordVersion
      && p.name == obj.name && p.mode == obj.mode && p.matchSpec == obj.matchSpec
      && p.schema == Some(digest(obj.schema.value))
      && digest(obj.schema.value) in c2.contents && c2.contents[digest(obj.schema.value)] == obj.schema.value
      && (obj.metadata.None? ==> p.metadata.None?)
      && (obj.metadata.Some? ==>
            && p.metadata == Some(digest(obj.metadata.value))
            && digest(obj.metadata.value) in c2.contents && c2.contents[digest(obj.metadata.value)] == obj.metadata.value)
      && Extends(c2, chunks)
  {
    match codec.parse(data)
    case None => Err(InvalidJson)
    case Some(obj) =>
      if obj.interchangeVersion != Some(PackInterchangeVersion) then
        Err(UnknownInterchangeVersion(obj.interchangeVersion))
      else
        var (c1, metadata) :- StoreOptional(digest, chunks, obj.metadata);
        if obj.schema.None? then Err(TypeError("schema is undefined"))
        else
          var (c2, schema) :- StoreText(digest, c1, obj.schema.value);
          Ok((c2, NewPack(obj.name, Some(PackPayload(Some(schema), metadata, obj.mode, obj.matchSpec)))))
  }

  /** The service's `makeRecord` as the generic service sees it. */
  function Maker(digest: Digest, codec: JsonCodec): Maker {
    (c, n, d) => MakeRecord(digest, codec, c, n, d)
  }

  /** Read the text of an optional chunk id; a missing chunk is an error. */
  function ReadOptional(chunks: ChunkTable, id: Option<string>): (r: Res<Option<string>>)
    ensures id.None? ==> r == Ok(None)
    ensures id.Some? ==> (r.Ok? <==> id.value in chunks.contents)
    ensures r.Err? ==> r.error == MissingChunk
    ensures id.Some? && r.Ok? ==> r.value == Some(chunks.contents[id.value])
  {
    match id
    case None => Ok(None)
    case Some(i) =>
      var text :- Store.ChunkIdToData(chunks, i);
      Ok(Some(text))
  }

  /** `getDownloadData`: the pack in the interchange format, with the texts of
      its schema and metadata chunks inlined. */
  function GetDownloadData(codec: JsonCodec, chunks: ChunkTable, p: Rec): (r: Res<string>)
    requires p.Pack?
    ensures r.Ok? <==>
      (p.schema.None? || p.schema.value in chunks.contents) && (p.metadata.None? || p.metadata.value in chunks.contents)
    ensures r.Err? ==> r.error == MissingChunk
  {
    var schema :- ReadOptional(chunks, p.schema);
    var metadata :- ReadOptional(chunks, p.metadata);
    Ok(codec.stringify(Interchange(Some(PackInterchangeVersion), p.name, schema, p.mode, metadata, p.matchSpec)))
  }

  /** Importing a pack and exporting it again gives back the parsed data. */
  lemma {:induction false} ImportExportRoundTrip(digest: Digest, codec: JsonCodec, chunks: ChunkTable,
                                                 name: string, data: string)
    requires MakeRecord(digest, codec, chunks, name, data).Ok?
    ensures var (c2, p) := MakeRecord(digest, codec, chunks, name, data).value;
      GetDownloadData(codec, c2, p) == Ok(codec.stringify(codec.parse(data).value))
  {
  }

  /** Exporting a stored pack and importing the text gives back the same pack,
      unsaved, without touching the chunks table: the chunks already hold the
      texts under their digests. */
  lemma {:induction false} ExportImportRoundTrip(digest: Digest, codec: JsonCodec, chunks: ChunkTable,
                                                 name: string, p: Rec)
    requires CodecRoundTrips(codec)
    requires DigestConsistent(digest, chunks)
    requires p.Pack? && p.recordVersion == PackRecordVersion
    requires p.schema.Some? && p.schema.value in chunks.contents
    requires p.metadata.Some? ==> p.metadata.value in chunks.contents
    ensures GetDownloadData(codec, chunks, p).Ok?
    ensures MakeRecord(digest, codec, chunks, name, GetDownloadData(codec, chunks, p).value)
         == Ok((chunks, p.(id := None)))
  {
    var data := GetDownloadData(codec, chunks, p).value;
    var schema := chunks.contents[p.schema.value];
    assert digest(schema) == p.schema.value;
    if p.metadata.Some? {
      assert digest(chunks.contents[p.metadata.value]) == p.metadata.value;
    }
  }

  /** `makeIndexedDBURL` for a pack: a URL in the packs table, keyed by the
      pack's numeric id. */
  function MakeIndexedDBURL(p: Rec, property: Option<string>): (r: Res<string>)
    ensures r.Ok? <==> p.id.Some?
    ensures p.id.None? ==> r == Err(BadKeyType("undefined"))
    ensures p.id.Some? && property.None? ==>
      r == Ok("indexeddb://v1/wed/packs/number/" + Strings.NatToString(p.id.value))
    ensures p.id.Some? && property.Some? ==>
      r == Ok("indexeddb://v1/wed/packs/number/" + Strings.NatToString(p.id.value) + "/" + property.value)
  {
    assert Store.TablePrefix(Store.PacksInfo, "number") == "indexeddb://v1/wed/packs/number/";
    assert p.id.Some? ==> Store.ResolveKey(Store.PacksInfo, Store.RecordArg(p)) == Ok(Store.Number(p.id.value));
    assert p.id.None? ==> Store.ResolveKey(Store.PacksInfo, Store.RecordArg(p)) == Ok(Store.Undefined);
    Store.MakeIndexedDBURL(Store.PacksInfo, Store.RecordArg(p), property)
  }
}

=== FILE: records.dfy ===
/** The record shapes kept in the four named tables. Each record has an
    optional surrogate id (absent until the store assigns one), a name and a
    record version; XML files, schemas and metadata wrap one chunk id, and a
    pack bundles a schema, optional metadata, a mode and a match rule.
    record-common.ts, xml-file.ts, schema.ts and metadata.ts are not part of
    this model: their shapes are taken from their tests. */
module Records {
  import opened Wrappers

  /** `MatchSpecification`: how a pack is matched to an XML file's top element.
      An empty `localName` asks for automatic matching from the schema. A pack
      whose data had no `match` carries none. */
  datatype MatchSpec = MatchSpec(methodName: string, localName: string, namespaceURI: string)

  const TopElement: string := "top-element"

  datatype Rec =
    | XMLFile(id: Option<nat>, name: string, recordVersion: int, chunk: string, pack: Option<int>)
    | Schema(id: Option<nat>, name: string, recordVersion: int, chunk: string)
    | Metadata(id: Option<nat>, name: string, recordVersion: int, chunk: string)
    | Pack(id: Option<nat>, name: string, recordVersion: int,
           schema: Option<string>, metadata: Option<string>, mode: Option<string>,
           matchSpec: Option<MatchSpec>)

  /** Records that are not packs start at record version 1. */
  const CommonRecordVersion: int := 1

  function RecordType(r: Rec): string {
    match r
    case XMLFile(_, _, _, _, _) => "XMLFile"
    case Schema(_, _, _, _) => "Schema"
    case Metadata(_, _, _, _) => "Metadata"
    case Pack(_, _, _, _, _, _, _) => "Pack"
  }

  /** A new, unsaved XML file wrapping a chunk, with no manual pack. */
  function NewXMLFile(name: string, chunk: string): (r: Rec)
    ensures r.XMLFile? && r.id.None? && r.name == name && r.chunk == chunk && r.pack.None?
    ensures r.recordVersion == CommonRecordVersion
  {
    XMLFile(None, name, CommonRecordVersion, chunk, None)
  }
}

=== FILE: schemas_service.dfy ===
/** The schemas service (src/dashboard/schemas.service.ts): schemas wrap a chunk
    of their text. */
module SchemasService {
  import opened Wrappers
  import opened Errors
  import opened Records
  import opened Chunks
  import opened ChunksService
  import opened DbService
  import Store

  /** `makeRecord`: store the text as a chunk and wrap its id in a new, unsaved
      schema of the given name. */
  function MakeRecord(digest: Digest, chunks: ChunkTable, name: string, data: string)
    : (r: Res<(ChunkTable, Rec)>)
    ensures r.Ok? <==> StoreText(digest, chunks, data).Ok?
    ensures r.Ok? ==>
      var (c2, schema) := r.value;
      && schema.Schema? && schema.id.None? && schema.name == name
      && schema.recordVersion == CommonRecordVersion
      && schema.chunk == digest(data)
      && schema.chunk in c2.contents && c2.contents[schema.chunk] == data
      && Extends(c2, chunks)
  {
    var (c2, id) :- StoreText(digest, chunks, data);
    Ok((c2, Schema(None, name, CommonRecordVersion, id)))
  }

  function Maker(digest: Digest): Maker {
    (c, n, d) => MakeRecord(digest, c, n, d)
  }

  /** `getDownloadData`: the text of the schema's chunk. */
  function GetDownloadData(chunks: ChunkTable, schema: Rec): (r: Res<string>)
    requires schema.Schema?
    ensures r.Ok? <==> schema.chunk in chunks.contents
    ensures r.Ok? ==> r.value == chunks.contents[schema.chunk]
    ensures r.Err? ==> r.error == MissingChunk
  {
    Store.ChunkIdToData(chunks, schema.chunk)
  }

  /** `getDownloadData(makeRecord(n, d))` is `d`. */
  lemma {:induction false} DownloadRoundTrip(digest: Digest, chunks: ChunkTable, name: string, data: string)
    requires MakeRecord(digest, chunks, name, data).Ok?
    ensures var (c2, schema) := MakeRecord(digest, chunks, name, data).value;
      GetDownloadData(c2, schema) == Ok(data)
  {
  }
}

=== FILE: store.dfy ===
/** The store facade (src/dashboard/store.ts): the database named "wed" with
    its five tables, the `__` stripping hooks, IndexedDB URLs, reading a
    chunk's text, and dumping and loading the whole database. */
module Store {
  import opened Wrappers
  import opened Errors
  import opened Records
  import opened Chunks
  import opened ChunksService
  import opened DbService
  import Strings

  // ---------------------------------------------------------------------------
  // Schema

  const DbName: string := "wed"

  /** A table's primary key path: one property, or several (compound). */
  datatype KeyPath = Single(prop: string) | Compound(props: seq<string>)

  datatype TableInfo = TableInfo(name: string, keyPath: KeyPath)

  /** Every table of the store is keyed by `++id`. */
  const XmlFilesInfo: TableInfo := TableInfo("xmlfiles", Single("id"))
  const PacksInfo: TableInfo := TableInfo("packs", Single("id"))
  const SchemasInfo: TableInfo := TableInfo("schemas", Single("id"))
  const MetadataInfo: TableInfo := TableInfo("metadata", Single("id"))
  const ChunksInfo: TableInfo := TableInfo("chunks", Single("id"))

  /** The whole database: four tables of named records, and the chunks. */
  datatype Database = Database(xmlfiles: Table, packs: Table, schemas: Table,
                               metadata: Table, chunks: ChunkTable)

  const EmptyDatabase := Database(EmptyTable, EmptyTable, EmptyTable, EmptyTable, EmptyChunks)

  /** The store's guarantees (`++id,&name`) on each table of named records. */
  predicate DatabaseValid(db: Database) {
    Valid(db.xmlfiles) && Valid(db.packs) && Valid(db.schemas) && Valid(db.metadata)
  }

  // ---------------------------------------------------------------------------
  // Hooks

  /** A property the application's convention marks as not to be stored. */
  predicate IsDunder(prop: string) {
    Strings.StartsWith(prop, "__")
  }

  /** `creationHook`: the object as stored, without its `__` properties. */
  function CreationHook<V>(obj: map<string, V>): (r: map<string, V>)
    ensures forall p :: p in r <==> p in obj && !IsDunder(p)
    ensures forall p :: p in r ==> r[p] == obj[p]
  {
    map p | p in obj && !IsDunder(p) :: obj[p]
  }

  /** `updateHook`: one extra modification per `__` property being modified,
      telling Dexie to remove it (`None` is `undefined`). */
  function UpdateHook<V>(mods: map<string, Option<V>>): (r: map<string, Option<V>>)
    ensures forall p :: p in r <==> p in mods && IsDunder(p)
    ensures forall p :: p in r ==> r[p].None?
  {
    map p | p in mods && IsDunder(p) :: None
  }

  /** Dexie applying modifications to a stored object: `undefined` removes a
      property, anything else sets it. */
  function ApplyMods<V>(obj: map<string, V>, mods: map<string, Option<V>>): (r: map<string, V>)
    ensures forall p :: p in r <==> (p in mods && mods[p].Some?) || (p !in mods && p in obj)
    ensures forall p :: p in r ==> r[p] == if p in mods then mods[p].value else obj[p]
  {
    var keep := map p | p in obj && p !in mods :: obj[p];
    var set_ := map p | p in mods && mods[p].Some? :: mods[p].value;
    keep + set_
  }

  /** No stored object ever acquires a `__` property: the creation hook strips
      them from a new object, and an update merged with the update hook's
      result removes any the modifications would add. */
  lemma {:induction false} HooksKeepDunderOut<V>(obj: map<string, V>, mods: map<string, Option<V>>)
    requires forall p :: p in obj ==> !IsDunder(p)
    ensures forall p :: p in CreationHook(obj) ==> !IsDunder(p)
    ensures forall p :: p in ApplyMods(obj, mods + UpdateHook(mods)) ==> !IsDunder(p)
    ensures forall p :: p in obj && p !in mods ==> p in ApplyMods(obj, mods + UpdateHook(mods))
  {
  }

  /** The creation hook leaves an object without `__` properties as it is, and
      applying it twice is applying it once. */
  lemma {:induction false} CreationHookIdempotent<V>(obj: map<string, V>)
    ensures CreationHook(CreationHook(obj)) == CreationHook(obj)
    ensures (forall p :: p in obj ==> !IsDunder(p)) ==> CreationHook(obj) == obj
  {
  }

  // ---------------------------------------------------------------------------
  // URLs

  /** A key value, by its JavaScript `typeof`. */
  datatype KeyValue = Number(n: int) | Str(s: string) | Undefined | OtherType(typeName: string)

  /** What `makeIndexedDBURL` is given to find the key: the key itself, or an
      object holding it under the table's key path. */
  datatype KeyArg = Key(key: KeyValue) | Object(fields: map<string, KeyValue>)

  function TypeOf(v: KeyValue): string {
    match v
    case Number(_) => "number"
    case Str(_) => "string"
    case Undefined => "undefined"
    case OtherType(t) => t
  }

  /** `${key}` for a number or a string key. */
  function KeyText(v: KeyValue): string
    requires v.Number? || v.Str?
  {
    match v
    case Number(n) => Strings.IntToString(n)
    case Str(s) => s
  }

  /** The key a `KeyArg` designates in a table. */
  function ResolveKey(table: TableInfo, arg: KeyArg): (r: Res<KeyValue>)
    ensures r.Err? <==> arg.Object? && table.keyPath.Compound?
    ensures r.Err? ==> r.error == CompoundIndex
  {
    match arg
    case Key(v) => Ok(v)
    case Object(fields) =>
      match table.keyPath
      case Compound(_) => Err(CompoundIndex)
      case Single(p) => Ok(if p in fields then fields[p] else Undefined)
  }

  /** The URL prefix naming a table and a key's type. */
  function TablePrefix(table: TableInfo, keyType: string): string {
    "indexeddb://v1/" + DbName + "/" + table.name + "/" + keyType + "/"
  }

  /** `makeIndexedDBURL`. */
  function MakeIndexedDBURL(table: TableInfo, arg: KeyArg, property: Option<string>): (r: Res<string>)
    ensures r.Ok? <==>
      ResolveKey(table, arg).Ok? && (ResolveKey(table, arg).value.Number? || ResolveKey(table, arg).value.Str?)
    ensures ResolveKey(table, arg).Ok? && r.Err? ==>
      r.error == BadKeyType(TypeOf(ResolveKey(table, arg).value))
    ensures r.Ok? ==>
      var key := ResolveKey(table, arg).value;
      Strings.StartsWith(r.value, TablePrefix(table, TypeOf(key))) &&
      r.value[|TablePrefix(table, TypeOf(key))|..] ==
        KeyText(key) + (if property.Some? then "/" + property.value else "")
  {
    var key :- ResolveKey(table, arg);
    if !(key.Number? || key.Str?) then Err(BadKeyType(TypeOf(key)))
    else
      var url := TablePrefix(table, TypeOf(key)) + KeyText(key);
      Ok(if property.Some? then url + "/" + property.value else url)
  }

  /** A record as the object handed to `makeIndexedDBURL`. */
  function RecordArg(r: Rec): KeyArg {
    Object(map["id" := if r.id.Some? then Number(r.id.value) else Undefined])
  }

  lemma PrefixCancel(p: string, a: string, b: string)
    requires p + a == p + b
    ensures a == b
  {
    assert a == (p + a)[|p|..];
    assert b == (p + b)[|p|..];
  }

  /** Records with different ids get different URLs in the same table. */
  lemma {:induction false} URLDistinguishesRecords(table: TableInfo, r1: Rec, r2: Rec)
    requires table.keyPath == Single("id")
    requires r1.id.Some? && r2.id.Some? && r1.id != r2.id
    ensures MakeIndexedDBURL(table, RecordArg(r1), None).Ok?
    ensures MakeIndexedDBURL(table, RecordArg(r2), None).Ok?
    ensures MakeIndexedDBURL(table, RecordArg(r1), None) != MakeIndexedDBURL(table, RecordArg(r2), None)
  {
    var p := TablePrefix(table, "number");
    var u1 := MakeIndexedDBURL(table, RecordArg(r1), None).value;
    var u2 := MakeIndexedDBURL(table, RecordArg(r2), None).value;
    assert u1 == p + Strings.NatToString(r1.id.value);
    assert u2 == p + Strings.NatToString(r2.id.value);
    if u1 == u2 {
      PrefixCancel(p, Strings.NatToString(r1.id.value), Strings.NatToString(r2.id.value));
      Strings.NatToStringInjective(r1.id.value, r2.id.value);
    }
  }

  /** The examples the XML files service relies on: a saved file's URL, the
      same with a property, and the refusal of an unsaved file. */
  lemma XmlFileURLs(r: Rec)
    requires r.id == Some(1)
    ensures MakeIndexedDBURL(XmlFilesInfo, RecordArg(r), None) == Ok("indexeddb://v1/wed/xmlfiles/number/1")
    ensures MakeIndexedDBURL(XmlFilesInfo, RecordArg(r), Some("data")) == Ok("indexeddb://v1/wed/xmlfiles/number/1/data")
    ensures MakeIndexedDBURL(XmlFilesInfo, RecordArg(r.(id := None)), None) == Err(BadKeyType("undefined"))
  {
    assert Strings.IntToString(1) == "1";
    var arg := RecordArg(r);
    assert ResolveKey(XmlFilesInfo, arg) == Ok(Number(1));
    assert KeyText(Number(1)) == "1";
    assert TablePrefix(XmlFilesInfo, "number") == "indexeddb://v1/wed/xmlfiles/number/";
    var url := MakeIndexedDBURL(XmlFilesInfo, arg, None).value;
    assert url == TablePrefix(XmlFilesInfo, "number") + "1";
    assert "indexeddb://v1/wed/xmlfiles/number/" + "1" == "indexeddb://v1/wed/xmlfiles/number/1";
    assert url + "/" + "data" == "indexeddb://v1/wed/xmlfiles/number/1/data";
  }

  // ---------------------------------------------------------------------------
  // Chunk data

  /** `chunkIdToData`: the text of the chunk with that id. */
  function ChunkIdToData(chunks: ChunkTable, id: string): (r: Res<string>)
    ensures r.Err? <==> id !in chunks.contents
    ensures r.Err? ==> r.error == MissingChunk
    ensures r.Ok? ==> r.value == chunks.contents[id]
  {
    if id in chunks.contents then Ok(chunks.contents[id]) else Err(MissingChunk)
  }

  /** The text stored by `createRecord` is what `chunkIdToData` reads back. */
  lemma {:induction false} StoredTextReadsBack(digest: Digest, chunks: ChunkTable, text: string)
    requires StoreText(digest, chunks, text).Ok?
    ensures var (c2, id) := StoreText(digest, chunks, text).value;
      ChunkIdToData(c2, id) == Ok(text)
  {
  }

  // ---------------------------------------------------------------------------
  // Dump and load

  /** A chunk in a dump: its id and its file replaced by the file's text. */
  datatype ChunkRow = ChunkRow(id: string, file: string)

  /** The dump's `tables`: each table's rows, or nothing when the table is
      missing from the dump. */
  datatype DumpTables = DumpTables(xmlfiles: Option<seq<Rec>>, packs: Option<seq<Rec>>,
                                   schemas: Option<seq<Rec>>, metadata: Option<seq<Rec>>,
                                   chunks: Option<seq<ChunkRow>>)

  datatype Dump = Dump(creationDate: string, interchangeVersion: Option<int>, tables: DumpTables)

  const InterchangeVersion: int := 1

  /** `rows` lists the chunks of `contents` once each. */
  predicate ListsChunks(rows: seq<ChunkRow>, contents: map<string, string>) {
    && (forall i :: 0 <= i < |rows| ==> rows[i].id in contents && contents[rows[i].id] == rows[i].file)
    && (forall id :: id in contents ==> exists i :: 0 <= i < |rows| && rows[i].id == id)
    && (forall i, j :: 0 <= i < j < |rows| ==> rows[i].id != rows[j].id)
  }

  /** `d` is a dump of `db`, taken at `now`. */
  predicate IsDumpOf(d: Dump, db: Database, now: string) {
    && d.creationDate == now
    && d.interchangeVersion == Some(InterchangeVersion)
    && d.tables.xmlfiles == Some(GetRecords(db.xmlfiles))
    && d.tables.packs == Some(GetRecords(db.packs))
    && d.tables.schemas == Some(GetRecords(db.schemas))
    && d.tables.metadata == Some(GetRecords(db.metadata))
    && d.tables.chunks.Some? && ListsChunks(d.tables.chunks.value, db.chunks.contents)
  }

  /** `dump`: every table's rows, the chunks with their text read out of their
      files. The clock is the parameter `now`; turning the result into JSON is
      not part of this model. */
  method DumpDatabase(db: Database, now: string) returns (d: Dump)
    ensures IsDumpOf(d, db, now)
  {
    var rows := DumpChunks(db.chunks.contents);
    d := Dump(now, Some(InterchangeVersion),
              DumpTables(Some(GetRecords(db.xmlfiles)), Some(GetRecords(db.packs)),
                         Some(GetRecords(db.schemas)), Some(GetRecords(db.metadata)),
                         Some(rows)));
  }

  /** The chunks part of `dump`: one row per chunk, with its text. */
  method DumpChunks(contents: map<string, string>) returns (rows: seq<ChunkRow>)
    ensures ListsChunks(rows, contents)
  {
    rows := [];
    var left := contents.Keys;
    while left != {}
      invariant left <= contents.Keys
      invariant forall i :: 0 <= i < |rows| ==>
        rows[i].id in contents && rows[i].id !in left && contents[rows[i].id] == rows[i].file
      invariant forall id :: id in contents ==> id in left || exists i :: 0 <= i < |rows| && rows[i].id == id
      invariant forall i, j :: 0 <= i < j < |rows| ==> rows[i].id != rows[j].id
      decreases |left|
    {
      var id :| id in left;
      var before := rows;
      rows := rows + [ChunkRow(id, contents[id])];
      assert forall i :: 0 <= i < |before| ==> rows[i] == before[i];
      assert rows[|before|].id == id;
      left := left - {id};
    }
  }

  /** `table.clear()` called directly: rows gone, generator and change count kept. */
  function Wipe(t: Table): (r: Table)
    ensures r.rows == map[] && r.nextId == t.nextId && r.changes == t.changes
  {
    t.(rows := map[])
  }

  /** `u` holds every chunk of `t`, unchanged. */
  predicate KeepsChunks(t: ChunkTable, u: ChunkTable) {
    forall id :: id in t.contents ==> id in u.contents && u.contents[id] == t.contents[id]
  }

  /** Every chunk `u` holds beyond those of `t` is a row of `rows`. */
  predicate NewChunksFrom(t: ChunkTable, u: ChunkTable, rows: seq<ChunkRow>) {
    forall id :: id in u.contents && id !in t.contents ==>
      exists i :: 0 <= i < |rows| && rows[i] == ChunkRow(id, u.contents[id])
  }

  /** Every id of `rows` is present in `u`. */
  predicate HoldsIds(u: ChunkTable, rows: seq<ChunkRow>) {
    forall i :: 0 <= i < |rows| ==> rows[i].id in u.contents
  }

  /** `bulkAdd` on the chunks table outside a transaction: a row whose id is
      already present is skipped, the others stay, and the refusal is reported
      once all rows have been tried. */
  function BulkAddChunks(t: ChunkTable, rows: seq<ChunkRow>): (r: (ChunkTable, Option<Error>))
    ensures r.0.changes == t.changes
    ensures KeepsChunks(t, r.0) && NewChunksFrom(t, r.0, rows) && HoldsIds(r.0, rows)
    ensures r.1.Some? ==> r.1 == Some(ConstraintError)
    decreases |rows|
  {
    if rows == [] then (t, None)
    else
      var tail := rows[1..];
      assert forall i :: 0 <= i < |tail| ==> tail[i] == rows[i + 1];
      if rows[0].id in t.contents then (BulkAddChunks(t, tail).0, Some(ConstraintError))
      else BulkAddChunks(ChunkTable(t.contents[rows[0].id := rows[0].file], t.changes), tail)
  }

  /** The refusal of a chunk bulk add is reported exactly when some row was not added. */
  lemma {:induction false} BulkAddChunksOutcome(t: ChunkTable, rows: seq<ChunkRow>)
    ensures |BulkAddChunks(t, rows).0.contents| <= |t.contents| + |rows|
    ensures BulkAddChunks(t, rows).1.None? <==> |BulkAddChunks(t, rows).0.contents| == |t.contents| + |rows|
    decreases |rows|
  {
    if rows != [] {
      var tail := rows[1..];
      if rows[0].id in t.contents {
        BulkAddChunksOutcome(t, tail);
      } else {
        var t2 := ChunkTable(t.contents[rows[0].id := rows[0].file], t.changes);
        BulkAddChunksOutcome(t2, tail);
        assert |t2.contents| == |t.contents| + 1;
      }
    }
  }

  /** One table of a load: wipe it, then add the dump's rows, if any. The table
      ends up valid and holding only rows of the dump, and a refusal is
      reported exactly when some row of the dump is missing. */
  function LoadTable(t: Table, rows: Option<seq<Rec>>): (r: (Table, Option<Error>))
    ensures rows.None? ==> r == (Wipe(t), None)
    ensures r.0.changes == t.changes && Valid(r.0)
    ensures rows.Some? ==> NewRowsFrom(Wipe(t), r.0, rows.value)
    ensures rows.Some? ==> (r.1.None? <==> |r.0.rows| == |rows.value|)
  {
    match rows
    case None => (Wipe(t), None)
    case Some(rs) =>
      BulkAddOutcome(Wipe(t), rs);
      BulkAddFromRows(Wipe(t), rs);
      BulkAdd(Wipe(t), rs)
  }

  /** The chunks of a load: clear them, then add the dump's chunks, if any. */
  function LoadChunks(t: ChunkTable, rows: Option<seq<ChunkRow>>): (r: (ChunkTable, Option<Error>))
    ensures rows.None? ==> r == (ChunkTable(map[], t.changes), None)
    ensures r.0.changes == t.changes
    ensures rows.Some? ==> NewChunksFrom(ChunkTable(map[], t.changes), r.0, rows.value)
    ensures rows.Some? ==> HoldsIds(r.0, rows.value)
    ensures rows.Some? ==> (r.1.None? <==> |r.0.contents| == |rows.value|)
  {
    match rows
    case None => (ChunkTable(map[], t.changes), None)
    case Some(rs) =>
      BulkAddChunksOutcome(ChunkTable(map[], t.changes), rs);
      BulkAddChunks(ChunkTable(map[], t.changes), rs)
  }

  /** `load`: refuse a dump of another version before touching anything;
      otherwise wipe every table and add the dump's rows to each, every table
      independently of the others, as `Promise.all` runs them. The database
      that results is returned with the first refusal, if any. Parsing the
      JSON text is not part of this model. */
  function Load(db: Database, d: Dump): (r: (Database, Option<Error>))
    ensures d.interchangeVersion != Some(InterchangeVersion) ==>
      r == (db, Some(IncorrectVersion(d.interchangeVersion)))
    ensures d.interchangeVersion == Some(InterchangeVersion) ==>
      && r.0.xmlfiles == LoadTable(db.xmlfiles, d.tables.xmlfiles).0
      && r.0.packs == LoadTable(db.packs, d.tables.packs).0
      && r.0.schemas == LoadTable(db.schemas, d.tables.schemas).0
      && r.0.metadata == LoadTable(db.metadata, d.tables.metadata).0
      && r.0.chunks == LoadChunks(db.chunks, d.tables.chunks).0
    ensures d.interchangeVersion == Some(InterchangeVersion) ==> DatabaseValid(r.0)
    ensures d.interchangeVersion == Some(InterchangeVersion) ==>
      (r.1.None? <==>
        && LoadTable(db.xmlfiles, d.tables.xmlfiles).1.None?
        && LoadTable(db.packs, d.tables.packs).1.None?
        && LoadTable(db.schemas, d.tables.schemas).1.None?
        && LoadTable(db.metadata, d.tables.metadata).1.None?
        && LoadChunks(db.chunks, d.tables.chunks).1.None?)
    ensures d.interchangeVersion == Some(InterchangeVersion) && r.1.Some? ==> r.1 == Some(ConstraintError)
  {
    if d.interchangeVersion != Some(InterchangeVersion) then (db, Some(IncorrectVersion(d.interchangeVersion)))
    else
      var (x, ex) := LoadTable(db.xmlfiles, d.tables.xmlfiles);
      var (p, ep) := LoadTable(db.packs, d.tables.packs);
      var (s, es) := LoadTable(db.schemas, d.tables.schemas);
      var (m, em) := LoadTable(db.metadata, d.tables.metadata);
      var (c, ec) := LoadChunks(db.chunks, d.tables.chunks);
      var err := if ex.Some? then ex else if ep.Some? then ep else if es.Some? then es else if em.Some? then em else ec;
      (Database(x, p, s, m, c), err)
  }

  /** Chunk rows with distinct, new ids are all added, each under its own id. */
  lemma {:induction false} BulkAddChunksDistinct(t: ChunkTable, rows: seq<ChunkRow>)
    requires forall i :: 0 <= i < |rows| ==> rows[i].id !in t.contents
    requires forall i, j :: 0 <= i < j < |rows| ==> rows[i].id != rows[j].id
    ensures BulkAddChunks(t, rows).1.None?
    ensures forall i :: 0 <= i < |rows| ==> BulkAddChunks(t, rows).0.contents[rows[i].id] == rows[i].file
    decreases |rows|
  {
    if rows != [] {
      var t2 := ChunkTable(t.contents[rows[0].id := rows[0].file], t.changes);
      var tail := rows[1..];
      forall i | 0 <= i < |tail|
        ensures tail[i].id !in t2.contents
      {
        assert tail[i] == rows[i + 1];
      }
      forall i, j | 0 <= i < j < |tail|
        ensures tail[i].id != tail[j].id
      {
        assert tail[i] == rows[i + 1] && tail[j] == rows[j + 1];
      }
      BulkAddChunksDistinct(t2, tail);
      var res := BulkAddChunks(t2, tail).0.contents;
      assert BulkAddChunks(t, rows) == BulkAddChunks(t2, tail);
      forall i | 0 <= i < |rows|
        ensures res[rows[i].id] == rows[i].file
      {
        if i > 0 {
          assert rows[i] == tail[i - 1];
        } else {
          assert rows[0].id in t2.contents;
        }
      }
    }
  }

  /** Loading a listing of a chunk table restores exactly its contents. */
  lemma {:induction false} LoadChunksOfListing(t: ChunkTable, rows: seq<ChunkRow>, contents: map<string, string>)
    requires ListsChunks(rows, contents)
    ensures LoadChunks(t, Some(rows)).1.None?
    ensures LoadChunks(t, Some(rows)).0.contents == contents
  {
    BulkAddChunksOfListing(ChunkTable(map[], t.changes), rows, contents);
  }

  /** Adding a listing of chunks to an empty table gives exactly the chunks listed. */
  lemma {:induction false} BulkAddChunksOfListing(empty: ChunkTable, rows: seq<ChunkRow>, contents: map<string, string>)
    requires empty.contents == map[]
    requires ListsChunks(rows, contents)
    ensures BulkAddChunks(empty, rows).1.None?
    ensures BulkAddChunks(empty, rows).0.contents == contents
  {
    var r := BulkAddChunks(empty, rows);
    BulkAddChunksDistinct(empty, rows);
    var res := r.0.contents;
    forall id | id in contents
      ensures id in res && res[id] == contents[id]
    {
      var i :| 0 <= i < |rows| && rows[i].id == id;
      assert res[rows[i].id] == rows[i].file;
    }
    forall id | id in res
      ensures id in contents
    {
      assert id !in empty.contents;
      var i :| 0 <= i < |rows| && rows[i] == ChunkRow(id, res[id]);
      assert rows[i].id in contents;
    }
  }

  /** Loading a table's own listing restores exactly its rows. */
  lemma {:induction false} LoadTableOfListing(t: Table, into: Table)
    requires Valid(t)
    ensures LoadTable(into, Some(GetRecords(t))).1.None?
    ensures LoadTable(into, Some(GetRecords(t))).0.rows == t.rows
  {
    GetRecordsDistinct(t);
    LoadTableContents(into, GetRecords(t));
  }

  /** A dump's rows, once loaded, are exactly the table's rows: loading a
      dump of a valid database into any database restores every table's
      records and every chunk's text. */
  lemma {:induction false} DumpLoadRoundTrip(db: Database, target: Database, d: Dump, now: string)
    requires DatabaseValid(db)
    requires IsDumpOf(d, db, now)
    ensures Load(target, d).1.None?
    ensures Load(target, d).0.xmlfiles.rows == db.xmlfiles.rows
    ensures Load(target, d).0.packs.rows == db.packs.rows
    ensures Load(target, d).0.schemas.rows == db.schemas.rows
    ensures Load(target, d).0.metadata.rows == db.metadata.rows
    ensures Load(target, d).0.chunks.contents == db.chunks.contents
  {
    LoadTableOfListing(db.xmlfiles, target.xmlfiles);
    LoadTableOfListing(db.packs, target.packs);
    LoadTableOfListing(db.schemas, target.schemas);
    LoadTableOfListing(db.metadata, target.metadata);
    LoadChunksOfListing(target.chunks, d.tables.chunks.value, db.chunks.contents);
    var x := LoadTable(target.xmlfiles, d.tables.xmlfiles).0;
    var p := LoadTable(target.packs, d.tables.packs).0;
    var s := LoadTable(target.schemas, d.tables.schemas).0;
    var m := LoadTable(target.metadata, d.tables.metadata).0;
    var c := LoadChunks(target.chunks, d.tables.chunks).0;
    assert Load(target, d) == (Database(x, p, s, m, c), None);
  }

  /** Rows that are distinct in id and name load as exactly those rows, whatever
      was in the table before. */
  lemma {:induction false} LoadTableContents(t: Table, rs: seq<Rec>)
    requires DistinctRows(rs)
    ensures LoadTable(t, Some(rs)).1.None?
    ensures LoadTable(t, Some(rs)).0.rows == RowsOf(rs)
  {
    assert Valid(Wipe(t));
    BulkAddDistinct(Wipe(t), rs);
    assert Wipe(t).rows + RowsOf(rs) == RowsOf(rs);
  }

  /** A dump whose files table repeats the name "a": the load reports the
      refused row, yet every table has been wiped and the first "a" stays. */
  lemma {:induction false} RepeatedNameKeepsFirst(db: Database)
    ensures
      var a1 := XMLFile(Some(1), "a", CommonRecordVersion, "c1", None);
      var a2 := XMLFile(Some(2), "a", CommonRecordVersion, "c2", None);
      var d := Dump("", Some(InterchangeVersion), DumpTables(Some([a1, a2]), None, None, None, None));
      && Load(db, d).1 == Some(ConstraintError)
      && Load(db, d).0.xmlfiles.rows == map[1 := a1]
      && Load(db, d).0.packs.rows == map[]
      && Load(db, d).0.chunks.contents == map[]
  {
    var a1 := XMLFile(Some(1), "a", CommonRecordVersion, "c1", None);
    var a2 := XMLFile(Some(2), "a", CommonRecordVersion, "c2", None);
    var w := Wipe(db.xmlfiles);
    var t2 := Table(map[1 := a1], Bump(w.nextId, 1), w.changes);
    assert Add(w, a1) == Ok(t2);
    assert NameTaken(t2, a2.name, 2) by { assert t2.rows[1].name == "a"; }
    assert Add(t2, a2).Err?;
    assert [a1, a2][1..] == [a2];
    assert BulkAdd(t2, [a2]) == (t2, Some(ConstraintError)) by {
      assert [a2][1..] == [];
    }
    assert BulkAdd(w, [a1, a2]) == (t2, Some(ConstraintError));
  }
}

=== FILE: strings.dfy ===
/** String helpers: the decimal rendering JavaScript uses for integers in
    template literals, and a prefix test. */
module Strings {

  predicate IsDigit(c: char) {
    '0' <= c <= '9'
  }

  predicate AllDigits(s: string) {
    forall i :: 0 <= i < |s| ==> IsDigit(s[i])
  }

  function DigitChar(d: nat): (c: char)
    requires d < 10
    ensures IsDigit(c) && c as int - '0' as int == d
  {
    "0123456789"[d]
  }

  function DigitValue(c: char): nat
    requires IsDigit(c)
  {
    c as int - '0' as int
  }

  /** Decimal rendering of a natural number, as `${n}` produces it. */
  function NatToString(n: nat): (s: string)
    ensures |s| >= 1 && AllDigits(s)
    ensures |s| > 1 ==> s[0] != '0'
    decreases n
  {
    if n < 10 then [DigitChar(n)] else NatToString(n / 10) + [DigitChar(n % 10)]
  }

  /** Reads a string of decimal digits back as a number. */
  function ParseDigits(s: string): nat
    requires AllDigits(s)
    decreases |s|
  {
    if s == [] then 0 else ParseDigits(s[..|s| - 1]) * 10 + DigitValue(s[|s| - 1])
  }

  /** Reading back the decimal rendering gives the number again. */
  lemma {:induction false} NatToStringRoundTrip(n: nat)
    ensures ParseDigits(NatToString(n)) == n
    decreases n
  {
    var s := NatToString(n);
    if n >= 10 {
      NatToStringRoundTrip(n / 10);
      assert s[..|s| - 1] == NatToString(n / 10);
    }
  }

  /** Distinct numbers render as distinct strings. */
  lemma NatToStringInjective(m: nat, n: nat)
    requires NatToString(m) == NatToString(n)
    ensures m == n
  {
    NatToStringRoundTrip(m);
    NatToStringRoundTrip(n);
  }

  /** Decimal rendering of an integer, with a leading minus sign when negative. */
  function IntToString(i: int): (s: string)
    ensures |s| >= 1
    ensures i >= 0 ==> s == NatToString(i)
    ensures i < 0 ==> s == "-" + NatToString(-i)
  {
    if i < 0 then "-" + NatToString(-i) else NatToString(i)
  }

  predicate StartsWith(s: string, prefix: string) {
    |prefix| <= |s| && s[..|prefix|] == prefix
  }
}

=== FILE: upgrade_service.dfy ===
/** The database upgrade (src/dashboard/upgrade.service.ts): packs saved before
    record version 2 are obsolete; upgrading detaches the XML files that name
    one of them and deletes them, after the user has been warned and a backup
    of the database has been downloaded. */
module UpgradeService {
  import opened Wrappers
  import opened Records
  import opened DbService
  import opened Store

  /** The record version packs must have reached. */
  const UpgradedPackVersion: int := 2

  predicate IsObsolete(p: Rec) {
    p.recordVersion < UpgradedPackVersion
  }

  /** The primary keys of the obsolete packs. */
  function ObsoleteKeys(packs: Table): (ks: set<nat>)
    ensures forall k :: k in ks <==> k in packs.rows && IsObsolete(packs.rows[k])
  {
    set k | k in packs.rows && IsObsolete(packs.rows[k])
  }

  /** `willModifyDatabase`: whether some pack is obsolete. */
  function WillModifyDatabase(db: Database): (b: bool)
    ensures b <==> exists k :: k in db.packs.rows && IsObsolete(db.packs.rows[k])
  {
    var ks := ObsoleteKeys(db.packs);
    if ks == {} then false
    else
      var k :| k in ks;
      true
  }

  /** An XML file that names one of `keys` as its pack loses that pack. */
  function Detach(f: Rec, keys: set<nat>): (r: Rec)
    ensures r.id == f.id && r.name == f.name
    ensures f.XMLFile? && f.pack.Some? && f.pack.value in keys ==> r == f.(pack := None)
    ensures !(f.XMLFile? && f.pack.Some? && f.pack.value in keys) ==> r == f
  {
    if f.XMLFile? && f.pack.Some? && f.pack.value in keys then f.(pack := None) else f
  }

  /** Every file naming one of `keys` is put back without its pack. The writes
      go to the table directly, so no change is announced. */
  function DetachAll(t: Table, keys: set<nat>): (r: Table)
    ensures r.rows.Keys == t.rows.Keys && r.nextId == t.nextId && r.changes == t.changes
    ensures forall k :: k in r.rows ==> r.rows[k] == Detach(t.rows[k], keys)
    ensures forall k :: k in r.rows ==> r.rows[k].id == t.rows[k].id && r.rows[k].name == t.rows[k].name
    ensures forall k :: k in r.rows && r.rows[k].XMLFile? && r.rows[k].pack.Some? ==> r.rows[k].pack.value !in keys
  {
    Table(map k | k in t.rows :: Detach(t.rows[k], keys), t.nextId, t.changes)
  }

  /** The obsolete packs deleted, directly on the table. */
  function DeleteObsolete(t: Table): (r: Table)
    ensures forall k :: k in r.rows <==> k in t.rows && !IsObsolete(t.rows[k])
    ensures forall k :: k in r.rows ==> r.rows[k] == t.rows[k]
    ensures r.nextId == t.nextId && r.changes == t.changes
    ensures forall k :: k in r.rows ==> !IsObsolete(r.rows[k])
    ensures Valid(t) ==> Valid(r)
  {
    Table(map k | k in t.rows && !IsObsolete(t.rows[k]) :: t.rows[k], t.nextId, t.changes)
  }

  /** `apply`: nothing when no pack is obsolete; otherwise, in one
      transaction, detach the files that name an obsolete pack, then delete
      the obsolete packs. */
  function Apply(db: Database): (r: Database)
    ensures !WillModifyDatabase(db) ==> r == db
    ensures !WillModifyDatabase(r)
    ensures r.schemas == db.schemas && r.metadata == db.metadata && r.chunks == db.chunks
    ensures forall k :: k in r.packs.rows <==> k in db.packs.rows && !IsObsolete(db.packs.rows[k])
    ensures forall k :: k in r.packs.rows ==> r.packs.rows[k] == db.packs.rows[k]
    ensures r.xmlfiles.rows.Keys == db.xmlfiles.rows.Keys
    ensures forall k :: k in r.xmlfiles.rows ==> r.xmlfiles.rows[k] == Detach(db.xmlfiles.rows[k], ObsoleteKeys(db.packs))
  {
    if !WillModifyDatabase(db) then db
    else
      var keys := ObsoleteKeys(db.packs);
      db.(xmlfiles := DetachAll(db.xmlfiles, keys), packs := DeleteObsolete(db.packs))
  }

  /** After the upgrade no XML file names a pack that the upgrade deleted, and
      a file whose pack survived still names it. */
  lemma {:induction false} ApplyLeavesNoDanglingPack(db: Database)
    ensures var r := Apply(db);
      forall k :: k in r.xmlfiles.rows && r.xmlfiles.rows[k].XMLFile? && r.xmlfiles.rows[k].pack.Some? ==>
        var p := r.xmlfiles.rows[k].pack.value;
        !(p in db.packs.rows && IsObsolete(db.packs.rows[p]))
    ensures var r := Apply(db);
      forall k ::
        (k in db.xmlfiles.rows && db.xmlfiles.rows[k].XMLFile? && db.xmlfiles.rows[k].pack.Some? &&
         db.xmlfiles.rows[k].pack.value in r.packs.rows) ==> r.xmlfiles.rows[k] == db.xmlfiles.rows[k]
  {
  }

  /** A second upgrade changes nothing. */
  lemma {:induction false} ApplyIdempotent(db: Database)
    ensures Apply(Apply(db)) == Apply(db)
  {
  }

  /** The upgrade keeps the store's guarantees: rows keep their keys, ids and
      names. */
  lemma {:induction false} ApplyPreservesValid(db: Database)
    requires DatabaseValid(db)
    ensures DatabaseValid(Apply(db))
  {
    if WillModifyDatabase(db) {
      var keys := ObsoleteKeys(db.packs);
      var x := DetachAll(db.xmlfiles, keys);
      assert Valid(x) by {
        assert forall k :: k in x.rows ==> x.rows[k].name == db.xmlfiles.rows[k].name;
      }
      assert Apply(db) == db.(xmlfiles := x, packs := DeleteObsolete(db.packs));
    }
  }

  /** What the user sees happen. */
  datatype Action =
    | Alert(message: string)
    | Download(name: string, mimeType: string, dump: Dump)
    | Reload

  const BackupMessage: string :=
    "The database must be upgraded. A backup of the database will be downloaded automatically by your browser "
    + "in a few seconds. SAVE THE FILE. Once you have saved it, click the button to close this dialog box."
  const ReloadMessage: string := "We will now reload the application."
  const FailureMessage: string := "The upgrade failed! Please file a bug report."

  const BackupName: string := "backup"
  const DumpMimeType: string := "application/json"

  /** What `upgrade` does once the backup `backup` is in hand: when the
      database needs it, warn the user while the backup is downloaded, apply
      the upgrade, announce the reload and reload. A failure of the download
      (`downloadOk`) or of the upgrade transaction (`applyOk`) ends with a
      failure notice and an unchanged database. Returns the database afterwards
      and what the user saw, in order. */
  function Outcome(db: Database, backup: Dump, downloadOk: bool, applyOk: bool)
    : (r: (Database, seq<Action>))
    ensures !WillModifyDatabase(db) ==> r == (db, [])
    ensures WillModifyDatabase(db) ==> |r.1| >= 2 && r.1[0] == Alert(BackupMessage)
    ensures r.0 != db ==> r.0 == Apply(db) && r.1[1] == Download(BackupName, DumpMimeType, backup)
    ensures Reload in r.1 <==> WillModifyDatabase(db) && downloadOk && applyOk
    ensures WillModifyDatabase(db) && downloadOk && applyOk ==>
      r.0 == Apply(db) && |r.1| == 4 && r.1[2] == Alert(ReloadMessage) && r.1[3] == Reload
    ensures WillModifyDatabase(db) && !(downloadOk && applyOk) ==>
      r.0 == db && r.1[|r.1| - 1] == Alert(FailureMessage)
  {
    if !WillModifyDatabase(db) then (db, [])
    else if !downloadOk then (db, [Alert(BackupMessage), Alert(FailureMessage)])
    else if !applyOk then (db, [Alert(BackupMessage), Download(BackupName, DumpMimeType, backup), Alert(FailureMessage)])
    else (Apply(db), [Alert(BackupMessage), Download(BackupName, DumpMimeType, backup), Alert(ReloadMessage), Reload])
  }

  /** `upgrade`, with the backup taken by `dump` at time `now`: the database
      only changes after a backup of it, as it was, has been downloaded. */
  method Upgrade(db: Database, now: string, downloadOk: bool, applyOk: bool)
    returns (after: Database, actions: seq<Action>, backup: Dump)
    ensures IsDumpOf(backup, db, now)
    ensures (after, actions) == Outcome(db, backup, downloadOk, applyOk)
    ensures after != db ==> after == Apply(db) && actions[1].Download? && IsDumpOf(actions[1].dump, db, now)
  {
    backup := DumpDatabase(db, now);
    var outcome := Outcome(db, backup, downloadOk, applyOk);
    after, actions := outcome.0, outcome.1;
  }
}

=== FILE: wrappers.dfy ===
/** Failure-compatible wrappers used throughout the model: `Option` stands for a
    JavaScript value that may be `undefined`, `Result` for a promise that either
    resolves or rejects. */
module Wrappers {

  datatype Option<+T> = None | Some(value: T) {

    /** The wrapped value, or `default` when there is none. */
    function GetOr(default: T): T {
      match this
      case Some(v) => v
      case None => default
    }
  }

  /** A settled promise: resolved with `value` or rejected with `error`. */
  datatype Result<+T, +E> = Ok(value: T) | Err(error: E) {

    predicate IsFailure() {
      Err?
    }

    function PropagateFailure<U>(): Result<U, E>
      requires Err?
    {
      Err(error)
    }

    function Extract(): T
      requires Ok?
    {
      value
    }
  }
}

=== FILE: xml_files_component.dfy ===
/** The XML files page (src/dashboard/xml-files.component.ts): the editing data
    of each row of the files table, memoised so that the page keeps showing one
    answer per file; the page's cache of that data, emptied whenever the packs
    change; launching the editor on a file; and creating a new, empty file. */
module XmlFilesComponent {
  import opened Wrappers
  import opened Errors
  import opened Records
  import opened ChunksService
  import opened DbService
  import opened PacksService
  import Strings
  import Chunks
  import Store
  import XmlFilesService

  // ---------------------------------------------------------------------------
  // Finding a file's pack

  /** The document element as the DOM parser reports it; a missing namespace
      is `None`. */
  datatype TopElement = TopElement(tagName: string, namespaceURI: Option<string>)

  /** The DOM parser: `parseFromString(data, "text/xml").firstElementChild`,
      `None` standing for `null`, a document with no element. Text that is not
      well-formed XML still parses, into a document whose element reports the
      error, so it gives `Some`. */
  type Parser = string -> Option<TopElement>

  /** What the editing data consults: the grammar builder the packs service
      uses, the DOM parser, the chunks table and the packs table. */
  datatype Env = Env(grammar: Grammar, parser: Parser, chunks: ChunkTable, packs: Table)

  /** The namespace the matching data is asked about: the element's, or the
      empty string when it has none. */
  function NamespaceOf(top: TopElement): (ns: string)
    ensures top.namespaceURI.Some? ==> ns == top.namespaceURI.value
    ensures top.namespaceURI.None? ==> ns == ""
  {
    top.namespaceURI.GetOr("")
  }

  /** `findPack`: read the file's text, parse it, and match its document
      element against the packs. Returns the pack, if any, and the packs
      service's matching data afterwards. */
  function FindPack(env: Env, cache: Option<MatchingData>, file: Rec)
    : (r: Res<(Option<Rec>, Option<MatchingData>)>)
    requires file.XMLFile?
    ensures file.chunk !in env.chunks.contents ==> r == Err(MissingChunk)
    ensures file.chunk in env.chunks.contents && env.parser(env.chunks.contents[file.chunk]).None? ==>
      r == Ok((None, cache))
    ensures file.chunk in env.chunks.contents && env.parser(env.chunks.contents[file.chunk]).Some? ==>
      var top := env.parser(env.chunks.contents[file.chunk]).value;
      r == MatchWithPack(env.grammar, env.chunks, env.packs, cache, top.tagName, NamespaceOf(top))
  {
    var data :- Store.ChunkIdToData(env.chunks, file.chunk);
    match env.parser(data)
    case None => Ok((None, cache))
    case Some(top) => MatchWithPack(env.grammar, env.chunks, env.packs, cache, top.tagName, NamespaceOf(top))
  }

  /** `getPack`: the pack the file names manually, which must exist, or else
      the pack found automatically. Not memoised. */
  function GetPack(env: Env, cache: Option<MatchingData>, file: Rec)
    : (r: Res<(Option<Rec>, Option<MatchingData>)>)
    requires file.XMLFile?
    ensures file.pack.Some? ==>
      (r.Ok? <==> file.pack.value >= 0 && file.pack.value in env.packs.rows)
    ensures file.pack.Some? && r.Ok? ==> r.value == (Some(env.packs.rows[file.pack.value]), cache)
    ensures file.pack.Some? && r.Err? ==> r.error == CannotLoadPack(file.pack.value)
    ensures file.pack.None? ==> r == FindPack(env, cache, file)
  {
    if file.pack.Some? then
      match GetRecordById(env.packs, file.pack.value)
      case None => Err(CannotLoadPack(file.pack.value))
      case Some(p) => Ok((Some(p), cache))
    else FindPack(env, cache, file)
  }

  /** A file without a manual pack whose text parses to `top` is matched, with
      a coherent cache, to the pack with the largest id among those that
      contribute the element's key; and it is matched to some pack exactly
      when some pack contributes the key. */
  lemma {:induction false} AutomaticPackIsNewestContributor(env: Env, cache: Option<MatchingData>, file: Rec,
                                                            top: TopElement)
    requires file.XMLFile? && file.pack.None?
    requires file.chunk in env.chunks.contents && env.parser(env.chunks.contents[file.chunk]) == Some(top)
    requires Coherent(env.grammar, env.chunks, env.packs, cache)
    requires GetPack(env, None, file).Ok?
    ensures GetPack(env, cache, file).Ok?
    ensures var m := GetPack(env, cache, file).value.0;
      var key := MakeMatchKey(top.tagName, NamespaceOf(top));
      var keysOf := PackKeysOf(env.grammar, env.chunks);
      && (m.Some? <==> exists e :: e in Entries(env.packs) && Contributes(keysOf, e, key))
      && (m.Some? ==>
            exists e :: e in Entries(env.packs) && Contributes(keysOf, e, key) && m.value == e.pack
              && (forall e2 :: e2 in Entries(env.packs) && Contributes(keysOf, e2, key) ==> e2.id <= e.id))
  {
    var ns := NamespaceOf(top);
    assert GetPack(env, None, file) == MatchWithPack(env.grammar, env.chunks, env.packs, None, top.tagName, ns);
    CoherentMatchIsFresh(env.grammar, env.chunks, env.packs, cache, top.tagName, ns);
    FreshMatchIsNewestContributor(env.grammar, env.chunks, env.packs, top.tagName, ns);
  }

  // ---------------------------------------------------------------------------
  // CachedEditingData

  /** `CachedEditingData`: the file it was made for and the three memoised
      promises, each `None` until first asked for. A rejected promise is
      memoised like a resolved one. */
  datatype EditingData = EditingData(record: Rec, editable: Option<Res<bool>>,
                                     editingDisabled: Option<Res<Option<string>>>,
                                     editButtonTitle: Option<Res<string>>)

  function NewEditingData(record: Rec): (d: EditingData)
    ensures d.record == record && d.editable.None? && d.editingDisabled.None? && d.editButtonTitle.None?
  {
    EditingData(record, None, None, None)
  }

  /** The `disabled` attribute of the edit button: `None` (`null`, no
      attribute) for an editable file, the empty string otherwise. */
  function DisabledAttr(editable: Res<bool>): (r: Res<Option<string>>)
    ensures editable.Err? ==> r == Err(editable.error)
    ensures editable == Ok(true) ==> r == Ok(None)
    ensures editable == Ok(false) ==> r == Ok(Some(""))
  {
    match editable
    case Err(e) => Err(e)
    case Ok(b) => Ok(if b then None else Some(""))
  }

  const EditTitle: string := "Edit"
  const NeedsPackTitle: string := "This file needs a pack before editing."

  /** The title of the edit button. */
  function ButtonTitle(editable: Res<bool>): (r: Res<string>)
    ensures editable.Err? ==> r == Err(editable.error)
    ensures editable == Ok(true) ==> r == Ok(EditTitle)
    ensures editable == Ok(false) ==> r == Ok(NeedsPackTitle)
  {
    match editable
    case Err(e) => Err(e)
    case Ok(b) => Ok(if b then EditTitle else NeedsPackTitle)
  }

  /** The memos agree: the button's attribute and title, once memoised, were
      derived from the memoised `editable`. */
  predicate MemoConsistent(d: EditingData) {
    && (d.editingDisabled.Some? ==> d.editable.Some? && d.editingDisabled.value == DisabledAttr(d.editable.value))
    && (d.editButtonTitle.Some? ==> d.editable.Some? && d.editButtonTitle.value == ButtonTitle(d.editable.value))
  }

  /** `editable`: memoised; the first call asks `getPack` and records whether a
      pack came back. Returns the editing data and the packs service's
      matching data afterwards; the answer is `r.0.editable.value`. */
  function Editable(env: Env, cache: Option<MatchingData>, d: EditingData)
    : (r: (EditingData, Option<MatchingData>))
    requires d.record.XMLFile?
    ensures r.0.editable.Some? && r.0.record == d.record
    ensures r.0.editingDisabled == d.editingDisabled && r.0.editButtonTitle == d.editButtonTitle
    ensures d.editable.Some? ==> r == (d, cache)
    ensures d.editable.None? ==>
      var p := GetPack(env, cache, d.record);
      && (r.0.editable.value == Ok(true) <==> p.Ok? && p.value.0.Some?)
      && (r.0.editable.value == Ok(false) <==> p.Ok? && p.value.0.None?)
      && (r.0.editable.value.Err? <==> p.Err?)
      && (p.Err? ==> r.0.editable.value.error == p.error && r.1 == cache)
      && (p.Ok? ==> r.1 == p.value.1)
    ensures MemoConsistent(d) ==> MemoConsistent(r.0)
  {
    if d.editable.Some? then (d, cache)
    else
      match GetPack(env, cache, d.record)
      case Err(e) => (d.(editable := Some(Err(e))), cache)
      case Ok((p, c2)) => (d.(editable := Some(Ok(p.Some?))), c2)
  }

  /** `editingDisabled`: memoised, derived from `editable`. */
  function EditingDisabled(env: Env, cache: Option<MatchingData>, d: EditingData)
    : (r: (EditingData, Option<MatchingData>))
    requires d.record.XMLFile?
    requires MemoConsistent(d)
    ensures r.0.editable.Some? && r.0.editingDisabled.Some? && r.0.record == d.record
    ensures r.0.editButtonTitle == d.editButtonTitle
    ensures d.editable.Some? ==> r.0.editable == d.editable
    ensures d.editingDisabled.Some? ==> r == (d, cache)
    ensures MemoConsistent(r.0)
    ensures r.0.editingDisabled.value == DisabledAttr(r.0.editable.value)
  {
    if d.editingDisabled.Some? then (d, cache)
    else
      var (d2, c2) := Editable(env, cache, d);
      (d2.(editingDisabled := Some(DisabledAttr(d2.editable.value))), c2)
  }

  /** `editButtonTitle`: memoised, derived from `editable`. */
  function EditButtonTitle(env: Env, cache: Option<MatchingData>, d: EditingData)
    : (r: (EditingData, Option<MatchingData>))
    requires d.record.XMLFile?
    requires MemoConsistent(d)
    ensures r.0.editable.Some? && r.0.editButtonTitle.Some? && r.0.record == d.record
    ensures r.0.editingDisabled == d.editingDisabled
    ensures d.editable.Some? ==> r.0.editable == d.editable
    ensures d.editButtonTitle.Some? ==> r == (d, cache)
    ensures MemoConsistent(r.0)
    ensures r.0.editButtonTitle.value == ButtonTitle(r.0.editable.value)
  {
    if d.editButtonTitle.Some? then (d, cache)
    else
      var (d2, c2) := Editable(env, cache, d);
      (d2.(editButtonTitle := Some(ButtonTitle(d2.editable.value))), c2)
  }

  /** Whatever the packs table and the matching data look like when the
      button's attribute and title are asked for, in either order, they agree
      with the answer `editable` gave first: the button is enabled exactly
      when it is titled "Edit". */
  lemma {:induction false} ButtonAgreesWithEditable(d: EditingData,
                                                    e1: Env, c1: Option<MatchingData>,
                                                    e2: Env, c2: Option<MatchingData>,
                                                    e3: Env, c3: Option<MatchingData>)
    requires d.record.XMLFile? && MemoConsistent(d)
    ensures var d1 := Editable(e1, c1, d).0;
      var d2 := EditingDisabled(e2, c2, d1).0;
      var d3 := EditButtonTitle(e3, c3, d2).0;
      && d3.editable == d1.editable
      && d3.editingDisabled.value == DisabledAttr(d1.editable.value)
      && d3.editButtonTitle.value == ButtonTitle(d1.editable.value)
      && (d3.editingDisabled.value == Ok(None) <==> d3.editButtonTitle.value == Ok(EditTitle))
    ensures var d1 := Editable(e1, c1, d).0;
      var d2 := EditButtonTitle(e2, c2, d1).0;
      var d3 := EditingDisabled(e3, c3, d2).0;
      && d3.editable == d1.editable
      && d3.editingDisabled.value == DisabledAttr(d1.editable.value)
      && d3.editButtonTitle.value == ButtonTitle(d1.editable.value)
  {
    var d1 := Editable(e1, c1, d).0;
    assert MemoConsistent(d1);
    var a2 := EditingDisabled(e2, c2, d1).0;
    var a3 := EditButtonTitle(e3, c3, a2).0;
    assert a3.editable == d1.editable;
    var b2 := EditButtonTitle(e2, c2, d1).0;
    var b3 := EditingDisabled(e3, c3, b2).0;
    assert b3.editable == d1.editable;
  }

  /** Asking `editable` again, under any packs table and matching data, gives
      the first answer and leaves the memo as it was. */
  lemma {:induction false} EditableMemoised(d: EditingData, e1: Env, c1: Option<MatchingData>,
                                            e2: Env, c2: Option<MatchingData>)
    requires d.record.XMLFile?
    ensures var d1 := Editable(e1, c1, d).0; Editable(e2, c2, d1) == (d1, c2)
  {
  }

  // ---------------------------------------------------------------------------
  // The component's cache of editing data

  /** `cachedEditingData`, keyed by `String(record.id)`. That rendering is
      one-to-one on ids (a number or `undefined`), so the model keys by the
      id itself. */
  type EditingCache = map<Option<nat>, EditingData>

  /** Every cached entry was made for an XML file, with consistent memos. */
  predicate CacheValid(m: EditingCache) {
    forall k :: k in m ==> m[k].record.XMLFile? && MemoConsistent(m[k])
  }

  /** `getEditingData`: the cached data under the record's id, made fresh from
      this record when there is none. A cached entry is returned as it is,
      even if it was made from an older copy of the record. */
  function GetEditingData(m: EditingCache, record: Rec): (r: (EditingCache, EditingData))
    ensures record.id in r.0 && r.0[record.id] == r.1
    ensures record.id in m ==> r == (m, m[record.id])
    ensures record.id !in m ==> r.1 == NewEditingData(record) && r.0 == m[record.id := r.1]
    ensures forall k :: k in m ==> k in r.0 && (k != record.id ==> r.0[k] == m[k])
    ensures r.0.Keys == m.Keys + {record.id}
    ensures CacheValid(m) && record.XMLFile? ==> CacheValid(r.0)
  {
    if record.id in m then (m, m[record.id])
    else
      var d := NewEditingData(record);
      (m[record.id := d], d)
  }

  /** Asking twice for the same file's editing data changes nothing. */
  lemma {:induction false} GetEditingDataIdempotent(m: EditingCache, record: Rec)
    ensures var (m1, d1) := GetEditingData(m, record); GetEditingData(m1, record) == (m1, d1)
  {
  }

  /** The handler of the packs service's `change`: the page forgets all its
      editing data. */
  function OnPacksChange(m: EditingCache): (r: EditingCache)
    ensures r == map[]
    ensures CacheValid(r)
  {
    map[]
  }

  /** After a change of the packs table, with the packs service handling its
      own change notification as intended, every file's editing data answers
      as if nothing had been cached anywhere. */
  lemma {:induction false} EditableAfterPacksChange(env: Env, m: EditingCache, record: Rec,
                                                    before: Table, cache: Option<MatchingData>)
    requires record.XMLFile?
    requires env.packs.changes != before.changes
    ensures var (_, d) := GetEditingData(OnPacksChange(m), record);
      var c := OnChange(cache, before, env.packs);
      Editable(env, c, d).0 == Editable(env, None, NewEditingData(record)).0
  {
  }

  // ---------------------------------------------------------------------------
  // Launching the editor

  const EditBase: string := "../kitchen-sink.html?nodemo=1&localstorage="

  /** The editor's address for a file and its pack, `here` being the page's
      own address. */
  function EditorURL(fileURL: string, packURL: string, here: string): (u: string)
    ensures Strings.StartsWith(u, EditBase)
    ensures u[|EditBase|..] == fileURL + "&pack=" + packURL + "&management=" + here
  {
    var u := EditBase + fileURL + "&pack=" + packURL + "&management=" + here;
    assert u == EditBase + (fileURL + "&pack=" + packURL + "&management=" + here);
    u
  }

  /** `edit`: find the pack through the file's (possibly just made) editing
      data, without memoising, and compute the editor's address from the
      file's and the pack's store URLs. Returns the address, the page's cache
      and the packs service's matching data afterwards. */
  function Edit(env: Env, cache: Option<MatchingData>, m: EditingCache, record: Rec, here: string)
    : (r: (Res<string>, EditingCache, Option<MatchingData>))
    requires record.XMLFile? && CacheValid(m)
    ensures r.1 == GetEditingData(m, record).0
    ensures var p := GetPack(env, cache, GetEditingData(m, record).1.record);
      && (p.Err? ==> r.0 == Err(p.error) && r.2 == cache)
      && (p.Ok? ==> r.2 == p.value.1)
      && (p.Ok? && p.value.0.None? ==> r.0 == Err(EditWithoutPack))
      && (r.0.Ok? <==> p.Ok? && p.value.0.Some? && record.id.Some? && p.value.0.value.id.Some?)
      && (r.0.Ok? ==>
            r.0.value == EditorURL(XmlFilesService.MakeIndexedDBURL(record, None).value,
                                   PacksService.MakeIndexedDBURL(p.value.0.value, None).value, here))
  {
    var (m2, d) := GetEditingData(m, record);
    match GetPack(env, cache, d.record)
    case Err(e) => (Err(e), m2, cache)
    case Ok((pack, c2)) =>
      if pack.None? then (Err(EditWithoutPack), m2, c2)
      else
        match XmlFilesService.MakeIndexedDBURL(record, None)
        case Err(e) => (Err(e), m2, c2)
        case Ok(fileURL) =>
          match PacksService.MakeIndexedDBURL(pack.value, None)
          case Err(e) => (Err(e), m2, c2)
          case Ok(packURL) => (Ok(EditorURL(fileURL, packURL, here)), m2, c2)
  }

  /** A pack `getPack` comes back with is a row of the packs table, so it
      carries its key as id. */
  lemma {:induction false} GetPackHasId(env: Env, cache: Option<MatchingData>, file: Rec)
    requires file.XMLFile? && KeyedById(env.packs)
    requires GetPack(env, cache, file).Ok? && GetPack(env, cache, file).value.0.Some?
    ensures GetPack(env, cache, file).value.0.value.id.Some?
  {
    var pack := GetPack(env, cache, file).value.0.value;
    if file.pack.None? {
      var top := env.parser(env.chunks.contents[file.chunk]).value;
      var ns := NamespaceOf(top);
      var (data, _) := GetMatchingData(env.grammar, env.chunks, env.packs, cache).value;
      var key := MakeMatchKey(top.tagName, ns);
      assert Some(pack) == GetRecordById(env.packs, data[key]);
    }
  }

  /** For a saved file seen for the first time, the editor launches exactly
      when the page shows the file as editable; it refuses with "without a
      pack" when the page shows it as not editable, and with the page's own
      error when the page could not tell. */
  lemma {:induction false} EditIffEditable(env: Env, cache: Option<MatchingData>, m: EditingCache,
                                           record: Rec, here: string)
    requires record.XMLFile? && CacheValid(m) && record.id !in m
    requires record.id.Some? && KeyedById(env.packs)
    ensures var answer := Editable(env, cache, NewEditingData(record)).0.editable.value;
      var launched := Edit(env, cache, m, record, here).0;
      && (launched.Ok? <==> answer == Ok(true))
      && (answer == Ok(false) ==> launched == Err(EditWithoutPack))
      && (answer.Err? ==> launched == Err(answer.error))
  {
    assert GetEditingData(m, record).1.record == record;
    var p := GetPack(env, cache, record);
    if p.Ok? && p.value.0.Some? {
      GetPackHasId(env, cache, record);
    }
  }

  // ---------------------------------------------------------------------------
  // Creating a new file

  const NewFilePrompt: string := "Give a name to your new file"

  /** `newFile` as intended: `name` is what the user typed at the prompt and
      `answer` what they would answer if asked whether to overwrite. An empty
      name, or a declined overwrite, does nothing; otherwise an empty file is
      made and saved, under the existing file's id when the name is taken. */
  function NewFile(digest: Chunks.Digest, chunks: ChunkTable, t: Table, name: string, answer: bool)
    : (r: Res<(ChunkTable, Table)>)
    ensures name == "" ==> r == Ok((chunks, t))
    ensures r.Ok? ==> Extends(r.value.0, chunks)
    ensures name != "" && GetRecordByName(t, name).Some? && !answer ==> r == Ok((chunks, t))
  {
    if name == "" then Ok((chunks, t))
    else
      var (check, _) := WriteCheck(t, name, answer);
      if !check.write then Ok((chunks, t))
      else
        var (c2, made) :- XmlFilesService.MakeRecord(digest, chunks, name, "");
        var file := if check.record.Some? then Reidentified(made, check.record.value.id) else made;
        var (t2, _) :- UpdateRecord(t, file);
        Ok((c2, t2))
  }

  /** `newRecord.id = record.id` on the XML file `newRecord`. */
  function Reidentified(file: Rec, id: Option<nat>): (r: Rec)
    requires file.XMLFile?
    ensures r.XMLFile? && r.id == id && r.name == file.name && r.recordVersion == file.recordVersion
    ensures r.chunk == file.chunk && r.pack == file.pack
  {
    XMLFile(id, file.name, file.recordVersion, file.chunk, file.pack)
  }

  /** The empty file of that name the store ends up holding under `key`. */
  function EmptyFile(digest: Chunks.Digest, name: string, key: nat): (f: Rec)
    ensures f.XMLFile? && f.id == Some(key) && f.name == name && f.pack.None? && f.chunk == digest("")
  {
    XMLFile(Some(key), name, CommonRecordVersion, digest(""), None)
  }

  /** A new name creates a row under the next key, holding an empty file. */
  lemma {:induction false} NewFileCreates(digest: Chunks.Digest, chunks: ChunkTable, t: Table,
                                          name: string, answer: bool)
    requires Valid(t) && name != ""
    requires forall k :: k in t.rows ==> t.rows[k].name != name
    requires XmlFilesService.MakeRecord(digest, chunks, name, "").Ok?
    ensures var r := NewFile(digest, chunks, t, name, answer);
      && r.Ok?
      && r.value.1.rows == t.rows[t.nextId := EmptyFile(digest, name, t.nextId)]
      && t.nextId !in t.rows
      && Valid(r.value.1)
      && r.value.0.contents[digest("")] == ""
  {
    assert GetRecordByName(t, name).None?;
    var (c2, made) := XmlFilesService.MakeRecord(digest, chunks, name, "").value;
    assert made == NewXMLFile(name, digest(""));
    assert !NameTaken(t, name, t.nextId);
  }

  /** A taken name, once the overwrite is confirmed, replaces that row with an
      empty file under the same key; no row is added. */
  lemma {:induction false} NewFileOverwrites(digest: Chunks.Digest, chunks: ChunkTable, t: Table,
                                             name: string, k: nat)
    requires Valid(t) && name != ""
    requires k in t.rows && t.rows[k].name == name
    requires XmlFilesService.MakeRecord(digest, chunks, name, "").Ok?
    ensures var r := NewFile(digest, chunks, t, name, true);
      && r.Ok?
      && r.value.1.rows == t.rows[k := EmptyFile(digest, name, k)]
      && r.value.1.rows.Keys == t.rows.Keys
      && Valid(r.value.1)
  {
    assert GetRecordByName(t, name) == Some(t.rows[k]);
    var (c2, made) := XmlFilesService.MakeRecord(digest, chunks, name, "").value;
    assert made == NewXMLFile(name, digest(""));
    assert !NameTaken(t, name, k);
  }

  /** What an unbound `ConfirmService.confirm` throws: it reads its
      `confirmer` field off `undefined`. */
  const UnboundConfirm: string := "Cannot read property 'confirmer' of undefined"

  /** `newFile` as written: the confirmer handed to `writeCheck` is the
      service's method detached from the service, so asking the user throws
      instead of asking. */
  function NewFileAsWritten(digest: Chunks.Digest, chunks: ChunkTable, t: Table, name: string)
    : (r: Res<(ChunkTable, Table)>)
    ensures name == "" ==> r == Ok((chunks, t))
    ensures name != "" && GetRecordByName(t, name).Some? ==> r == Err(TypeError(UnboundConfirm))
    ensures Valid(t) && r.Ok? && name != "" ==> GetRecordCount(r.value.1) == GetRecordCount(t) + 1
  {
    if name == "" then Ok((chunks, t))
    else
      match GetRecordByName(t, name)
      case Some(_) => Err(TypeError(UnboundConfirm))
      case None =>
        var (c2, made) :- XmlFilesService.MakeRecord(digest, chunks, name, "");
        var (t2, _) :- UpdateRecord(t, made);
        Ok((c2, t2))
  }

  /** The discrepancy: for a name already taken, the code as written fails
      with a TypeError and never puts the question, whatever the user would
      have answered, where the intended behaviour overwrites on a yes. For a
      fresh name both agree. */
  lemma {:induction false} NewFileAsWrittenNeverAsks(digest: Chunks.Digest, chunks: ChunkTable, t: Table,
                                                     name: string, k: nat)
    requires Valid(t) && name != ""
    requires k in t.rows && t.rows[k].name == name
    requires XmlFilesService.MakeRecord(digest, chunks, name, "").Ok?
    ensures NewFileAsWritten(digest, chunks, t, name) == Err(TypeError(UnboundConfirm))
    ensures NewFile(digest, chunks, t, name, true).Ok?
    ensures WriteCheck(t, name, true).1 == Some(OverwriteQuestion(name))
  {
    assert GetRecordByName(t, name).Some?;
    NewFileOverwrites(digest, chunks, t, name, k);
  }

  /** For a name nobody holds, the code as written does what was intended. */
  lemma {:induction false} NewFileAsWrittenFreshName(digest: Chunks.Digest, chunks: ChunkTable, t: Table,
                                                     name: string, answer: bool)
    requires forall k :: k in t.rows ==> t.rows[k].name != name
    ensures NewFileAsWritten(digest, chunks, t, name) == NewFile(digest, chunks, t, name, answer)
  {
    assert GetRecordByName(t, name).None?;
  }
}

=== FILE: xml_files_service.dfy ===
/** The XML files service (src/dashboard/xml-files.service.ts): XML files wrap
    a chunk of their text, and may name a pack manually. */
module XmlFilesService {
  import opened Wrappers
  import opened Errors
  import opened Records
  import opened Chunks
  import opened ChunksService
  import opened DbService
  import Store

  /** `makeRecord`: store the text as a chunk and wrap its id in a new, unsaved
      XML file of the given name. */
  function MakeRecord(digest: Digest, chunks: ChunkTable, name: string, data: string)
    : (r: Res<(ChunkTable, Rec)>)
    ensures r.Ok? <==> StoreText(digest, chunks, data).Ok?
    ensures r.Err? ==> r.error == ContentMismatch(digest(data))
    ensures r.Ok? ==>
      var (c2, file) := r.value;
      && file.XMLFile? && file.id.None? && file.name == name && file.pack.None?
      && file.chunk == digest(data)
      && file.chunk in c2.contents && c2.contents[file.chunk] == data
      && Extends(c2, chunks)
  {
    var (c2, id) :- StoreText(digest, chunks, data);
    Ok((c2, NewXMLFile(name, id)))
  }

  /** The service's `makeRecord` as the generic service sees it. */
  function Maker(digest: Digest): Maker {
    (c, n, d) => MakeRecord(digest, c, n, d)
  }

  /** `getDownloadData`: the text of the file's chunk. */
  function GetDownloadData(chunks: ChunkTable, file: Rec): (r: Res<string>)
    requires file.XMLFile?
    ensures r.Ok? <==> file.chunk in chunks.contents
    ensures r.Ok? ==> r.value == chunks.contents[file.chunk]
  {
    Store.ChunkIdToData(chunks, file.chunk)
  }

  /** Downloading a file made from `data` gives back `data`. */
  lemma {:induction false} DownloadRoundTrip(digest: Digest, chunks: ChunkTable, name: string, data: string)
    requires MakeRecord(digest, chunks, name, data).Ok?
    ensures var (c2, file) := MakeRecord(digest, chunks, name, data).value;
      GetDownloadData(c2, file) == Ok(data)
  {
  }

  /** Saving a made file and reading its text back through the store, after any
      later chunk storage that extends the table, still gives `data`. */
  lemma {:induction false} DownloadAfterLaterChunks(digest: Digest, chunks: ChunkTable, name: string,
                                                   data: string, later: ChunkTable)
    requires MakeRecord(digest, chunks, name, data).Ok?
    requires Extends(later, MakeRecord(digest, chunks, name, data).value.0)
    ensures GetDownloadData(later, MakeRecord(digest, chunks, name, data).value.1) == Ok(data)
  {
    var (c2, file) := MakeRecord(digest, chunks, name, data).value;
    assert file.chunk in c2.contents;
  }

  /** `makeIndexedDBURL` for an XML file. */
  function MakeIndexedDBURL(file: Rec, property: Option<string>): (r: Res<string>)
    ensures r.Ok? <==> file.id.Some?
    ensures r.Ok? ==> r == Store.MakeIndexedDBURL(Store.XmlFilesInfo, Store.RecordArg(file), property)
    ensures file.id.Some? && property.None? ==>
      r == Ok("indexeddb://v1/wed/xmlfiles/number/" + Strings.NatToString(file.id.value))
    ensures file.id.Some? && property.Some? ==>
      r == Ok("indexeddb://v1/wed/xmlfiles/number/" + Strings.NatToString(file.id.value) + "/" + property.value)
  {
    assert Store.TablePrefix(Store.XmlFilesInfo, "number") == "indexeddb://v1/wed/xmlfiles/number/";
    assert file.id.Some? ==> Store.ResolveKey(Store.XmlFilesInfo, Store.RecordArg(file)) == Ok(Store.Number(file.id.value));
    assert file.id.None? ==> Store.ResolveKey(Store.XmlFilesInfo, Store.RecordArg(file)) == Ok(Store.Undefined);
    Store.MakeIndexedDBURL(Store.XmlFilesInfo, Store.RecordArg(file), property)
  }

  /** The XML file rows of `s` whose manual pack is `pack`, in order. */
  function WithPack(s: seq<Rec>, pack: int): (r: seq<Rec>)
    ensures forall x :: x in r <==> x in s && x.XMLFile? && x.pack == Some(pack)
    ensures |r| <= |s|
    decreases |s|
  {
    if s == [] then []
    else
      var rest := WithPack(s[1..], pack);
      assert forall x :: x in s <==> x == s[0] || x in s[1..];
      if s[0].XMLFile? && s[0].pack == Some(pack) then [s[0]] + rest else rest
  }

  /** `getByPack`: the files that name that pack, in primary-key order. */
  function GetByPack(t: Table, pack: int): (r: seq<Rec>)
    ensures forall x :: x in r ==> x in t.rows.Values && x.XMLFile? && x.pack == Some(pack)
    ensures forall k :: k in t.rows && t.rows[k].XMLFile? && t.rows[k].pack == Some(pack) ==> t.rows[k] in r
  {
    var s := GetRecords(t);
    var r := WithPack(s, pack);
    assert forall x :: x in s ==> x in t.rows.Values;
    r
  }

  /** `isPackUsed`: whether some file names that pack. */
  function IsPackUsed(t: Table, pack: int): (b: bool)
    ensures b <==> exists k :: k in t.rows && t.rows[k].XMLFile? && t.rows[k].pack == Some(pack)
  {
    var r := GetByPack(t, pack);
    if r == [] then false
    else
      assert r[0] in t.rows.Values;
      true
  }

  /** A pack is used exactly when `getByPack` finds something. */
  lemma {:induction false} IsPackUsedIffGetByPack(t: Table, pack: int)
    ensures IsPackUsed(t, pack) <==> GetByPack(t, pack) != []
  {
    if GetByPack(t, pack) != [] {
      var x := GetByPack(t, pack)[0];
      assert x in GetByPack(t, pack);
      var k :| k in t.rows && t.rows[k] == x;
    }
  }
}
